=== FILE: README.md ===
# wiredoor-cli decision logic in Dafny

This project models the sequential decision logic of the wiredoor command-line client. The client is a Go program that connects a machine to a Wiredoor server over a WireGuard tunnel (`wg0`) and exposes local HTTP and TCP services through that server.

Every operation is a pure function. It takes a snapshot of what the program would observe:
- whether `/etc/wireguard/wg0.conf` exists;
- whether `ip link show wg0` succeeds;
- the addresses on `wg0`;
- `/etc/os-release`;
- the API replies;
- whether `wg-quick` succeeds;
- whether removing `wg0.conf` succeeds.

It returns a `Run`, which has three parts:
- an ordered trace of actions: HTTP requests, printed lines, config saves, the `wg0.conf` write and removal, subprocesses, confirmation prompts, sleeps;
- the configuration file as it stands afterwards;
- how the process ends: normally, with `log.Fatal`, with `os.Exit(code)`, with a usage error, or still looping.

Modules:
- `ConfigStore`: `/etc/wiredoor/config.ini` as a section → key → value map, with its defaults, the two save functions, `getConfig`, `parseBool` and `boolToString`.
- `Api`: the override selection and status-code classification of `requestApi`, and the calls built on it:
  - `AdminLogin`, `ConfigureNode`, `GetNode`, `GetNodeConfig`, `GetApiConfig`;
  - enable and disable;
  - expose;
  - the service summary lines.
- `Regeneration`: `RegenerateKeys` and the `regenerate` command.
- `Connection`: `Connect`, `Disconnect`, `RestartTunnel` and the `manualLinux…` functions they call.
- `Monitor`: `Status`, `Health`, `WatchHealt`, `CheckWiredoorServer` and `printNodeInfoDetails`.
- `Units`: the unit selection of `formatBytes`.
- `InitService`: `getDistroID`, `getInitSystem` and the `systemctl` / `rc-service` / `rc-update` argument tables.
- `Network`: the gateway address of `LocalServerIP` and the `dev <name>` match of `GetDefaultInterfaceName`.
- `Commands`: the `Run` functions of the `connect`, `status`, `http`, `tcp`, `enable`, `disable` and `gateway` commands.
- `Text`: the string helpers these need (trim, case, split and join, `\n` escapes, decimal integers).
- `Effects`, `Entities`, `Wrappers`: actions and runs, the API records, and `Option` / `Result`.

## Model

A configuration file that cannot be read ends every command fatally at its first configuration access. Each "iff" below that mentions a request, a save or a POST holds for a readable configuration, as the member's contract states.

| member | source | states |
|---|---|---|
| ConfigStore.OpenReadsDefaultsWhenMissing | wiredoor/config.go:106-137 | Right after opening, a missing file that can be created reads as the defaults (empty url/token/path, keepalive "25", daemon off) and an existing file as its own five keys |
| ConfigStore.Set | wiredoor/config.go:55-56 | Writing one key makes it read back as the value and leaves every other section/key unchanged |
| ConfigStore.SaveServer | wiredoor/config.go:48-59 | `SaveServerConfig` changes `server.url` and `server.token` only; every other key keeps its value |
| ConfigStore.SaveDaemon | wiredoor/config.go:61-70 | `SaveDaemonConfig` changes `daemon.enabled` only, and writes `boolToString(useDaemon)` there |
| ConfigStore.GetConfigReadsFiveKeys | wiredoor/config.go:84-104 | `getConfig` depends on exactly the five keys `server.url`, `server.token`, `server.path`, `client.keepalive`, `daemon.enabled` |
| ConfigStore.BoolToString | wiredoor/config.go:144-149 | `boolToString` yields only "true" or "false" |
| ConfigStore.BoolRoundTrip | wiredoor/config.go:139-149 | `parseBool(boolToString(b)) == b` |
| ConfigStore.ReadsAsItself | wiredoor/config.go:139-142 | On an unpadded lower-case word, `parseBool` is true exactly for "1", "true", "yes", "on" |
| ConfigStore.ParseBoolIgnoresPadding | wiredoor/config.go:140 | Surrounding whitespace does not change what `parseBool` returns |
| ConfigStore.ParseBoolAcceptsAnyCase | wiredoor/config.go:140-141 | Any upper/lower-case spelling of the four true words parses as true |
| ConfigStore.SaveDaemonReadsBack | wiredoor/config.go:61-82 | After `SaveDaemonConfig(b)`, `IsDaemonEnabled` is `b` and `IsServerConfigSet` is unchanged |
| ConfigStore.SaveServerReadsBack | wiredoor/config.go:48-59 | After `SaveServerConfig(u, t)`, `IsServerConfigSet` holds iff both are non-empty; the daemon flag, path and keepalive are unchanged |
| ConfigStore.DefaultsAreUnconfigured | wiredoor/config.go:14-26 | The defaults read as empty url/token/path, keepalive "25", daemon "false"; neither `IsServerConfigSet` nor `IsDaemonEnabled` holds |
| InitService.FirstIdLine | wiredoor/service.go:81-82 | Finds the first line with prefix "ID=": no earlier line has that prefix |
| InitService.DistroId | wiredoor/service.go:76-87 | The distro ID never starts or ends with a '"' |
| InitService.DistroIdUnreadable | wiredoor/service.go:77-80 | An unreadable `/etc/os-release` gives "" |
| InitService.DistroIdWithoutIdLine | wiredoor/service.go:81-86 | With no line starting "ID=", the ID is "" |
| InitService.DistroIdOfFirstIdLine | wiredoor/service.go:81-84 | The ID is the text after "ID=" on the first such line, with '"' trimmed from both ends |
| InitService.VersionIdIsNotId | wiredoor/service.go:82 | A `VERSION_ID=` line never matches the "ID=" prefix |
| InitService.InitSystemOf | wiredoor/service.go:90-96 | "openrc" exactly for "alpine"; every other ID, including "", gives "systemd" |
| InitService.ServiceArgv | wiredoor/service.go:11-73 | The argv table succeeds exactly for "systemd" and "openrc"; on systemd it is `systemctl <verb word> wiredoor.service`, on openrc `rc-service wiredoor <verb word>` for start/stop/restart; otherwise it reports "unsupported init system: …" |
| InitService.OpenRcTable | wiredoor/service.go:17-69 | On openrc: `rc-service wiredoor <verb word>` for start/stop/restart, `rc-update add wiredoor default` to enable, `rc-update del wiredoor` to disable |
| InitService.ServiceArgvInjective | wiredoor/service.go:11-73 | Different verbs never run the same command line |
| InitService.InitSystemAlwaysSupported | wiredoor/service.go:18-19 | The "unsupported init system" branch cannot be reached for any distro ID |
| InitService.ServiceCommand | wiredoor/service.go:11-73 | Every service function runs one of `systemctl`, `rc-service`, `rc-update` with at least three words |
| InitService.ServiceCommandFollowsTable | wiredoor/service.go:12-15 | The command run is the table entry for the detected init system; it is `systemctl` iff the distro is not alpine |
| Network.GatewayAddress | utils/network.go:56 | The rewritten address ends in .1 |
| Network.GatewayAddressKeepsNetwork | utils/network.go:49-58 | The first three octets are kept, and rewriting twice equals rewriting once |
| Network.DottedRoundTrip | utils/network.go:58 | The dotted-quad text of an IPv4 address parses back to the same address |
| Network.LocalServerIP | utils/network.go:40-59 | "" iff `wg0` is missing or has no address; otherwise the text parses to the first address with its last octet set to 1 |
| Network.LocalServerIPIsFixedPoint | utils/network.go:56 | Applying `LocalServerIP` to its own output gives the same text |
| Network.FindMatch | utils/network.go:107-108 | Finds the leftmost position where "dev" plus whitespace plus a non-space character starts; none earlier matches |
| Network.Capture | utils/network.go:107 | The captured name is non-empty, holds no whitespace, starts right after the whole run of whitespace that follows "dev", and ends at whitespace or at the end of the output |
| Network.CaptureIsUnique | utils/network.go:107 | Any non-empty, whitespace-free text placed as Capture's contract describes is the capture itself |
| Network.DefaultInterfaceName | utils/network.go:98-113 | "eth0" when `ip route` fails or nothing matches; otherwise the trimmed capture at the leftmost match |
| Network.DefaultInterfaceNameReadsName | utils/network.go:107-112 | On output "dev <name><rest>" with a non-space name and a rest starting with whitespace or empty, the name is returned |
| Api.Override | wiredoor/api.go:502-507 | A non-empty explicit value wins, otherwise the configured one is used |
| Api.PrepareChoosesServerAndTimeout | wiredoor/api.go:502-515 | The request's server overrides the configured URL when non-empty; the timeout is the request's when positive, else 20 |
| Api.PrepareAuthorization | wiredoor/api.go:533-547 | An `Authorization: Bearer <token>` header is added iff the chosen token is non-empty; the request token wins over the configured one |
| Api.Respond | wiredoor/api.go:549-595 | The body is dropped exactly for transport errors, 400, 401, 403, 422 and any status >= 500; other statuses return the body unchanged |
| Api.RespondSilence | wiredoor/api.go:549-595 | `requestApi` prints nothing exactly for an accepted status whose body was read, or for a 422 without body errors; that 422 is the only nil result that prints nothing |
| Api.UnprocessablePrintsBodyErrorsOnly | wiredoor/api.go:573-584 | A 422 prints exactly one "Error - field:" line per entry of `errors.body` and none for `errors.params` |
| Api.AdminLogin | wiredoor/api.go:169-192 | POSTs the credentials to `/auth/login`, followed by what `requestApi` prints; succeeds iff a body came back and decodes to a non-empty token, and returns that token; a decode error is returned as it is; an unreadable configuration is fatal before the request |
| Api.ConfigureNode | wiredoor/api.go:194-215 | POSTs the node parameters, followed by what `requestApi` prints; saves (server, node token) and succeeds iff a body came back with a non-empty token; on failure nothing is saved |
| Api.GetNode | wiredoor/api.go:217-233 | Without a body (transport error or failure status) the zero node, otherwise the decoded node; what `requestApi` prints comes first, then at most one decode complaint, exactly when decoding failed; a transport error prints exactly "❌ Request failed: …" |
| Api.GetApiConfig | wiredoor/api.go:284-300 | Without a body an empty `VPN_HOST`, otherwise the decoded config; what `requestApi` prints comes first, then at most one decode complaint, exactly when decoding failed |
| Api.GetNodeConfig | wiredoor/api.go:273-282 | Prints exactly what `requestApi` prints; without a body the text is ""; the text holds no literal `\n` escape |
| Api.NodeConfigText | wiredoor/api.go:273-282 | No body gives ""; the un-escaped text holds no literal `\n` escape |
| Api.NodeConfigRoundTrip | wiredoor/api.go:278 | Quoting a config and escaping its newlines, then `GetNodeConfig`'s trim and un-escape, gives the config back |
| Api.HttpLines | wiredoor/api.go:452-471 | One summary line per HTTP service, in order |
| Api.TcpLines | wiredoor/api.go:473-497 | One summary line per TCP service, in order |
| Api.HttpLineReadsBack | wiredoor/api.go:456-469 | The ID parses back from its place in the line, and the marker is ✅ iff the service is enabled |
| Api.TcpLineReadsBack | wiredoor/api.go:477-495 | The ID parses back from its place in the line, and the marker is ✅ iff the service is enabled |
| Api.TargetChoosesHost | wiredoor/api.go:462-466 | A gateway's target names `BackendHost`, any other node's names `localhost`, whatever its backend host |
| Api.TcpTagShape | wiredoor/api.go:483-486 | The TCP tag is the upper-cased proto, followed by "/SSL" iff `Ssl` |
| Api.TogglePathSegments | wiredoor/api.go:387 | The enable/disable path splits into `cli`, `services`, type, ID, action |
| Api.Toggle | wiredoor/api.go:386-450 | One PATCH to the toggle path, then what `requestApi` prints, then only printed lines; without a body or for an unknown type nothing more; for http/tcp bodies the last two lines are the success message and the service's summary line |
| Api.EnableServiceByType | wiredoor/api.go:419-450 | Sends PATCH `/cli/services/<type>/<id>/enable` and, for http/tcp bodies, prints "Service Enabled Successfully!" before the summary |
| Api.DisableServiceByType | wiredoor/api.go:386-417 | Sends PATCH `/cli/services/<type>/<id>/disable` and, for http/tcp bodies, prints "Service Disabled Successfully!" before the summary |
| Api.ExposeHttp | wiredoor/api.go:345-364 | POSTs the parameters to `/cli/expose/http`, followed by what `requestApi` prints; without a body nothing more; with one, it ends with "New Service Available" and the service's summary line |
| Api.ExposeTcp | wiredoor/api.go:366-384 | POSTs the parameters to `/cli/expose/tcp`, followed by what `requestApi` prints; without a body nothing more; with one, it ends with "New Service Available" and the service's summary line |
| Connection.NodeLabel | wiredoor/connection.go:40-44 | The label is "gateway" iff the node is a gateway, else "node" |
| Connection.DaemonCommands | wiredoor/connection.go:73-76 | With the daemon off, no service command; with it on, the two table commands in order; only service tools are run |
| Connection.Saves | wiredoor/connection.go:29-35 | Server URL and token are saved iff both are non-empty; the daemon flag is saved iff `SetDaemon`; nothing else is saved |
| Connection.LinuxConnect | wiredoor/connection.go:65-81 | Fetches the node config first; a failed write of `wg0.conf` is fatal right after that fetch and what `requestApi` printed, before any subprocess; nothing is saved |
| Connection.LinuxConnectOrder | wiredoor/connection.go:65-81 | `wg0.conf` is written before every service command, each of which precedes `wg-quick up`; restart runs iff the daemon is on; failure of `up` is fatal and skips `Status` |
| Connection.FetchAndConnect | wiredoor/connection.go:37-54 | The node is fetched first; a node with ID <= 0 ends fatally with nothing else done |
| Connection.Connect | wiredoor/connection.go:28-55 | The saves come first, then GET `/cli/node`; the final configuration is the one the saves produced |
| Connection.ConnectSavesOnlyGivenOverrides | wiredoor/connection.go:29-35 | In the whole trace, `SaveServer` appears iff URL and token are both non-empty and `SaveDaemon` iff `SetDaemon`; both only before the node fetch |
| Connection.ConnectConfigReadsBack | wiredoor/connection.go:29-35 | Afterwards the configuration reads back the given URL and token (or the old ones) and the given daemon flag (or the old one) |
| Connection.ConnectWithoutFlagsKeepsConfig | wiredoor/connection.go:29-37 | With no overrides and no daemon flag the configuration is untouched and the first action is the node fetch |
| Connection.ConnectWithoutNodeIsFatal | wiredoor/connection.go:37-54 | ID <= 0 ends fatally with no subprocess and no `wg0.conf` write, while earlier saves persist |
| Connection.ConnectHeadTouchesNothing | wiredoor/connection.go:29-46 | Nothing before the tunnel setup writes `wg0.conf`, runs a command or calls `Status` |
| Connection.ConnectMessageNamesKind | wiredoor/connection.go:40-49 | The "Connecting <gateway/node> <name>..." line comes right after the node fetch and right before the config fetch |
| Connection.ConnectOrder | wiredoor/connection.go:28-81 | Over the whole of `Connect`: write before `up`, service restart iff the daemon is enabled after the saves, `Status` last on success, fatal without `Status` on failure |
| Connection.LinuxDisconnect | wiredoor/connection.go:92-103 | Always runs `wg-quick down`; a failure is fatal with the error text; otherwise the run ends normally |
| Connection.Disconnect | wiredoor/connection.go:90-105 | No `wg0.conf` means no action at all; otherwise "Disconecting..." is logged first and the configuration is left as it was |
| Connection.DisconnectOrder | wiredoor/connection.go:93-103 | Service stop runs iff the daemon is enabled; `wg0.conf` is removed only after `down` succeeds, as the last action; a failed `down` is fatal and removes nothing |
| Connection.DisconnectIdempotent | wiredoor/connection.go:90-104 | After a `Disconnect` that finished, a second one does nothing exactly when there was no `wg0.conf` or its removal succeeded; the ignored removal error leaves the file to be taken down again |
| Connection.RestartTunnel | wiredoor/connection.go:83-88 | One `bash -c` runs the down script joined by `&&` to the up script; the run ends normally iff both succeed, otherwise fatally with the restart message; the configuration is not touched |
| Monitor.CheckWiredoorServer | wiredoor/status.go:66-79 | Probes `/config` at `https://<LocalServerIP>` with timeout 5, followed by what `requestApi` prints; reachable iff a body came back with a non-empty `VPN_HOST`; the success line only in debug mode |
| Monitor.Report | wiredoor/status.go:19-28 | The probe comes first, no subprocess runs, and the node is fetched iff the server is reachable |
| Monitor.ReportUnreachable | wiredoor/status.go:19-23 | Unreachable ends with the two "server unreachable" lines |
| Monitor.ReportReached | wiredoor/status.go:25-28 | Reachable ends with the node details |
| Monitor.Status | wiredoor/status.go:12-29 | Link down prints the two "not active" lines with no probe; with the link up, an unreadable configuration is fatal before the probe, and otherwise the report follows with the configuration unchanged |
| Monitor.Health | wiredoor/status.go:31-42 | Exit 1 when the link is down; with the link up, an unreadable configuration is fatal before the probe, and otherwise a probe with no request and no subprocess, then exit 0 iff reachable |
| Monitor.LinkDownIsUnhealthy | wiredoor/status.go:13-16 | With the link down, neither `Health` nor `Status` probes the server; `Health` exits 1 |
| Monitor.MonitorsAgree | wiredoor/status.go:12-59 | `Health` exits 0 iff `Status` fetches the node, iff the link is up and a watch tick runs no subprocess |
| Monitor.WatchHealt | wiredoor/status.go:44-59 | No `wg0.conf` means no action at all |
| Monitor.WatchTick | wiredoor/status.go:46-58 | Unless the tick reconnects, the configuration is left as it was |
| Monitor.IdleTick | wiredoor/status.go:49-58 | A tick that neither reconnects nor restarts runs no subprocess and ends normally |
| Monitor.ReconnectTick | wiredoor/status.go:46-52 | With the link down and the node enabled, the tick is the node fetch followed by a full `Connect` without overrides |
| Monitor.RestartTick | wiredoor/status.go:55-57 | With the link up and the server unreachable, the tick is the probe then `RestartTunnel`: the restart shell runs exactly once and the node is not fetched |
| Monitor.NodeDetails | wiredoor/status.go:81-103 | Node details are at least seven lines of printed text and the traffic line |
| Monitor.NodeDetailsShow | wiredoor/status.go:81-103 | The headline shows the gateway glyph iff gateway; traffic is formatted by `formatBytes`; then either the service header and lines or the "no services" hint |
| Monitor.HeadlineGlyph | wiredoor/status.go:83-87 | The headline starts with 🛡️ iff the node is a gateway, with 🖥️ otherwise |
| Monitor.ServiceLinesList | wiredoor/status.go:95-102 | With services: the header, every HTTP line, then every TCP line; without: the two hint lines |
| Units.UnitIndex | wiredoor/status.go:105-116 | The loop stops with `div = 1024^(exp+1) <= b < 1024 * div`, and `exp < 6` for every int64 |
| Units.ExpOf | wiredoor/status.go:110-114 | The unit index brackets b between consecutive powers of 1024 and stays below 6 |
| Units.ExpOfUnique | wiredoor/status.go:110-114 | Only one unit index brackets b |
| Units.FormatBytesShows | wiredoor/status.go:105-116 | Below 1024 the count is printed as a decimal that parses back, followed by " B"; above, it is divided by the bracketing power and labelled with its unit |
| Regeneration.RegenerateKeys | wiredoor/api.go:321-343 | An unreadable configuration stops before any request; otherwise the PATCH `/cli/regenerate` comes first |
| Regeneration.RegenerateOn | wiredoor/api.go:321-343 | The PATCH `/cli/regenerate` comes first, followed by what `requestApi` prints |
| Regeneration.RegenerateWithoutToken | wiredoor/api.go:335-341 | Without a new token nothing is saved, no subprocess runs and the run ends normally |
| Regeneration.RegenerateWithToken | wiredoor/api.go:335-337 | A new token is saved with the configured URL and the rest of the run is `Connect` without overrides |
| Regeneration.RegeneratedTokenIsSaved | wiredoor/api.go:333-337 | Afterwards the configuration holds the old URL and the new token, and nothing else changed |
| Regeneration.DisconnectThenRegenerate | cmd/regenerate.go:55-57 | `Disconnect`, and only if it ends normally, `RegenerateKeys` on what it left |
| Regeneration.DisconnectPrecedesRegenerate | cmd/regenerate.go:55-57 | `wg-quick down` and the removal of `wg0.conf` both come before the regenerate request |
| Regeneration.RegenerateCommand | cmd/regenerate.go:41-58 | Without `--force` the confirmation comes first and declining ends the command; with `--force` nothing is asked |
| Regeneration.DecliningDoesNothing | cmd/regenerate.go:42-53 | Declining asks once and does nothing else: no request, subprocess or save |
| Commands.ExactArgs | cmd/http.go:79 | Refuses with a usage error iff the argument count differs |
| Commands.ConnectOptions | cmd/connect.go:39-45 | `--url` and `--token` pass unchanged; `SetDaemon` iff `--daemon` was given; `UseDaemon` defaults to true |
| Commands.ConnectCommand | cmd/connect.go:44-46 | `Connect` runs only when `wg0` is absent; otherwise nothing happens |
| Commands.ConnectCommandSavesFlags | cmd/connect.go:38-55 | With `wg0` down and a readable configuration: server settings are saved iff `--url` and `--token` are both given; the daemon flag iff `--daemon` was given, and it reads back |
| Commands.ConnectCommandWithoutFlags | cmd/connect.go:39-45 | With no flags the configuration is not touched and the node fetch is the first action |
| Commands.SleepSeconds | cmd/status.go:49-52 | The sleep is the interval when positive, else 15 seconds |
| Commands.StatusCommand | cmd/status.go:41-57 | `--health` runs only `Health`; `--watch` runs a tick, then sleeps and loops unless the tick ended the process (which is then returned as it is); otherwise `Status` once |
| Commands.StatusModesEnd | cmd/status.go:41-57 | Health mode exits, or ends fatally when the configuration is unreadable; watch mode never finishes; plain status finishes, or ends fatally when the configuration is unreadable; in health and plain mode that fatal end happens exactly when the link is up and the file cannot be read |
| Commands.StatusDefaultsReport | cmd/status.go:63-65 | With default flags the command is `Status`, and the default interval is 10 |
| Commands.HttpCommand | cmd/http.go:79-101 | With exactly one argument and a readable configuration: the node is fetched first, and the expose request is sent iff the node is not a gateway or `--backendHost` is set, carrying the flags; a refused gateway gets the complaint. Another argument count is a usage error; an unreadable configuration is fatal before any request |
| Commands.HttpParamsCarryFlags | cmd/http.go:90-99 | Name and flags map one-to-one to the HTTP parameters (ttl apart, which the parameters lack) |
| Commands.RefusalPostsNothing | cmd/http.go:85-88 | The refusal path sends no expose request |
| Commands.TcpParamsCarryFlags | cmd/tcp.go:83-92 | Name and flags map one-to-one to the TCP parameters; the public port stays 0 |
| Commands.TcpGuarded | cmd/tcp.go:72-93 | For any guard variable, with exactly one argument and a readable configuration: the expose request is sent iff the node is not a gateway or the guard is non-empty. Another argument count is a usage error; an unreadable configuration is fatal before any request |
| Commands.TcpAsWrittenRefusesEveryGateway | cmd/tcp.go:78 | As written, with the HTTP command's `backendHost` at its default, every gateway is refused whatever its tcp `--backendHost` |
| Commands.TcpCommand | cmd/tcp.go:72-93 | With the guard testing the tcp `--backendHost`, exactly one argument and a readable configuration: sent iff not a gateway or the flag is set |
| Commands.TcpCommandDiffersOnlyForGateways | cmd/tcp.go:78 | The corrected and as-written commands differ exactly for gateways whose tcp `--backendHost` is set |
| Commands.EnableForward | cmd/enable.go:43-54 | Forwards iff two arguments of type "http" or "tcp"; type, ID and ttl pass unchanged |
| Commands.EnableCommand | cmd/enable.go:43-55 | A wrong argument count is a usage error and an invalid type prints the complaint, both with nothing sent |
| Commands.EnableCommandSends | cmd/enable.go:48-54 | A request is sent iff the arguments pass and the configuration can be read; "Enabling …" comes before the enable request for that type and ID |
| Commands.DisableCommand | cmd/disable.go:37-50 | A wrong argument count is a usage error and an invalid type prints the complaint, both with nothing sent |
| Commands.DisableCommandSends | cmd/disable.go:42-49 | A request is sent iff the arguments pass and the configuration can be read; "Disabling …" comes before the disable request for that type and ID |
| Commands.GatewayInterface | cmd/gateway.go:46-48 | An explicit `--interface` wins; otherwise the default interface name, "eth0" when the route query fails |
| Commands.GatewayCommand | cmd/gateway.go:40-58 | No subnet shows help only; an update is sent iff the subnet is a valid CIDR, and it carries the chosen interface and the subnet |
| Text.TrimIgnoresPadding | wiredoor/config.go:140 | Trimming ignores any cut characters around the text |
| Text.JoinSplit | wiredoor/service.go:81 | Joining the split lines with the separator gives the text back |
| Text.SplitJoin | wiredoor/service.go:81 | Splitting separator-free parts joined with the separator gives the parts back |
| Text.UnescapeEscape | wiredoor/api.go:278 | Un-escaping `\n` undoes escaping newlines |
| Text.ParseIntToString | wiredoor/api.go:463-469 | The decimal text of an integer parses back to it |
| Text.IntToStringInjective | wiredoor/api.go:468-469 | Different IDs print differently |

## Left out

- HTTP transport, TLS settings and URL joining in `requestApi` (wiredoor/api.go:508-547), and JSON decoding. A reply is an input (`Api.Reply`): a transport error, or a status with its body, body-read error and decoded error fields. What `json.Unmarshal` makes of a body is an input too (`Api.Exchange`). What `requestApi` prints for each reply is modelled (`Api.Respond`) and appears in every caller's trace.
- The "❌ Unable to perform request" line of `requestApi` (wiredoor/api.go:527-531): building the request fails only on a malformed URL, and URL joining is not modelled.
- Api.AdminLogin, Api.ConfigureNode: the explicit server and token they pass to `requestApi` are chosen by Api.Prepare; the `Request` trace entry records only the method, path and body.
- Subprocess execution, file writes, stat and removal, and the INI library's I/O. These are trace entries and observations. `log.Fatal` and `os.Exit` are how a run ends, not process control.
- `Connect`'s closing `Status()` call is the single trace entry `RunStatus`, not expanded in place.
- Network.LocalServerIP: the addresses on `wg0` are taken as IPv4. When the first address is IPv6, `ip.To4()` returns nil and `serverIP[3] = 1` panics (utils/network.go:49-56); that panic, which `Status`, `Health` and the watch tick would reach through `CheckWiredoorServer`, is not modelled.
- ConfigStore.OpenReadsDefaultsWhenMissing: a missing file whose directory or default contents cannot be written is fatal in the source ("Unable to get configuration file", wiredoor/config.go:49-53, 62-66, 85-89, 117-136). The model represents such a file as `Unreadable`; `Missing` stands for a missing file that can be created.
- ConfigStore.SaveServer, ConfigStore.SaveDaemon: `cfg.SaveTo` errors are ignored (wiredoor/config.go:58, 69), so a save to a readable but unwritable file is silently lost in the source. The model always applies the save, so the read-backs of Connection.ConnectConfigReadsBack and Commands.ConnectCommandSavesFlags assume the write succeeded.
- OS network queries are observations: the `ip link show wg0` check, the addresses on `wg0`, `ip route get`. `CheckPort`, `LocalTunnelIP`, `DefaultSubnet` and `InterfaceExists` are not part of this model.
- `net.ParseCIDR` in the gateway command is the parameter `parseCidr`, left uninterpreted.
- Commands.GatewayCommand: `UpdateGatewaySubnet` is a trace entry; its own request logic is not part of this model.
- Units.FormatBytesShows: covers the integer unit selection only. The `%.1f` division and `formatRelativeTime`, which reads the clock, are not modelled.
- Text.ToLower, Text.ToUpper: ASCII letters only. Go's Unicode case mapping is not modelled.
- `GetServices`, `GetTcpServices` and `GetNodeWGConfig` (wiredoor/api.go:235-271, 302-319) are not called by the modelled core.
- The `login`, `config`, `disconnect` and root commands: they are prompts and wiring with no decisions of their own.
- Commands.StatusCommand: the watch loop is one tick, one `Sleep` and the outcome `Looping`. The endless repetition and the real sleep are not modelled.
- Monitor.CheckWiredoorServer: `status.go:69` passes `"https://" + ip` to `GetApiConfig`, but `api.go:284` declares it with no parameter. The model follows the call site and probes that server with the 5-second timeout of api.go:285.
- Commands.EnableCommand: `enable.go:54` passes an `EnableRequest` carrying `--ttl`, but `api.go:419` takes only type and ID. The model builds the request (Commands.EnableForward), then calls the two-argument API, so the ttl goes nowhere.
- Commands.HttpParamsCarryFlags: `http.go:99` sets a `Ttl` field that `HttpServiceParams` (api.go:39-48) lacks. The parameters follow api.go and carry no ttl.
- Concurrent invocations racing on the configuration file are not modelled.

## Findings

| source | as written | input that shows it | evidently intended | confidence | as-written member | corrected member |
|---|---|---|---|---|---|---|
| cmd/tcp.go:78 | The tcp command's gateway guard tests `backendHost`, the http command's variable (cmd/http.go:18), which is always "" when `tcp` runs | `wiredoor tcp db --port 5432 --backendHost 10.1.0.15` on a gateway node: refused although `--backendHost` is given | Test `tcpBackendHost`, the tcp command's own flag | not executed | Commands.TcpAsWrittenRefusesEveryGateway | Commands.TcpCommandDiffersOnlyForGateways |

=== FILE: api.dfy ===
/**
 * The control-plane client: how a request picks its server, token and timeout, how a
 * reply's status code decides between a body and an error message, the credential
 * guards of login and registration, the tunnel-config un-escaping, the one-line service
 * summaries and the enable / disable / expose calls.
 */
module Api {
  import opened Wrappers
  import opened Entities
  import opened Effects
  import ConfigStore
  import Text

  /** What a call site asks for; empty or zero fields defer to the configuration. */
  datatype ApiRequest = ApiRequest(server: string, verb: string, path: string, token: string, timeout: int)

  /** The HTTP request actually sent: server, timeout in seconds and header list. */
  datatype Prepared = Prepared(server: string, timeout: int, headers: seq<(string, string)>)

  const DefaultTimeout := 20

  /** The explicit value when it is given, the configured one otherwise. */
  function Override(explicit: string, configured: string): (r: string)
    ensures explicit != "" ==> r == explicit
    ensures explicit == "" ==> r == configured
  {
    if explicit != "" then explicit else configured
  }

  /** The header list: the fixed headers, then a bearer token when one is chosen. */
  function Headers(token: string, version: string): seq<(string, string)> {
    [("Accept", "application/json"), ("Content-Type", "application/json"), ("User-Agent", "wiredoor-cli/" + version)]
    + (if token != "" then [("Authorization", "Bearer " + token)] else [])
  }

  /** The part of requestApi that chooses server, timeout and headers. */
  function Prepare(req: ApiRequest, cfg: ConfigStore.Config, version: string): (p: Prepared)
    ensures p.timeout > 0
  {
    var token := Override(req.token, cfg.server.token);
    Prepared(
      Override(req.server, cfg.server.url),
      if req.timeout > 0 then req.timeout else DefaultTimeout,
      Headers(token, version))
  }

  /** Some header of the list has this name. */
  predicate HasHeader(headers: seq<(string, string)>, name: string) {
    exists i :: 0 <= i < |headers| && headers[i].0 == name
  }

  /**
   * Server and timeout selection: a non-empty request server wins over the configured URL,
   * and the timeout is 20 seconds unless the request asks for a positive one.
   */
  lemma PrepareChoosesServerAndTimeout(req: ApiRequest, cfg: ConfigStore.Config, version: string)
    ensures var p := Prepare(req, cfg, version);
      && (req.server != "" ==> p.server == req.server)
      && (req.server == "" ==> p.server == cfg.server.url)
      && (p.server == "" <==> req.server == "" && cfg.server.url == "")
      && (req.timeout > 0 ==> p.timeout == req.timeout)
      && (req.timeout <= 0 ==> p.timeout == DefaultTimeout)
  {
  }

  /**
   * Token selection: a non-empty request token wins over the configured one, and an
   * Authorization header, carrying "Bearer " and the chosen token, is sent exactly when
   * the chosen token is non-empty; the three fixed headers are always sent.
   */
  lemma PrepareAuthorization(req: ApiRequest, cfg: ConfigStore.Config, version: string)
    ensures var p := Prepare(req, cfg, version);
      var chosen := if req.token != "" then req.token else cfg.server.token;
      && (HasHeader(p.headers, "Authorization") <==> chosen != "")
      && (forall i :: 0 <= i < |p.headers| && p.headers[i].0 == "Authorization" ==> p.headers[i].1 == "Bearer " + chosen)
      && HasHeader(p.headers, "Accept") && HasHeader(p.headers, "Content-Type") && HasHeader(p.headers, "User-Agent")
  {
    var p := Prepare(req, cfg, version);
    assert p.headers[0].0 == "Accept" && p.headers[1].0 == "Content-Type" && p.headers[2].0 == "User-Agent";
    var chosen := if req.token != "" then req.token else cfg.server.token;
    if chosen != "" {
      assert p.headers[3].0 == "Authorization";
    }
  }

  /** A reply as the transport delivers it, with the fields the error paths decode. */
  datatype Reply =
    | TransportError(error: string)
    | Reply(
        status: int,
        body: string,
        readError: Option<string>,
        badRequestMessage: string,
        bodyErrors: seq<ValidationError>,
        paramErrors: seq<ValidationError>)

  /** What requestApi prints and what it hands back (None stands for a nil body). */
  datatype Response = Response(printed: seq<string>, body: Option<string>)

  /** The statuses requestApi treats as failures. */
  predicate IsErrorStatus(status: int) {
    status == 400 || status == 401 || status == 403 || status == 422 || status >= 500
  }

  /** fmt.Println("Error - "+field+":", message) */
  function FieldErrorLine(e: ValidationError): string {
    "Error - " + e.field + ": " + e.message
  }

  function FieldErrorLines(errors: seq<ValidationError>): (lines: seq<string>)
    ensures |lines| == |errors|
    ensures forall i :: 0 <= i < |errors| ==> lines[i] == FieldErrorLine(errors[i])
  {
    seq(|errors|, i requires 0 <= i < |errors| => FieldErrorLine(errors[i]))
  }

  /** The status-code classification of requestApi. */
  function Respond(reply: Reply): (r: Response)
    ensures r.body.None? <==> reply.TransportError? || IsErrorStatus(reply.status)
    ensures r.body.Some? ==> r.body.value == reply.body
    ensures reply.Reply? && reply.status == 422 ==> r.printed == FieldErrorLines(reply.bodyErrors)
    ensures reply.Reply? && !IsErrorStatus(reply.status) && reply.readError.None? ==> r.printed == []
  {
    match reply
    case TransportError(e) => Response(["\U{274C} Request failed: " + e], None)
    case Reply(status, body, readError, message, bodyErrors, _) =>
      if status == 400 then Response(["Bad Request:  " + message], None)
      else if status == 403 || status == 401 then Response(["Error: Invalid authentication token"], None)
      else if status == 422 then Response(FieldErrorLines(bodyErrors), None)
      else if status >= 500 then Response(["Error: Unknown Wiredoor server error"], None)
      else if readError.Some? then Response(["\U{274C} Unable to read body response: " + readError.value], Some(body))
      else Response([], Some(body))
  }

  /** A 422 prints one line per body error and nothing for the parameter errors. */
  lemma UnprocessablePrintsBodyErrorsOnly(reply: Reply)
    requires reply.Reply? && reply.status == 422
    ensures |Respond(reply).printed| == |reply.bodyErrors|
    ensures forall line :: line in Respond(reply).printed ==> exists e :: e in reply.bodyErrors && line == FieldErrorLine(e)
  {
    var lines := Respond(reply).printed;
    forall line | line in lines
      ensures exists e :: e in reply.bodyErrors && line == FieldErrorLine(e)
    {
      var i :| 0 <= i < |lines| && lines[i] == line;
      assert reply.bodyErrors[i] in reply.bodyErrors;
    }
  }

  /**
   * When the reply leaves requestApi silent: a status it accepts read without error, or
   * a 422 that lists no body errors.
   */
  lemma RespondSilence(reply: Reply)
    ensures Respond(reply).printed == [] <==>
      reply.Reply? && ((reply.status == 422 && reply.bodyErrors == []) || (!IsErrorStatus(reply.status) && reply.readError.None?))
    ensures Respond(reply).body.None? && Respond(reply).printed == [] <==>
      reply.Reply? && reply.status == 422 && reply.bodyErrors == []
  {
    if reply.Reply? && reply.status == 422 {
      assert |Respond(reply).printed| == |reply.bodyErrors|;
    }
  }

  /**
   * One API call as the transport and the JSON decoder see it: the reply, and what
   * json.Unmarshal makes of its body (consulted only when requestApi hands a body back).
   */
  datatype Exchange<T> = Exchange(reply: Reply, decoded: Decoded<T>)

  /** The decoded body, when requestApi hands one back; None stands for its nil result. */
  function Received<T>(x: Exchange<T>): (got: Option<Decoded<T>>)
    ensures got.Some? <==> x.reply.Reply? && !IsErrorStatus(x.reply.status)
    ensures got.Some? ==> got.value == x.decoded
  {
    if Respond(x.reply).body.Some? then Some(x.decoded) else None
  }

  /** What requestApi prints during the call. */
  function Printed<T>(x: Exchange<T>): seq<string> {
    Respond(x.reply).printed
  }

  /** The result of a call that may fail, together with what it did. */
  datatype Call<T> = Call(result: Result<T>, run: Run)

  /**
   * AdminLogin: posts the credentials to `/auth/login` and returns the token of the
   * decoded reply when it is non-empty; a decoding error is returned as it is, and every
   * other failure as "authentication failed". requestApi's lines follow the request.
   */
  function AdminLogin(username: string, password: string, file: ConfigStore.ConfigFile, x: Exchange<string>): (r: Call<string>)
    ensures file.Unreadable? ==> r.run == Run([], file, ConfigUnreadable)
    ensures !file.Unreadable? ==>
      r.run == Run([Request("POST", "/auth/login", LoginPayload(username, password))] + Says(Printed(x)), ConfigStore.Present(ConfigStore.Open(file).value), Finished)
    ensures r.result.Success? <==> !file.Unreadable? && Received(x).Some? && x.decoded.error.None? && x.decoded.value != ""
    ensures r.result.Success? ==> r.result.value == x.decoded.value
    ensures !file.Unreadable? && Received(x).Some? && x.decoded.error.Some? ==> r.result == Failure(x.decoded.error.value)
    ensures !file.Unreadable? && Received(x).None? ==> r.result == Failure("authentication failed")
  {
    match ConfigStore.Open(file)
    case None => Call(Failure("authentication failed"), Run([], file, ConfigUnreadable))
    case Some(ini) =>
      var run := Run([Request("POST", "/auth/login", LoginPayload(username, password))] + Says(Printed(x)), ConfigStore.Present(ini), Finished);
      match Received(x)
      case None => Call(Failure("authentication failed"), run)
      case Some(Decoded(token, error)) =>
        if error.Some? then Call(Failure(error.value), run)
        else if token != "" then Call(Success(token), run)
        else Call(Failure("authentication failed"), run)
  }

  /**
   * ConfigureNode: registers the node; the returned token and the given server are saved
   * only when the token is non-empty, otherwise the call fails and nothing is saved.
   */
  function ConfigureNode(server: string, params: NodeParams, file: ConfigStore.ConfigFile, x: Exchange<Node>): (r: Call<Node>)
    ensures file.Unreadable? ==> r.run == Run([], file, ConfigUnreadable) && r.result.Failure?
    ensures !file.Unreadable? ==>
      |r.run.trace| >= 1 + |Printed(x)| && r.run.trace[..1 + |Printed(x)|] == [Request("POST", "/nodes", NodePayload(params))] + Says(Printed(x))
    ensures r.result.Success? <==> !file.Unreadable? && Received(x).Some? && x.decoded.value.token != ""
    ensures r.result.Success? ==>
      && r.result.value == x.decoded.value
      && SaveServer(server, r.result.value.token) in r.run.trace
      && r.run.config == ConfigStore.Present(ConfigStore.SaveServer(ConfigStore.Open(file).value, server, r.result.value.token))
    ensures r.result.Failure? ==> forall i :: 0 <= i < |r.run.trace| ==> !r.run.trace[i].SaveServer?
    ensures r.result.Failure? && !file.Unreadable? ==> r.run.config == ConfigStore.Present(ConfigStore.Open(file).value)
  {
    match ConfigStore.Open(file)
    case None => Call(Failure("unable to retrieve node configuration"), Run([], file, ConfigUnreadable))
    case Some(ini) =>
      var sent := [Request("POST", "/nodes", NodePayload(params))] + Says(Printed(x));
      match Received(x)
      case None => Call(Failure("unable to retrieve node configuration"), Run(sent, ConfigStore.Present(ini), Finished))
      case Some(Decoded(node, error)) =>
        var complaint := if error.Some? then [Say(error.value)] else [];
        if node.token != "" then
          Call(Success(node), Run(sent + complaint + [SaveServer(server, node.token)],
                                  ConfigStore.Present(ConfigStore.SaveServer(ini, server, node.token)), Finished))
        else
          Call(Failure("unable to retrieve node configuration"), Run(sent + complaint, ConfigStore.Present(ini), Finished))
  }

  /** A decoded reply together with what was printed while fetching it. */
  datatype Fetched<T> = Fetched(value: T, printed: seq<string>)

  /** The decoder's complaint, printed when the body does not decode. */
  function Complaint<T>(d: Decoded<T>): seq<string> {
    if d.error.Some? then [d.error.value] else []
  }

  /**
   * requestApi followed by json.Unmarshal: the (possibly partly) decoded value when a body
   * came back and `zero` otherwise; requestApi's lines come first, then the complaint.
   */
  function Fetch<T>(x: Exchange<T>, zero: T): Fetched<T> {
    match Received(x)
    case None => Fetched(zero, Printed(x))
    case Some(d) => Fetched(d.value, Printed(x) + Complaint(d))
  }

  /**
   * GetNode: the node of a decoded reply, or the all-zero node when requestApi yields no
   * body; what requestApi prints comes first, then a decoding complaint, and the partly
   * decoded node is still returned.
   */
  function GetNode(x: Exchange<Node>): (f: Fetched<Node>)
    ensures Received(x).None? ==> f == Fetched(ZeroNode, Printed(x))
    ensures Received(x).Some? ==> f.value == x.decoded.value
    ensures |Printed(x)| <= |f.printed| <= |Printed(x)| + 1 && f.printed[..|Printed(x)|] == Printed(x)
    ensures |f.printed| > |Printed(x)| <==> Received(x).Some? && x.decoded.error.Some?
    ensures x.reply.TransportError? ==> f == Fetched(ZeroNode, ["\U{274C} Request failed: " + x.reply.error])
  {
    Fetch(x, ZeroNode)
  }

  /** GetApiConfig: the same fetch of the server's public settings. */
  function GetApiConfig(x: Exchange<ApiConfig>): (f: Fetched<ApiConfig>)
    ensures Received(x).None? ==> f == Fetched(ApiConfig(""), Printed(x))
    ensures Received(x).Some? ==> f.value == x.decoded.value
    ensures |Printed(x)| <= |f.printed| <= |Printed(x)| + 1 && f.printed[..|Printed(x)|] == Printed(x)
    ensures |f.printed| > |Printed(x)| <==> Received(x).Some? && x.decoded.error.Some?
    ensures x.reply.TransportError? ==> f == Fetched(ApiConfig(""), ["\U{274C} Request failed: " + x.reply.error])
  {
    Fetch(x, ApiConfig(""))
  }

  /**
   * GetNodeConfig: the body without its surrounding quotes, each `\n` escape turned into a
   * newline, or "" when requestApi yields no body.
   */
  function GetNodeConfig(reply: Reply): (f: Fetched<string>)
    ensures f.printed == Respond(reply).printed
    ensures (reply.TransportError? || IsErrorStatus(reply.status)) ==> f.value == ""
    ensures Text.NoEscapedNewline(f.value)
  {
    Fetched(NodeConfigText(Respond(reply).body), Respond(reply).printed)
  }

  /** A tunnel-configuration body without its surrounding quotes, each `\n` escape turned into a newline. */
  function NodeConfigText(body: Option<string>): (text: string)
    ensures body.None? ==> text == ""
    ensures Text.NoEscapedNewline(text)
  {
    match body
    case None => ""
    case Some(b) =>
      Text.UnescapeLeavesNoEscape(Text.TrimQuotes(b));
      Text.UnescapeNewlines(Text.TrimQuotes(b))
  }

  /** How the server sends a tunnel configuration: a JSON string with escaped newlines. */
  function QuoteConfig(text: string): string {
    "\"" + Text.EscapeNewlines(text) + "\""
  }

  /** Un-escaping undoes the server's quoting for any text free of quotes and backslashes. */
  lemma NodeConfigRoundTrip(text: string)
    requires '"' !in text && '\\' !in text
    ensures NodeConfigText(Some(QuoteConfig(text))) == text
  {
    var e := Text.EscapeNewlines(text);
    assert '"' !in e;
    Text.TrimIgnoresPadding("\"", e, "\"", Text.IsQuote);
    Text.TrimUnpadded(e, Text.IsQuote);
    Text.UnescapeEscape(text);
  }

  const CheckMark := "\U{2705}"
  const CrossMark := "\U{274C}"
  const Arrow := " \U{2192} "

  /** ✅ for an enabled service, ❌ otherwise. */
  function Marker(enabled: bool): string {
    if enabled then CheckMark else CrossMark
  }

  /** Where a service's traffic goes: the backend host on a gateway, this machine otherwise. */
  function Target(proto: string, backendHost: string, port: int, isGateway: bool): string {
    proto + "://" + (if isGateway then backendHost else "localhost") + ":" + Text.IntToString(port)
  }

  /** The start every service line shares: "- ", the decimal ID, a blank, the marker. */
  function LineHead(id: int, enabled: bool): string {
    "- " + Text.IntToString(id) + " " + Marker(enabled)
  }

  /** The summary line PrintHttpServices writes for one service. */
  function HttpLine(svc: HttpService, isGateway: bool): string {
    LineHead(svc.id, svc.enabled) + HttpRest(svc, isGateway)
  }

  /** Name, kind, public address and target of an HTTP line. */
  function HttpRest(svc: HttpService, isGateway: bool): string {
    " " + svc.name + " [HTTP]" + Arrow + svc.publicAccess + Arrow
    + Target(svc.backendProto, svc.backendHost, svc.backendPort, isGateway)
  }

  /** The protocol tag of a TCP line: the upper-cased protocol, with "/SSL" when SSL is on. */
  function TcpTag(proto: string, ssl: bool): string {
    Text.ToUpper(proto) + (if ssl then "/SSL" else "")
  }

  /** The summary line PrintTcpServices writes for one service. */
  function TcpLine(svc: TcpService, isGateway: bool): string {
    LineHead(svc.id, svc.enabled) + TcpRest(svc, isGateway)
  }

  /** Name, protocol tag, public address and target of a TCP line. */
  function TcpRest(svc: TcpService, isGateway: bool): string {
    " " + svc.name + " [" + TcpTag(svc.proto, svc.ssl) + "]" + Arrow + svc.proto + "://" + svc.publicAccess + Arrow
    + Target(svc.proto, svc.backendHost, svc.backendPort, isGateway)
  }

  /** PrintHttpServices: one line per service, in order. */
  function HttpLines(services: seq<HttpService>, isGateway: bool): (lines: seq<string>)
    ensures |lines| == |services|
    ensures forall i :: 0 <= i < |services| ==> lines[i] == HttpLine(services[i], isGateway)
  {
    seq(|services|, i requires 0 <= i < |services| => HttpLine(services[i], isGateway))
  }

  /** PrintTcpServices: one line per service, in order. */
  function TcpLines(services: seq<TcpService>, isGateway: bool): (lines: seq<string>)
    ensures |lines| == |services|
    ensures forall i :: 0 <= i < |services| ==> lines[i] == TcpLine(services[i], isGateway)
  {
    seq(|services|, i requires 0 <= i < |services| => TcpLine(services[i], isGateway))
  }

  /**
   * A line that starts with a service's head reads back: after "- " comes the decimal ID,
   * then a blank, then the marker character, which is ✅ exactly when the service is enabled.
   */
  lemma {:induction false} LineHeadReadsBack(id: int, enabled: bool, rest: string)
    ensures var line := LineHead(id, enabled) + rest;
      var n := |Text.IntToString(id)|;
      && |line| > n + 3
      && Text.ParseInt(line[2..2 + n]) == Some(id)
      && (line[n + 3] == '\U{2705}' <==> enabled)
  {
    var digits := Text.IntToString(id);
    var line := LineHead(id, enabled) + rest;
    assert line == "- " + digits + " " + Marker(enabled) + rest;
    assert line[2..2 + |digits|] == digits;
    assert line[|digits| + 3] == Marker(enabled)[0];
    Text.ParseIntToString(id);
  }

  /** The ID and the enabled flag of an HTTP service can be read back from its line. */
  lemma HttpLineReadsBack(svc: HttpService, isGateway: bool)
    ensures var line := HttpLine(svc, isGateway);
      var n := |Text.IntToString(svc.id)|;
      && |line| > n + 3
      && Text.ParseInt(line[2..2 + n]) == Some(svc.id)
      && (line[n + 3] == '\U{2705}' <==> svc.enabled)
  {
    LineHeadReadsBack(svc.id, svc.enabled, HttpRest(svc, isGateway));
  }

  /** The same read-back for TCP lines. */
  lemma TcpLineReadsBack(svc: TcpService, isGateway: bool)
    ensures var line := TcpLine(svc, isGateway);
      var n := |Text.IntToString(svc.id)|;
      && |line| > n + 3
      && Text.ParseInt(line[2..2 + n]) == Some(svc.id)
      && (line[n + 3] == '\U{2705}' <==> svc.enabled)
  {
    LineHeadReadsBack(svc.id, svc.enabled, TcpRest(svc, isGateway));
  }

  /**
   * The target names the backend host exactly on a gateway: on other nodes it is always
   * localhost, whatever backend host the service records.
   */
  lemma TargetChoosesHost(proto: string, backendHost: string, port: int)
    ensures Target(proto, backendHost, port, true) == proto + "://" + backendHost + ":" + Text.IntToString(port)
    ensures forall h :: Target(proto, h, port, false) == proto + "://localhost:" + Text.IntToString(port)
  {
  }

  /** The tag starts with the upper-cased protocol and ends in "/SSL" when SSL is on. */
  lemma TcpTagShape(proto: string, ssl: bool)
    ensures var tag := TcpTag(proto, ssl);
      && tag[..|proto|] == Text.ToUpper(proto)
      && (ssl ==> |tag| == |proto| + 4 && tag[|proto|..] == "/SSL")
      && (!ssl ==> tag == Text.ToUpper(proto))
  {
  }

  /** The enable / disable endpoint for a service. */
  function TogglePath(serviceType: string, id: string, action: string): string {
    "/cli/services/" + serviceType + "/" + id + "/" + action
  }

  /** The path's segments are the literal ones with the type, ID and action in place. */
  lemma TogglePathSegments(serviceType: string, id: string, action: string)
    requires '/' !in serviceType && '/' !in id && '/' !in action
    ensures Text.Split(TogglePath(serviceType, id, action), '/') == ["", "cli", "services", serviceType, id, action]
  {
    var p0 := ["", "cli", "services", serviceType, id, action];
    TogglePathJoins(serviceType, id, action);
    assert forall i :: 0 <= i < |p0| ==> '/' !in p0[i];
    Text.SplitJoin(p0, '/');
  }

  /** The toggle path is its six segments joined by '/'. */
  lemma TogglePathJoins(serviceType: string, id: string, action: string)
    ensures Text.Join(["", "cli", "services", serviceType, id, action], '/') == TogglePath(serviceType, id, action)
  {
    var p5 := [action];
    var p4 := [id] + p5;
    Text.JoinCons(id, p5, '/');
    var j4 := id + "/" + action;
    assert Text.Join(p4, '/') == j4;
    var p3 := [serviceType] + p4;
    Text.JoinCons(serviceType, p4, '/');
    var j3 := serviceType + "/" + j4;
    assert Text.Join(p3, '/') == j3;
    var p2 := ["services"] + p3;
    Text.JoinCons("services", p3, '/');
    var p1 := ["cli"] + p2;
    Text.JoinCons("cli", p2, '/');
    var p0 := [""] + p1;
    Text.JoinCons("", p1, '/');
    assert Text.Join(p0, '/') == "/cli/services/" + j3;
    assert TogglePath(serviceType, id, action) == "/cli/services/" + j3;
    assert p0 == ["", "cli", "services", serviceType, id, action];
  }

  /** A reply to enable / disable, with its body decoded as each of the two service records. */
  datatype ToggleReply = ToggleReply(reply: Reply, asHttp: Decoded<HttpService>, asTcp: Decoded<TcpService>)

  /** The printed outcome of a successful enable or disable. */
  function ToggleLines(serviceType: string, reply: ToggleReply, done: string, httpError: string, tcpError: string): (lines: seq<string>)
    ensures serviceType == "http" ==>
      var svc := reply.asHttp.value;
      |lines| >= 2 && lines[|lines| - 2] == done && lines[|lines| - 1] == HttpLine(svc, svc.backendHost != "")
    ensures serviceType == "tcp" ==>
      var svc := reply.asTcp.value;
      |lines| >= 2 && lines[|lines| - 2] == done && lines[|lines| - 1] == TcpLine(svc, svc.backendHost != "")
    ensures serviceType in {"http", "tcp"} ==> |lines| >= 2 && lines[|lines| - 2] == done
    ensures serviceType != "http" && serviceType != "tcp" ==> lines == []
  {
    if serviceType == "http" then
      var svc := reply.asHttp;
      (if svc.error.Some? then [httpError + svc.error.value] else [])
      + [done, HttpLine(svc.value, svc.value.backendHost != "")]
    else if serviceType == "tcp" then
      var svc := reply.asTcp;
      (if svc.error.Some? then [tcpError + svc.error.value] else [])
      + [done, TcpLine(svc.value, svc.value.backendHost != "")]
    else []
  }

  /**
   * The shape shared by enable and disable: one PATCH and requestApi's lines, then the
   * service line when a body came back for a known service type.
   */
  function Toggle(action: string, serviceType: string, id: string, file: ConfigStore.ConfigFile, reply: ToggleReply,
                  done: string, httpError: string, tcpError: string): (r: Run)
    ensures file.Unreadable? ==> r == Run([], file, ConfigUnreadable)
    ensures !file.Unreadable? ==>
      && r.outcome == Finished
      && |r.trace| >= 1 + |Respond(reply.reply).printed|
      && r.trace[..1 + |Respond(reply.reply).printed|] == [Request("PATCH", TogglePath(serviceType, id, action), NoPayload)] + Says(Respond(reply.reply).printed)
      && (forall i :: 1 <= i < |r.trace| ==> r.trace[i].Say?)
    ensures Respond(reply.reply).body.None? || (serviceType != "http" && serviceType != "tcp") ==> |r.trace| <= 1 + |Respond(reply.reply).printed|
    ensures !file.Unreadable? && Respond(reply.reply).body.Some? && serviceType in {"http", "tcp"} ==> Announces(r, done)
    ensures !file.Unreadable? && Respond(reply.reply).body.Some? && serviceType == "http" ==>
      |r.trace| >= 2 && var svc := reply.asHttp.value;
      r.trace[|r.trace| - 2] == Say(done) && r.trace[|r.trace| - 1] == Say(HttpLine(svc, svc.backendHost != ""))
    ensures !file.Unreadable? && Respond(reply.reply).body.Some? && serviceType == "tcp" ==>
      |r.trace| >= 2 && var svc := reply.asTcp.value;
      r.trace[|r.trace| - 2] == Say(done) && r.trace[|r.trace| - 1] == Say(TcpLine(svc, svc.backendHost != ""))
  {
    match ConfigStore.Open(file)
    case None => Run([], file, ConfigUnreadable)
    case Some(ini) =>
      var resp := Respond(reply.reply);
      var lines := if resp.body.Some? then ToggleLines(serviceType, reply, done, httpError, tcpError) else [];
      Run(PatchThenSay(TogglePath(serviceType, id, action), resp.printed, lines), ConfigStore.Present(ini), Finished)
  }

  /** A PATCH, what requestApi printed for it, then the caller's own lines. */
  function PatchThenSay(path: string, printed: seq<string>, lines: seq<string>): (t: seq<Action>)
    ensures |t| == 1 + |printed| + |lines|
    ensures t[..1 + |printed|] == [Request("PATCH", path, NoPayload)] + Says(printed)
    ensures forall i :: 1 <= i < |t| ==> t[i].Say?
    ensures |lines| >= 2 ==> t[|t| - 2] == Say(lines[|lines| - 2]) && t[|t| - 1] == Say(lines[|lines| - 1])
  {
    var head := [Request("PATCH", path, NoPayload)] + Says(printed);
    assert (head + Says(lines))[..|head|] == head;
    head + Says(lines)
  }

  /** The run prints done just before its last line, the service's summary. */
  predicate Announces(r: Run, done: string) {
    |r.trace| >= 2 && r.trace[|r.trace| - 2] == Say(done)
  }

  /** EnableServiceByType */
  function EnableServiceByType(serviceType: string, id: string, file: ConfigStore.ConfigFile, reply: ToggleReply): (r: Run)
    ensures file.Unreadable? ==> r == Run([], file, ConfigUnreadable)
    ensures !file.Unreadable? ==> |r.trace| >= 1 && r.trace[0] == Request("PATCH", TogglePath(serviceType, id, "enable"), NoPayload)
    ensures !file.Unreadable? && Respond(reply.reply).body.Some? && serviceType in {"http", "tcp"} ==> Announces(r, "Service Enabled Successfully!")
  {
    Toggle("enable", serviceType, id, file, reply, "Service Enabled Successfully!",
      "\U{274C} Unable to enable service: ", "\U{274C} Unable to disabled service: ")
  }

  /** DisableServiceByType */
  function DisableServiceByType(serviceType: string, id: string, file: ConfigStore.ConfigFile, reply: ToggleReply): (r: Run)
    ensures file.Unreadable? ==> r == Run([], file, ConfigUnreadable)
    ensures !file.Unreadable? ==> |r.trace| >= 1 && r.trace[0] == Request("PATCH", TogglePath(serviceType, id, "disable"), NoPayload)
    ensures !file.Unreadable? && Respond(reply.reply).body.Some? && serviceType in {"http", "tcp"} ==> Announces(r, "Service Disabled Successfully!")
  {
    Toggle("disable", serviceType, id, file, reply, "Service Disabled Successfully!",
      "\U{274C} Unable to disable service: ", "\U{274C} Unable to disable service: ")
  }

  /** ExposeHTTP: one POST carrying the parameters, then what requestApi printed; when a body came back, the new service's line. */
  function ExposeHttp(params: HttpServiceParams, node: Node, file: ConfigStore.ConfigFile, x: Exchange<HttpService>): (r: Run)
    ensures file.Unreadable? ==> r == Run([], file, ConfigUnreadable)
    ensures !file.Unreadable? ==>
      && r.outcome == Finished && |r.trace| >= 1 + |Printed(x)|
      && r.trace[..1 + |Printed(x)|] == [Request("POST", "/cli/expose/http", HttpPayload(params))] + Says(Printed(x))
    ensures !file.Unreadable? && Received(x).None? ==> |r.trace| == 1 + |Printed(x)|
    ensures !file.Unreadable? && Received(x).Some? ==> |r.trace| >= 3 + |Printed(x)| && r.trace[|r.trace| - 2..] == [Say("New Service Available"), Say(HttpLine(x.decoded.value, node.isGateway))]
  {
    match ConfigStore.Open(file)
    case None => Run([], file, ConfigUnreadable)
    case Some(ini) =>
      var sent := [Request("POST", "/cli/expose/http", HttpPayload(params))] + Says(Printed(x));
      match Received(x)
      case None => Run(sent, ConfigStore.Present(ini), Finished)
      case Some(Decoded(svc, error)) =>
        var complaint := if error.Some? then [Say("\U{274C} Unable to expose HTTP service: " + error.value)] else [];
        Run(sent + complaint + [Say("New Service Available"), Say(HttpLine(svc, node.isGateway))], ConfigStore.Present(ini), Finished)
  }

  /** ExposeTCP: one POST carrying the parameters, then what requestApi printed; when a body came back, the new service's line. */
  function ExposeTcp(params: TcpServiceParams, node: Node, file: ConfigStore.ConfigFile, x: Exchange<TcpService>): (r: Run)
    ensures file.Unreadable? ==> r == Run([], file, ConfigUnreadable)
    ensures !file.Unreadable? ==>
      && r.outcome == Finished && |r.trace| >= 1 + |Printed(x)|
      && r.trace[..1 + |Printed(x)|] == [Request("POST", "/cli/expose/tcp", TcpPayload(params))] + Says(Printed(x))
    ensures !file.Unreadable? && Received(x).None? ==> |r.trace| == 1 + |Printed(x)|
    ensures !file.Unreadable? && Received(x).Some? ==> |r.trace| >= 3 + |Printed(x)| && r.trace[|r.trace| - 2..] == [Say("New Service Available"), Say(TcpLine(x.decoded.value, node.isGateway))]
  {
    match ConfigStore.Open(file)
    case None => Run([], file, ConfigUnreadable)
    case Some(ini) =>
      var sent := [Request("POST", "/cli/expose/tcp", TcpPayload(params))] + Says(Printed(x));
      match Received(x)
      case None => Run(sent, ConfigStore.Present(ini), Finished)
      case Some(Decoded(svc, error)) =>
        var complaint := if error.Some? then [Say("\U{274C} Unable to expose TCP service: " + error.value)] else [];
        Run(sent + complaint + [Say("New Service Available"), Say(TcpLine(svc, node.isGateway))], ConfigStore.Present(ini), Finished)
  }
}

=== FILE: commands.dfy ===
/**
 * The command-line layer: how each command's arguments and flags decide whether any
 * request or subprocess happens, and what they hand to the operations below.
 */
module Commands {
  import opened Wrappers
  import opened Entities
  import opened Effects
  import ConfigStore
  import Api
  import Network
  import Text
  import Connection
  import Monitor

  /** cobra.ExactArgs(n): any other number of positional arguments is refused before Run. */
  function ExactArgs(n: nat, args: seq<string>): (refusal: Option<Outcome>)
    ensures refusal.None? <==> |args| == n
    ensures refusal.Some? ==> refusal.value.Usage?
  {
    if |args| == n then None
    else Some(Usage("accepts " + Text.NatToString(n) + " arg(s), received " + Text.NatToString(|args|)))
  }

  // ----- connect -----

  /**
   * The ConnectionConfig built from the flags: --url and --token as given (both default to
   * ""), --daemon defaulting to true, and SetDaemon exactly when --daemon (or
   * --daemon=false) appeared on the command line (None: the flag was not given).
   */
  function ConnectOptions(url: string, token: string, daemon: Option<bool>): (cc: Connection.ConnectionConfig)
    ensures cc.url == url && cc.token == token
    ensures cc.setDaemon <==> daemon.Some?
    ensures daemon.Some? ==> cc.useDaemon == daemon.value
    ensures daemon.None? ==> cc.useDaemon
  {
    Connection.ConnectionConfig(url, token, daemon.GetOr(true), daemon.Some?)
  }

  /** connect: Connect runs only when the wg0 link is down; with the link up nothing happens. */
  function ConnectCommand(url: string, token: string, daemon: Option<bool>, w: Connection.World, file: ConfigStore.ConfigFile): (r: Run)
    ensures w.linkUp ==> r == Run([], file, Finished)
    ensures !w.linkUp ==> r == Connection.Connect(ConnectOptions(url, token, daemon), w, file)
  {
    if w.linkUp then Run([], file, Finished)
    else Connection.Connect(ConnectOptions(url, token, daemon), w, file)
  }

  /**
   * connect with the link down saves the server exactly when both --url and --token are
   * non-empty, and the daemon setting exactly when the flag was given, with its value.
   */
  lemma ConnectCommandSavesFlags(url: string, token: string, daemon: Option<bool>, w: Connection.World, file: ConfigStore.ConfigFile)
    requires !w.linkUp && !file.Unreadable?
    ensures var r := ConnectCommand(url, token, daemon, w, file);
      && (SaveServer(url, token) in r.trace <==> url != "" && token != "")
      && (SaveDaemon(daemon.GetOr(true)) in r.trace <==> daemon.Some?)
      && r.config.Present?
      && (daemon.Some? ==> ConfigStore.IsDaemonEnabled(r.config.ini) == daemon.value)
  {
    var cc := ConnectOptions(url, token, daemon);
    Connection.ConnectSavesOnlyGivenOverrides(cc, w, file);
    Connection.ConnectConfigReadsBack(cc, w, file);
  }

  /** connect without flags leaves the configuration as it was, and its first action is the node fetch. */
  lemma ConnectCommandWithoutFlags(w: Connection.World, file: ConfigStore.ConfigFile)
    requires !w.linkUp && !file.Unreadable?
    ensures var r := ConnectCommand("", "", None, w, file);
      && r.config == ConfigStore.Present(ConfigStore.Open(file).value)
      && !AnySave(r.trace) && r.trace[0] == Request("GET", "/cli/node", NoPayload)
  {
    Connection.ConnectWithoutFlagsKeepsConfig(ConnectOptions("", "", None), w, file);
  }

  // ----- status -----

  datatype StatusFlags = StatusFlags(health: bool, watch: bool, interval: int)

  /** --health and --watch are off by default; --interval is 10 seconds. */
  const StatusDefaults := StatusFlags(false, false, 10)

  /** The pause between watch ticks: the interval, or 15 seconds when it is not positive. */
  function SleepSeconds(interval: int): (s: int)
    ensures s > 0
    ensures interval > 0 ==> s == interval
    ensures interval <= 0 ==> s == 15
  {
    if interval <= 0 then 15 else interval
  }

  /**
   * status: --health wins over --watch, which wins over the plain report. The watch loop
   * is shown by its first tick and the pause after it; it has no exit path, so unless the
   * tick ends the process the run is Looping.
   */
  function StatusCommand(f: StatusFlags, w: Connection.World, file: ConfigStore.ConfigFile): (r: Run)
    ensures f.health ==> r == Monitor.Health(w, file)
    ensures !f.health && !f.watch ==> r == Monitor.Status(w, file)
    ensures !f.health && f.watch ==>
      var tick := Monitor.WatchHealt(w, file);
      && (tick.outcome == Finished ==> r == Run(tick.trace + [Sleep(SleepSeconds(f.interval))], tick.config, Looping))
      && (tick.outcome != Finished ==> r == tick)
  {
    if f.health then Monitor.Health(w, file)
    else if f.watch then
      var tick := Monitor.WatchHealt(w, file);
      if tick.outcome == Finished then Run(tick.trace + [Sleep(SleepSeconds(f.interval))], tick.config, Looping)
      else tick
    else Monitor.Status(w, file)
  }

  /**
   * The three modes never fall through to one another: health never returns normally,
   * the watch loop never finishes, and the plain report finishes or stops on an
   * unreadable configuration.
   */
  lemma StatusModesEnd(f: StatusFlags, w: Connection.World, file: ConfigStore.ConfigFile)
    ensures var r := StatusCommand(f, w, file);
      && (f.health ==> r.outcome.Exit? || r.outcome == ConfigUnreadable)
      && (!f.health && f.watch ==> r.outcome != Finished)
      && (!f.health && !f.watch ==> r.outcome == Finished || r.outcome == ConfigUnreadable)
      && (!f.watch || f.health ==> (r.outcome == ConfigUnreadable <==> w.linkUp && file.Unreadable?))
  {
  }

  /** With the defaults a single status report is printed, and a watch tick sleeps 10 seconds. */
  lemma StatusDefaultsReport(w: Connection.World, file: ConfigStore.ConfigFile)
    ensures StatusCommand(StatusDefaults, w, file) == Monitor.Status(w, file)
    ensures SleepSeconds(StatusDefaults.interval) == 10
  {
  }

  // ----- expose http / tcp -----

  const GatewayNeedsBackend := "You must define --backendHost when your node is a gateway"

  /** Some action of the trace is a POST to the given API path. */
  predicate Posts(trace: seq<Action>, path: string) {
    exists i :: 0 <= i < |trace| && trace[i].Request? && trace[i].verb == "POST" && trace[i].path == path
  }

  datatype HttpFlags = HttpFlags(
    domain: string,
    port: int,
    path: string,
    proto: string,
    backendHost: string,
    allow: seq<string>,
    block: seq<string>,
    ttl: string)

  /** The http command's flag defaults. */
  const HttpDefaults := HttpFlags("", 0, "/", "http", "", [], [], "")

  /** The parameters sent for `http <name>`; the --ttl value has no field to go into. */
  function HttpParams(name: string, f: HttpFlags): HttpServiceParams {
    HttpServiceParams(name, f.domain, f.path, f.backendHost, f.proto, f.port, f.allow, f.block)
  }

  /** Every flag but --ttl reaches the parameters unchanged, and nothing else does. */
  lemma HttpParamsCarryFlags(name1: string, f1: HttpFlags, name2: string, f2: HttpFlags)
    ensures HttpParams(name1, f1) == HttpParams(name2, f2) <==> name1 == name2 && f1.(ttl := "") == f2.(ttl := "")
  {
  }

  /** The refusal: the node fetch, then the message, and no POST. */
  lemma RefusalPostsNothing(w: Connection.World, path: string)
    ensures !Posts(Monitor.NodeCheck(w) + [Say(GatewayNeedsBackend)], path)
  {
    var t := Monitor.NodeCheck(w) + [Say(GatewayNeedsBackend)];
    assert forall i :: 0 <= i < |t| ==> t[i] == Request("GET", "/cli/node", NoPayload) || t[i].Say?;
  }

  /**
   * http <name>: exactly one argument; the node is fetched, a gateway without
   * --backendHost is refused, and every other node posts the parameters built from the
   * flags, whatever --backendHost holds.
   */
  function HttpCommand(args: seq<string>, f: HttpFlags, w: Connection.World, file: ConfigStore.ConfigFile,
                       reply: Api.Exchange<HttpService>): (r: Run)
    ensures |args| != 1 ==> r.trace == [] && r.outcome.Usage? && r.config == file
    ensures |args| == 1 && file.Unreadable? ==> r == Run([], file, ConfigUnreadable)
    ensures |args| == 1 && !file.Unreadable? ==>
      var node := Api.GetNode(w.nodeReply).value;
      && r.outcome == Finished && |r.trace| >= 1 && r.trace[0] == Request("GET", "/cli/node", NoPayload)
      && (Posts(r.trace, "/cli/expose/http") <==> !(node.isGateway && f.backendHost == ""))
      && (node.isGateway && f.backendHost == "" ==> r.trace[|r.trace| - 1] == Say(GatewayNeedsBackend))
      && (!(node.isGateway && f.backendHost == "") ==>
            Request("POST", "/cli/expose/http", HttpPayload(HttpParams(args[0], f))) in r.trace)
  {
    match ExactArgs(1, args)
    case Some(refusal) => Run([], file, refusal)
    case None =>
      match ConfigStore.Open(file)
      case None => Run([], file, ConfigUnreadable)
      case Some(ini) =>
        var node := Api.GetNode(w.nodeReply).value;
        var head := Monitor.NodeCheck(w);
        if node.isGateway && f.backendHost == "" then
          RefusalPostsNothing(w, "/cli/expose/http");
          Run(head + [Say(GatewayNeedsBackend)], ConfigStore.Present(ini), Finished)
        else
          var e := Api.ExposeHttp(HttpParams(args[0], f), node, ConfigStore.Present(ini), reply);
          assert (head + e.trace)[|head|] == e.trace[0];
          Prepend(head, e)
  }

  datatype TcpFlags = TcpFlags(
    port: int,
    proto: string,
    ssl: bool,
    domain: string,
    backendHost: string,
    allow: seq<string>,
    block: seq<string>)

  /** The tcp command's flag defaults. */
  const TcpDefaults := TcpFlags(0, "tcp", false, "", "", [], [])

  /** The parameters sent for `tcp <name>`: --port is the backend port; the public port stays 0. */
  function TcpParams(name: string, f: TcpFlags): TcpServiceParams {
    TcpServiceParams(name, f.domain, f.proto, f.backendHost, f.port, f.ssl, 0, f.allow, f.block)
  }

  /** Every tcp flag reaches the parameters unchanged, and the public port is never set. */
  lemma TcpParamsCarryFlags(name1: string, f1: TcpFlags, name2: string, f2: TcpFlags)
    ensures TcpParams(name1, f1) == TcpParams(name2, f2) <==> name1 == name2 && f1 == f2
    ensures TcpParams(name1, f1).port == 0
  {
  }

  /**
   * The shape of `tcp <name>` with the gateway guard testing `guard`: exactly one argument,
   * the node fetch, the refusal of a gateway when `guard` is empty, else the POST.
   */
  function TcpGuarded(guard: string, args: seq<string>, f: TcpFlags, w: Connection.World, file: ConfigStore.ConfigFile,
                      reply: Api.Exchange<TcpService>): (r: Run)
    ensures |args| != 1 ==> r.trace == [] && r.outcome.Usage? && r.config == file
    ensures |args| == 1 && file.Unreadable? ==> r == Run([], file, ConfigUnreadable)
    ensures |args| == 1 && !file.Unreadable? ==>
      var node := Api.GetNode(w.nodeReply).value;
      && r.outcome == Finished && |r.trace| >= 1 && r.trace[0] == Request("GET", "/cli/node", NoPayload)
      && (Posts(r.trace, "/cli/expose/tcp") <==> !(node.isGateway && guard == ""))
      && (!(node.isGateway && guard == "") ==> Request("POST", "/cli/expose/tcp", TcpPayload(TcpParams(args[0], f))) in r.trace)
  {
    match ExactArgs(1, args)
    case Some(refusal) => Run([], file, refusal)
    case None =>
      match ConfigStore.Open(file)
      case None => Run([], file, ConfigUnreadable)
      case Some(ini) =>
        var node := Api.GetNode(w.nodeReply).value;
        var head := Monitor.NodeCheck(w);
        if node.isGateway && guard == "" then
          RefusalPostsNothing(w, "/cli/expose/tcp");
          Run(head + [Say(GatewayNeedsBackend)], ConfigStore.Present(ini), Finished)
        else
          var e := Api.ExposeTcp(TcpParams(args[0], f), node, ConfigStore.Present(ini), reply);
          assert (head + e.trace)[|head|] == e.trace[0];
          Prepend(head, e)
  }

  /**
   * tcp <name> as written: the guard reads the http command's --backendHost variable,
   * which a tcp invocation never sets, so it always holds its default "".
   */
  function TcpCommandAsWritten(args: seq<string>, f: TcpFlags, w: Connection.World, file: ConfigStore.ConfigFile,
                               reply: Api.Exchange<TcpService>): Run
  {
    TcpGuarded(HttpDefaults.backendHost, args, f, w, file, reply)
  }

  /** As written, a gateway node can never expose a TCP service, whatever --backendHost says. */
  lemma TcpAsWrittenRefusesEveryGateway(args: seq<string>, f: TcpFlags, w: Connection.World, file: ConfigStore.ConfigFile,
                                        reply: Api.Exchange<TcpService>)
    requires |args| == 1 && !file.Unreadable? && Api.GetNode(w.nodeReply).value.isGateway
    ensures !Posts(TcpCommandAsWritten(args, f, w, file, reply).trace, "/cli/expose/tcp")
  {
  }

  /** tcp <name> with the guard on its own --backendHost flag, as the message asks for. */
  function TcpCommand(args: seq<string>, f: TcpFlags, w: Connection.World, file: ConfigStore.ConfigFile,
                      reply: Api.Exchange<TcpService>): (r: Run)
    ensures |args| == 1 && !file.Unreadable? ==>
      (Posts(r.trace, "/cli/expose/tcp") <==> !(Api.GetNode(w.nodeReply).value.isGateway && f.backendHost == ""))
    ensures |args| == 1 && !file.Unreadable? && f.backendHost != "" ==>
      Request("POST", "/cli/expose/tcp", TcpPayload(TcpParams(args[0], f))) in r.trace
  {
    TcpGuarded(f.backendHost, args, f, w, file, reply)
  }

  /** The two agree except on a gateway given --backendHost, which only the corrected command serves. */
  lemma TcpCommandDiffersOnlyForGateways(args: seq<string>, f: TcpFlags, w: Connection.World, file: ConfigStore.ConfigFile,
                                         reply: Api.Exchange<TcpService>)
    requires |args| == 1 && !file.Unreadable?
    ensures TcpCommand(args, f, w, file, reply) != TcpCommandAsWritten(args, f, w, file, reply) <==>
      Api.GetNode(w.nodeReply).value.isGateway && f.backendHost != ""
  {
    var node := Api.GetNode(w.nodeReply).value;
    if node.isGateway && f.backendHost != "" {
      assert Posts(TcpCommand(args, f, w, file, reply).trace, "/cli/expose/tcp");
    }
  }

  // ----- enable / disable -----

  const InvalidType := "\U{274C} Invalid service type. Must be 'http' or 'tcp'."

  /** What enable hands on: the type, the ID and --ttl (default ""). */
  datatype EnableRequest = EnableRequest(serviceType: string, id: string, ttl: string)

  /**
   * The request enable forwards, or None when it stops first: exactly two arguments and
   * a type of "http" or "tcp" are needed, and all three values pass through unchanged.
   */
  function EnableForward(args: seq<string>, ttl: string): (req: Option<EnableRequest>)
    ensures req.Some? <==> |args| == 2 && (args[0] == "http" || args[0] == "tcp")
    ensures req.Some? ==> req.value.serviceType == args[0] && req.value.id == args[1] && req.value.ttl == ttl
  {
    if |args| == 2 && (args[0] == "http" || args[0] == "tcp") then Some(EnableRequest(args[0], args[1], ttl)) else None
  }

  /**
   * enable <type> <id>: the wrong number of arguments is a usage error and an invalid type
   * prints the complaint; in both cases nothing is sent.
   */
  function EnableCommand(args: seq<string>, ttl: string, file: ConfigStore.ConfigFile, reply: Api.ToggleReply): (r: Run)
    ensures |args| != 2 ==> r.trace == [] && r.outcome.Usage? && r.config == file
    ensures |args| == 2 && args[0] != "http" && args[0] != "tcp" ==> r == Run([Say(InvalidType)], file, Finished)
  {
    match ExactArgs(2, args)
    case Some(refusal) => Run([], file, refusal)
    case None =>
      match EnableForward(args, ttl)
      case None => Run([Say(InvalidType)], file, Finished)
      case Some(req) => Announced(args, "Enabling", Api.EnableServiceByType(req.serviceType, req.id, file, reply))
  }

  /**
   * enable sends a request exactly when its arguments pass both checks and the
   * configuration can be read; it then announces itself and sends the enable request for
   * the type and ID it was given.
   */
  lemma EnableCommandSends(args: seq<string>, ttl: string, file: ConfigStore.ConfigFile, reply: Api.ToggleReply)
    ensures var r := EnableCommand(args, ttl, file, reply);
      && (AnyRequest(r.trace) <==> EnableForward(args, ttl).Some? && !file.Unreadable?)
      && (EnableForward(args, ttl).Some? && !file.Unreadable? ==>
            var req := EnableForward(args, ttl).value;
            && |r.trace| >= 2
            && r.trace[0] == Say(Announcement(args, "Enabling"))
            && r.trace[1] == Request("PATCH", Api.TogglePath(req.serviceType, req.id, "enable"), NoPayload))
  {
    var r := EnableCommand(args, ttl, file, reply);
    match EnableForward(args, ttl)
    case None =>
      assert r.trace == [] || r.trace == [Say(InvalidType)];
    case Some(req) =>
      var call := Api.EnableServiceByType(req.serviceType, req.id, file, reply);
      AnnouncedToggle(args, "Enabling", call, file, req.serviceType, req.id, "enable");
  }

  /**
   * disable <type> <id>: the same checks as enable; the type and ID are passed on
   * unchanged.
   */
  function DisableCommand(args: seq<string>, file: ConfigStore.ConfigFile, reply: Api.ToggleReply): (r: Run)
    ensures |args| != 2 ==> r.trace == [] && r.outcome.Usage? && r.config == file
    ensures |args| == 2 && args[0] != "http" && args[0] != "tcp" ==> r == Run([Say(InvalidType)], file, Finished)
  {
    match ExactArgs(2, args)
    case Some(refusal) => Run([], file, refusal)
    case None =>
      if args[0] != "http" && args[0] != "tcp" then Run([Say(InvalidType)], file, Finished)
      else Announced(args, "Disabling", Api.DisableServiceByType(args[0], args[1], file, reply))
  }

  /**
   * disable sends a request exactly when there are two arguments, the type is "http" or
   * "tcp" and the configuration can be read; it then announces itself and sends the
   * disable request for that type and ID.
   */
  lemma DisableCommandSends(args: seq<string>, file: ConfigStore.ConfigFile, reply: Api.ToggleReply)
    ensures var r := DisableCommand(args, file, reply);
      && (AnyRequest(r.trace) <==> |args| == 2 && (args[0] == "http" || args[0] == "tcp") && !file.Unreadable?)
      && (|args| == 2 && (args[0] == "http" || args[0] == "tcp") && !file.Unreadable? ==>
            && |r.trace| >= 2
            && r.trace[0] == Say(Announcement(args, "Disabling"))
            && r.trace[1] == Request("PATCH", Api.TogglePath(args[0], args[1], "disable"), NoPayload))
  {
    var r := DisableCommand(args, file, reply);
    if |args| == 2 && (args[0] == "http" || args[0] == "tcp") {
      var call := Api.DisableServiceByType(args[0], args[1], file, reply);
      AnnouncedToggle(args, "Disabling", call, file, args[0], args[1], "disable");
    } else {
      assert r.trace == [] || r.trace == [Say(InvalidType)];
    }
  }

  /** The common shape of enable and disable once both checks passed: the announcement, then the call. */
  function Announced(args: seq<string>, verbing: string, call: Run): (r: Run)
    requires |args| == 2
    ensures r.trace == [Say(Announcement(args, verbing))] + call.trace
  {
    Prepend([Say(Announcement(args, verbing))], call)
  }

  /** "Enabling http service '7'...": the verb, the type and the quoted ID. */
  function Announcement(args: seq<string>, verbing: string): string
    requires |args| == 2
  {
    verbing + " " + args[0] + " service '" + args[1] + "'..."
  }

  /** An announced toggle request: a request exactly when the configuration was readable, second. */
  lemma AnnouncedToggle(args: seq<string>, verbing: string, call: Run, file: ConfigStore.ConfigFile,
                        serviceType: string, id: string, action: string)
    requires |args| == 2
    requires file.Unreadable? ==> call.trace == []
    requires !file.Unreadable? ==> |call.trace| >= 1 && call.trace[0] == Request("PATCH", Api.TogglePath(serviceType, id, action), NoPayload)
    ensures var t := Announced(args, verbing, call).trace;
      && (AnyRequest(t) <==> !file.Unreadable?)
      && (!file.Unreadable? ==>
            |t| >= 2 && t[0] == Say(Announcement(args, verbing))
            && t[1] == Request("PATCH", Api.TogglePath(serviceType, id, action), NoPayload))
  {
    var t := Announced(args, verbing, call).trace;
    assert t[0] == Say(Announcement(args, verbing));
    if !file.Unreadable? {
      assert t[1] == call.trace[0];
    } else {
      assert t == [Say(Announcement(args, verbing))];
    }
  }

  // ----- gateway -----

  /** The interface the update uses: --interface, or the default route's interface when it is empty. */
  function GatewayInterface(iface: string, routeOutput: Option<string>): (chosen: string)
    ensures iface != "" ==> chosen == iface
    ensures iface == "" && routeOutput.None? ==> chosen == "eth0"
    ensures iface == "" && routeOutput.Some? ==> chosen == Network.DefaultInterfaceName(routeOutput)
  {
    if iface == "" then Network.DefaultInterfaceName(routeOutput) else iface
  }

  /**
   * gateway: no --subnet shows the help only; a subnet that net.ParseCIDR (`parseCidr`)
   * rejects is reported and nothing is sent; otherwise the announcement, then one update
   * carrying the chosen interface and the subnet.
   */
  function GatewayCommand(subnet: string, iface: string, routeOutput: Option<string>, parseCidr: string -> bool): (t: seq<Action>)
    ensures subnet == "" ==> t == [ShowHelp]
    ensures (exists i :: 0 <= i < |t| && t[i].UpdateGateway?) <==> subnet != "" && parseCidr(subnet)
    ensures subnet != "" && !parseCidr(subnet) ==> t == [Say("\U{274C} Invalid subnet format: " + subnet)]
    ensures subnet != "" && parseCidr(subnet) ==>
      var chosen := GatewayInterface(iface, routeOutput);
      t == [Say("Updating gateway subnet to '" + subnet + "' using interface '" + chosen + "'..."), UpdateGateway(chosen, subnet)]
  {
    if subnet == "" then [ShowHelp]
    else
      var chosen := GatewayInterface(iface, routeOutput);
      if !parseCidr(subnet) then [Say("\U{274C} Invalid subnet format: " + subnet)]
      else
        var t := [Say("Updating gateway subnet to '" + subnet + "' using interface '" + chosen + "'..."), UpdateGateway(chosen, subnet)];
        assert t[1].UpdateGateway?;
        t
  }
}

=== FILE: config_store.dfy ===
/**
 * The persisted settings file (/etc/wiredoor/config.ini): a section -> key -> value map,
 * its defaults, the two save operations, the derived readings and the boolean codec.
 */
module ConfigStore {
  import opened Wrappers
  import Text

  type Section = map<string, string>
  type Ini = map<string, Section>

  /** The file written when none exists yet. */
  const DefaultIni: Ini := map[
    "server" := map["url" := "", "token" := "", "path" := ""],
    "client" := map["keepalive" := "25"],
    "daemon" := map["enabled" := "false"]
  ]

  /**
   * What the file system holds at the configuration path. Missing is a missing file
   * that can be created; a missing file whose directory or defaults cannot be written
   * fails like an unloadable one, so it is Unreadable.
   */
  datatype ConfigFile = Missing | Unreadable | Present(ini: Ini)

  /**
   * Opening the file: a missing (creatable) file is replaced by the defaults, which are
   * also written back; a file that cannot be loaded or created is an error that every
   * caller turns into a fatal exit.
   */
  function Open(f: ConfigFile): (r: Option<Ini>)
    ensures r.None? <==> f.Unreadable?
    ensures f.Missing? ==> r == Some(DefaultIni)
    ensures f.Present? ==> r == Some(f.ini)
  {
    match f
    case Missing => Some(DefaultIni)
    case Unreadable => None
    case Present(ini) => Some(ini)
  }

  /** The value of a key; the INI library yields "" for a section or key that does not exist. */
  function Get(ini: Ini, section: string, key: string): string {
    if section in ini && key in ini[section] then ini[section][key] else ""
  }

  /** Section(section).Key(key).SetValue(value): creates the section and key when absent. */
  function Set(ini: Ini, section: string, key: string, value: string): (r: Ini)
    ensures Get(r, section, key) == value
    ensures forall s, k :: (s, k) != (section, key) ==> Get(r, s, k) == Get(ini, s, k)
    ensures r.Keys == ini.Keys + {section}
  {
    var current := if section in ini then ini[section] else map[];
    ini[section := current[key := value]]
  }

  /** The url and token update of SaveServerConfig. */
  function SaveServer(ini: Ini, url: string, token: string): (r: Ini)
    ensures Get(r, "server", "url") == url && Get(r, "server", "token") == token
    ensures forall s, k :: (s, k) != ("server", "url") && (s, k) != ("server", "token") ==> Get(r, s, k) == Get(ini, s, k)
  {
    Set(Set(ini, "server", "url", url), "server", "token", token)
  }

  /** The daemon.enabled update of SaveDaemonConfig. */
  function SaveDaemon(ini: Ini, useDaemon: bool): (r: Ini)
    ensures Get(r, "daemon", "enabled") == BoolToString(useDaemon)
    ensures forall s, k :: (s, k) != ("daemon", "enabled") ==> Get(r, s, k) == Get(ini, s, k)
  {
    Set(ini, "daemon", "enabled", BoolToString(useDaemon))
  }

  datatype ServerConfig = ServerConfig(url: string, token: string, path: string)
  datatype Config = Config(server: ServerConfig, keepAlive: string, daemonEnabled: string)

  /** getConfig: the typed view of the five keys the client reads. */
  function GetConfig(ini: Ini): Config {
    Config(
      ServerConfig(Get(ini, "server", "url"), Get(ini, "server", "token"), Get(ini, "server", "path")),
      Get(ini, "client", "keepalive"),
      Get(ini, "daemon", "enabled"))
  }

  /** Two files that agree on the five keys read the same; every other key is ignored. */
  lemma GetConfigReadsFiveKeys(a: Ini, b: Ini)
    requires Get(a, "server", "url") == Get(b, "server", "url")
    requires Get(a, "server", "token") == Get(b, "server", "token")
    requires Get(a, "server", "path") == Get(b, "server", "path")
    requires Get(a, "client", "keepalive") == Get(b, "client", "keepalive")
    requires Get(a, "daemon", "enabled") == Get(b, "daemon", "enabled")
    ensures GetConfig(a) == GetConfig(b)
  {
  }

  /** parseBool: case- and padding-insensitive "1", "true", "yes" or "on". */
  predicate ParseBool(s: string) {
    var v := Text.ToLower(Text.TrimSpace(s));
    v == "1" || v == "true" || v == "yes" || v == "on"
  }

  /** boolToString */
  function BoolToString(b: bool): (r: string)
    ensures r in {"true", "false"}
  {
    if b then "true" else "false"
  }

  predicate IsDaemonEnabled(ini: Ini) {
    ParseBool(GetConfig(ini).daemonEnabled)
  }

  predicate IsServerConfigSet(ini: Ini) {
    GetConfig(ini).server.url != "" && GetConfig(ini).server.token != ""
  }

  /** A lower-case word without surrounding white space is compared as it stands. */
  lemma ReadsAsItself(s: string)
    requires |s| > 0 && !Text.IsSpace(s[0]) && !Text.IsSpace(s[|s| - 1])
    requires forall i :: 0 <= i < |s| ==> !('A' <= s[i] <= 'Z')
    ensures ParseBool(s) <==> s == "1" || s == "true" || s == "yes" || s == "on"
  {
    Text.TrimUnpadded(s, Text.IsSpace);
    Text.ToLowerKeepsLower(s);
  }

  /** boolToString and parseBool are a round trip: "true" reads as true, "false" as false. */
  lemma BoolRoundTrip(b: bool)
    ensures ParseBool(BoolToString(b)) == b
  {
    var s := BoolToString(b);
    ReadsAsItself(s);
    if !b {
      assert |s| == 5;
    }
  }

  /** White space around a stored value does not change how it reads. */
  lemma ParseBoolIgnoresPadding(p: string, s: string, q: string)
    requires Text.AllIn(p, Text.IsSpace) && Text.AllIn(q, Text.IsSpace)
    ensures ParseBool(p + s + q) == ParseBool(s)
  {
    Text.TrimIgnoresPadding(p, s, q, Text.IsSpace);
  }

  /** The exact words the reader accepts, with arbitrary ASCII case. */
  lemma ParseBoolAcceptsAnyCase(s: string)
    requires Text.ToLower(s) == "1" || Text.ToLower(s) == "true" || Text.ToLower(s) == "yes" || Text.ToLower(s) == "on"
    requires |s| > 0 && !Text.IsSpace(s[0]) && !Text.IsSpace(s[|s| - 1])
    ensures ParseBool(s)
  {
    Text.TrimUnpadded(s, Text.IsSpace);
  }

  /** Whatever SaveDaemonConfig stores is what IsDaemonEnabled reads back. */
  lemma SaveDaemonReadsBack(ini: Ini, useDaemon: bool)
    ensures IsDaemonEnabled(SaveDaemon(ini, useDaemon)) == useDaemon
    ensures IsServerConfigSet(SaveDaemon(ini, useDaemon)) == IsServerConfigSet(ini)
  {
    assert GetConfig(SaveDaemon(ini, useDaemon)).daemonEnabled == BoolToString(useDaemon);
    assert GetConfig(SaveDaemon(ini, useDaemon)).server == GetConfig(ini).server;
    BoolRoundTrip(useDaemon);
  }

  /** After SaveServerConfig the server is configured exactly when both values are non-empty. */
  lemma SaveServerReadsBack(ini: Ini, url: string, token: string)
    ensures IsServerConfigSet(SaveServer(ini, url, token)) <==> url != "" && token != ""
    ensures IsDaemonEnabled(SaveServer(ini, url, token)) == IsDaemonEnabled(ini)
    ensures GetConfig(SaveServer(ini, url, token)).server.path == GetConfig(ini).server.path
    ensures GetConfig(SaveServer(ini, url, token)).keepAlive == GetConfig(ini).keepAlive
  {
    assert GetConfig(SaveServer(ini, url, token)).daemonEnabled == GetConfig(ini).daemonEnabled;
  }

  /** The defaults: empty server settings, keepalive 25, daemon off. */
  lemma DefaultsAreUnconfigured()
    ensures GetConfig(DefaultIni) == Config(ServerConfig("", "", ""), "25", "false")
    ensures !IsServerConfigSet(DefaultIni)
    ensures !IsDaemonEnabled(DefaultIni)
  {
    var server := DefaultIni["server"];
    assert server == map["url" := "", "token" := "", "path" := ""];
    assert Get(DefaultIni, "server", "url") == server["url"] == "";
    assert Get(DefaultIni, "server", "token") == server["token"] == "";
    assert Get(DefaultIni, "server", "path") == server["path"] == "";
    assert Get(DefaultIni, "client", "keepalive") == DefaultIni["client"]["keepalive"] == "25";
    assert Get(DefaultIni, "daemon", "enabled") == DefaultIni["daemon"]["enabled"] == BoolToString(false);
    BoolRoundTrip(false);
  }

  /**
   * What getConfig reads right after the file is opened: the defaults when it was
   * missing, and the file's own five keys when it was present.
   */
  lemma OpenReadsDefaultsWhenMissing(f: ConfigFile)
    requires !f.Unreadable?
    ensures f.Missing? ==> GetConfig(Open(f).value) == Config(ServerConfig("", "", ""), "25", "false")
    ensures f.Missing? ==> !IsServerConfigSet(Open(f).value) && !IsDaemonEnabled(Open(f).value)
    ensures f.Present? ==> GetConfig(Open(f).value) == GetConfig(f.ini)
  {
    if f.Missing? {
      DefaultsAreUnconfigured();
    }
  }
}

=== FILE: connection.dfy ===
/**
 * Bringing the tunnel up and down: Connect (persist overrides, fetch the node, write
 * wg0.conf, restart the daemon, wg-quick up), Disconnect and RestartTunnel.
 */
module Connection {
  import opened Wrappers
  import opened Entities
  import opened Effects
  import ConfigStore
  import InitService
  import Api
  import Network

  /** The options of one connect invocation. */
  datatype ConnectionConfig = ConnectionConfig(url: string, token: string, useDaemon: bool, setDaemon: bool)

  /** The zero ConnectionConfig: no overrides and the daemon setting left alone. */
  const NoOverrides := ConnectionConfig("", "", false, false)

  /**
   * Everything a run observes about the machine and the server, fixed for the run:
   * whether /etc/wireguard/wg0.conf exists, whether the wg0 link is up, wg0's addresses,
   * /etc/os-release, the replies of the API calls and how the subprocesses, the
   * tunnel-config write and the removal of wg0.conf end.
   */
  datatype World = World(
    tunnelConfExists: bool,
    linkUp: bool,
    wgAddresses: Option<seq<Network.Ipv4>>,
    osRelease: Option<string>,
    nodeReply: Api.Exchange<Node>,
    configReply: Api.Reply,
    apiConfigReply: Api.Exchange<ApiConfig>,
    writeError: Option<string>,
    upOk: bool,
    downError: Option<string>,
    removeOk: bool)

  const ConnectFailed := "Unable to connect we can't communicate with wiredoor server"
  const UpFailed := "Error: Unable to connect to tunnel, please review your user permissions or if you are inside container ensure that you have added the capability NET_ADMIN"
  const RestartFailed := "Error: Unable to restart the tunnel, please review your user permissions or if you are inside container ensure that you have added the capability NET_ADMIN"

  /** How the connect message names this machine. */
  function NodeLabel(node: Node): (kind: string)
    ensures kind == "gateway" <==> node.isGateway
    ensures kind == "node" <==> !node.isGateway
  {
    if node.isGateway then "gateway" else "node"
  }

  /** getInitSystem on this machine. */
  function InitSystem(w: World): (init: string)
    ensures init == "systemd" || init == "openrc"
  {
    InitService.InitSystemOf(InitService.DistroId(w.osRelease))
  }

  /**
   * The two service operations run when the daemon is enabled: restart and enable when
   * connecting, stop and disable when disconnecting. Their errors are ignored, so an
   * operation without a command under `init` is simply skipped.
   */
  function DaemonCommands(enabled: bool, first: InitService.Verb, second: InitService.Verb, init: string): (d: seq<Action>)
    ensures !enabled ==> d == []
    ensures enabled && (init == "systemd" || init == "openrc") ==>
      |d| == 2 && d[0] == Exec(InitService.ServiceArgv(first, init).value) && d[1] == Exec(InitService.ServiceArgv(second, init).value)
    ensures forall i :: 0 <= i < |d| ==> d[i].Exec? && |d[i].argv| > 0 && d[i].argv[0] in {"systemctl", "rc-service", "rc-update"}
    ensures !AnySave(d)
  {
    if !enabled then []
    else
      var x := InitService.ServiceArgv(first, init);
      var y := InitService.ServiceArgv(second, init);
      (if x.Success? then [Exec(x.value)] else []) + (if y.Success? then [Exec(y.value)] else [])
  }

  /** The restart and enable of manualLinuxConnect, run only when the daemon is enabled. */
  function DaemonStart(w: World, ini: ConfigStore.Ini): seq<Action> {
    DaemonCommands(ConfigStore.IsDaemonEnabled(ini), InitService.Restart, InitService.Enable, InitSystem(w))
  }

  /** The stop and disable of manualLinuxDisconnect, run only when the daemon is enabled. */
  function DaemonStop(w: World, ini: ConfigStore.Ini): seq<Action> {
    DaemonCommands(ConfigStore.IsDaemonEnabled(ini), InitService.Stop, InitService.Disable, InitSystem(w))
  }

  /** What manualLinuxConnect requests and prints while fetching the tunnel configuration. */
  function ConfigFetch(w: World): (p: seq<Action>)
    ensures |p| >= 1 && p[0] == Request("GET", "/cli/config", NoPayload)
    ensures forall i :: 0 <= i < |p| ==> p[i].Request? || p[i].Say?
  {
    [Request("GET", "/cli/config", NoPayload)] + Says(Api.GetNodeConfig(w.configReply).printed)
  }

  /**
   * manualLinuxConnect followed by Status, with a readable configuration; `text` is what
   * GetNodeConfig returned, `daemonOn` what IsDaemonEnabled read and `init` what
   * getInitSystem detected.
   */
  function LinuxConnect(w: World, ini: ConfigStore.Ini, daemonOn: bool, init: string, text: string): (r: Run)
    ensures r.config == ConfigStore.Present(ini)
    ensures |r.trace| >= 1 && r.trace[0] == Request("GET", "/cli/config", NoPayload)
    ensures w.writeError.Some? ==> r.trace == ConfigFetch(w) && r.outcome == Fatal(w.writeError.value)
    ensures !AnySave(r.trace)
  {
    var head := ConfigFetch(w);
    assert !AnySave(head);
    match w.writeError
    case Some(e) => Run(head, ConfigStore.Present(ini), Fatal(e))
    case None =>
      var daemon := DaemonCommands(daemonOn, InitService.Restart, InitService.Enable, init);
      var tail := if w.upOk then [RunStatus] else [];
      var t := head + [WriteTunnelConfig(text)] + daemon + [Exec(WgUp)] + tail;
      AnySaveConcat(head, [WriteTunnelConfig(text)]);
      AnySaveConcat(head + [WriteTunnelConfig(text)], daemon);
      AnySaveConcat(head + [WriteTunnelConfig(text)] + daemon, [Exec(WgUp)]);
      AnySaveConcat(head + [WriteTunnelConfig(text)] + daemon + [Exec(WgUp)], tail);
      Run(t, ConfigStore.Present(ini), if w.upOk then Finished else Fatal(UpFailed))
  }

  /** The shape of manualLinuxConnect's trace: order facts that hold whatever the actions are. */
  lemma UpShapeOrder(head: seq<Action>, write: Action, d: seq<Action>, up: Action, tail: seq<Action>, x: Action)
    requires forall i :: 0 <= i < |head| ==> !head[i].Exec? && !head[i].RunStatus?
    requires !write.Exec? && !write.RunStatus?
    requires up.Exec? && forall a :: a in d ==> a.Exec?
    requires tail == [] || tail == [RunStatus]
    ensures var t := head + [write] + d + [up] + tail;
      && Before(t, write, up)
      && (forall a :: a in d ==> Before(t, write, a) && Before(t, a, up))
      && (x in t && x.Exec? ==> x in d || x == up)
      && (RunStatus in t <==> tail != [])
      && (tail != [] ==> t[|t| - 1] == RunStatus)
  {
    var t := head + [write] + d + [up] + tail;
    var n := |head|;
    assert t[n] == write && t[n + 1 + |d|] == up;
    forall a | a in d
      ensures Before(t, write, a) && Before(t, a, up)
    {
      var k :| 0 <= k < |d| && d[k] == a;
      assert t[n + 1 + k] == a;
    }
    forall a | a in t && (a.Exec? || a.RunStatus?)
      ensures (a.Exec? ==> a in d || a == up) && (a.RunStatus? ==> tail != [])
    {
      var k :| 0 <= k < |t| && t[k] == a;
      if k < n {
        assert head[k] == a;
      } else if n + 1 <= k < n + 1 + |d| {
        assert d[k - n - 1] == a;
      }
    }
    assert x in t && x.Exec? ==> x in d || x == up;
    if tail != [] {
      assert t[|t| - 1] == RunStatus;
    }
  }

  /**
   * manualLinuxConnect's order: wg0.conf is written before the daemon commands, which run
   * before wg-quick up; the restart runs exactly when the daemon is enabled, and Status
   * follows only a successful up.
   */
  lemma LinuxConnectOrder(w: World, ini: ConfigStore.Ini, daemonOn: bool, init: string, text: string)
    requires w.writeError.None? && (init == "systemd" || init == "openrc")
    ensures var r := LinuxConnect(w, ini, daemonOn, init, text);
      var d := DaemonCommands(daemonOn, InitService.Restart, InitService.Enable, init);
      && Before(r.trace, WriteTunnelConfig(text), Exec(WgUp))
      && (forall a :: a in d ==> Before(r.trace, WriteTunnelConfig(text), a) && Before(r.trace, a, Exec(WgUp)))
      && (Exec(InitService.ServiceArgv(InitService.Restart, init).value) in r.trace <==> daemonOn)
      && (w.upOk ==> r.outcome == Finished && r.trace[|r.trace| - 1] == RunStatus)
      && (!w.upOk ==> r.outcome == Fatal(UpFailed) && RunStatus !in r.trace)
  {
    var r := LinuxConnect(w, ini, daemonOn, init, text);
    var d := DaemonCommands(daemonOn, InitService.Restart, InitService.Enable, init);
    var head := ConfigFetch(w);
    var tail: seq<Action> := if w.upOk then [RunStatus] else [];
    assert forall a :: a in d ==> a.Exec? by {
      forall a | a in d ensures a.Exec? {
        var k :| 0 <= k < |d| && d[k] == a;
      }
    }
    var restart := Exec(InitService.ServiceArgv(InitService.Restart, init).value);
    UpShapeOrder(head, WriteTunnelConfig(text), d, Exec(WgUp), tail, restart);
    assert restart != Exec(WgUp) by {
      assert restart.argv[0] != "bash";
    }
    if daemonOn {
      assert d[0] == restart;
    }
  }

  /** The configuration after Connect's two optional saves. */
  function AfterSaves(cc: ConnectionConfig, ini: ConfigStore.Ini): ConfigStore.Ini {
    var afterServer := if cc.url != "" && cc.token != "" then ConfigStore.SaveServer(ini, cc.url, cc.token) else ini;
    if cc.setDaemon then ConfigStore.SaveDaemon(afterServer, cc.useDaemon) else afterServer
  }

  /**
   * What the saves leave in the configuration: the overrides when both were given, the
   * daemon flag when it was set, and otherwise what was there before.
   */
  lemma AfterSavesReadsBack(cc: ConnectionConfig, before: ConfigStore.Ini)
    ensures var after := AfterSaves(cc, before);
      && (cc.url != "" && cc.token != "" ==> ConfigStore.GetConfig(after).server.url == cc.url && ConfigStore.GetConfig(after).server.token == cc.token)
      && (cc.url == "" || cc.token == "" ==> ConfigStore.GetConfig(after).server == ConfigStore.GetConfig(before).server)
      && (cc.setDaemon ==> ConfigStore.IsDaemonEnabled(after) == cc.useDaemon)
      && (!cc.setDaemon ==> ConfigStore.IsDaemonEnabled(after) == ConfigStore.IsDaemonEnabled(before))
      && ((cc.url == "" || cc.token == "") && !cc.setDaemon ==> after == before)
  {
    var afterServer := if cc.url != "" && cc.token != "" then ConfigStore.SaveServer(before, cc.url, cc.token) else before;
    ServerSaveReadsBack(cc, before);
    DaemonSaveReadsBack(cc, afterServer);
  }

  /** The server part of the saves: the overrides when both were given, otherwise no change. */
  lemma ServerSaveReadsBack(cc: ConnectionConfig, before: ConfigStore.Ini)
    ensures var afterServer := if cc.url != "" && cc.token != "" then ConfigStore.SaveServer(before, cc.url, cc.token) else before;
      && (cc.url != "" && cc.token != "" ==> ConfigStore.GetConfig(afterServer).server.url == cc.url && ConfigStore.GetConfig(afterServer).server.token == cc.token)
      && (cc.url == "" || cc.token == "" ==> afterServer == before)
      && ConfigStore.IsDaemonEnabled(afterServer) == ConfigStore.IsDaemonEnabled(before)
  {
    if cc.url != "" && cc.token != "" {
      ConfigStore.SaveServerReadsBack(before, cc.url, cc.token);
    }
  }

  /** The daemon part of the saves: the flag when it was set, otherwise no change; the server is kept. */
  lemma DaemonSaveReadsBack(cc: ConnectionConfig, ini: ConfigStore.Ini)
    ensures var after := if cc.setDaemon then ConfigStore.SaveDaemon(ini, cc.useDaemon) else ini;
      && ConfigStore.GetConfig(after).server == ConfigStore.GetConfig(ini).server
      && (cc.setDaemon ==> ConfigStore.IsDaemonEnabled(after) == cc.useDaemon)
      && (!cc.setDaemon ==> after == ini)
  {
    if cc.setDaemon {
      ConfigStore.SaveDaemonReadsBack(ini, cc.useDaemon);
    }
  }

  /** The save actions of Connect, in order. */
  function Saves(cc: ConnectionConfig): (s: seq<Action>)
    ensures SaveServer(cc.url, cc.token) in s <==> cc.url != "" && cc.token != ""
    ensures SaveDaemon(cc.useDaemon) in s <==> cc.setDaemon
    ensures forall i :: 0 <= i < |s| ==> s[i] == SaveServer(cc.url, cc.token) || s[i] == SaveDaemon(cc.useDaemon)
  {
    (if cc.url != "" && cc.token != "" then [SaveServer(cc.url, cc.token)] else [])
    + (if cc.setDaemon then [SaveDaemon(cc.useDaemon)] else [])
  }

  /** The connect message. */
  function Connecting(node: Node): (line: string)
    ensures HasPrefixConnecting(line)
  {
    "Connecting " + NodeLabel(node) + " " + node.name + "..."
  }

  predicate HasPrefixConnecting(line: string) {
    |line| >= 11 && line[..11] == "Connecting "
  }

  /** What Connect prints and requests between the saves and manualLinuxConnect. */
  function NodeFetch(w: World): (p: seq<Action>)
    ensures |p| >= 1 && p[0] == Request("GET", "/cli/node", NoPayload)
    ensures forall i :: 0 <= i < |p| ==> p[i].Request? || p[i].Say?
    ensures var fetched := Api.GetNode(w.nodeReply);
      fetched.value.id > 0 ==> |p| == 2 + |fetched.printed| && p[|p| - 1] == Say(Connecting(fetched.value))
  {
    var fetched := Api.GetNode(w.nodeReply);
    [Request("GET", "/cli/node", NoPayload)] + Says(fetched.printed)
      + (if fetched.value.id > 0 then [Say(Connecting(fetched.value))] else [])
  }

  /**
   * Connect after the saves: fetch the node and, when it has an ID, bring the tunnel up;
   * `daemonOn`, `init` and `text` are what IsDaemonEnabled, getInitSystem and
   * GetNodeConfig read.
   */
  function FetchAndConnect(w: World, ini: ConfigStore.Ini, daemonOn: bool, init: string, text: string): (r: Run)
    ensures r.config == ConfigStore.Present(ini)
    ensures |r.trace| >= 1 && r.trace[0] == Request("GET", "/cli/node", NoPayload)
    ensures !AnySave(r.trace)
    ensures Api.GetNode(w.nodeReply).value.id <= 0 ==> r.trace == NodeFetch(w) && r.outcome == Fatal(ConnectFailed)
  {
    var fetched := Api.GetNode(w.nodeReply);
    var head := NodeFetch(w);
    assert !AnySave(head);
    if fetched.value.id > 0 then
      var tail := LinuxConnect(w, ini, daemonOn, init, text);
      AnySaveConcat(head, tail.trace);
      Prepend(head, tail)
    else Run(head, ConfigStore.Present(ini), Fatal(ConnectFailed))
  }

  /**
   * Connect: with a readable configuration file, the saves come first, then the node
   * fetch, and nothing after them writes the configuration; the file left behind is the
   * configuration after the saves.
   */
  function Connect(cc: ConnectionConfig, w: World, file: ConfigStore.ConfigFile): (r: Run)
    ensures file.Unreadable? ==> r == Run([], file, ConfigUnreadable)
    ensures !file.Unreadable? ==>
      && r.config == ConfigStore.Present(AfterSaves(cc, ConfigStore.Open(file).value))
      && |r.trace| > |Saves(cc)| && r.trace[|Saves(cc)|] == Request("GET", "/cli/node", NoPayload)
  {
    match ConfigStore.Open(file)
    case None => Run([], file, ConfigUnreadable)
    case Some(ini) =>
      var after := AfterSaves(cc, ini);
      var tail := FetchAndConnect(w, after, ConfigStore.IsDaemonEnabled(after), InitSystem(w), Api.GetNodeConfig(w.configReply).value);
      Prepend(Saves(cc), tail)
  }

  /** Connect's trace once the configuration is read: the saves, then FetchAndConnect. */
  lemma ConnectUnfolds(cc: ConnectionConfig, w: World, file: ConfigStore.ConfigFile)
    requires !file.Unreadable?
    ensures var after := AfterSaves(cc, ConfigStore.Open(file).value);
      Connect(cc, w, file).trace == Saves(cc) + FetchAndConnect(w, after, ConfigStore.IsDaemonEnabled(after), InitSystem(w), Api.GetNodeConfig(w.configReply).value).trace
      && Connect(cc, w, file).outcome == FetchAndConnect(w, after, ConfigStore.IsDaemonEnabled(after), InitSystem(w), Api.GetNodeConfig(w.configReply).value).outcome
  {
  }

  /** FetchAndConnect for a registered node: the fetch and message, then manualLinuxConnect. */
  lemma FetchAndConnectUnfolds(w: World, ini: ConfigStore.Ini, daemonOn: bool, init: string, text: string)
    requires Api.GetNode(w.nodeReply).value.id > 0
    ensures var r := FetchAndConnect(w, ini, daemonOn, init, text);
      var t := LinuxConnect(w, ini, daemonOn, init, text);
      r.trace == NodeFetch(w) + t.trace && r.outcome == t.outcome
  {
  }

  /**
   * The server URL and token are saved exactly when both overrides are non-empty, and
   * the daemon flag exactly when it was set explicitly, with the value given; every save
   * precedes the node fetch.
   */
  lemma ConnectSavesOnlyGivenOverrides(cc: ConnectionConfig, w: World, file: ConfigStore.ConfigFile)
    requires !file.Unreadable?
    ensures var r := Connect(cc, w, file);
      && (SaveServer(cc.url, cc.token) in r.trace <==> cc.url != "" && cc.token != "")
      && (SaveDaemon(cc.useDaemon) in r.trace <==> cc.setDaemon)
      && (forall i :: 0 <= i < |r.trace| && (r.trace[i].SaveServer? || r.trace[i].SaveDaemon?) ==>
            i < |Saves(cc)| && (r.trace[i] == SaveServer(cc.url, cc.token) || r.trace[i] == SaveDaemon(cc.useDaemon)))
  {
    var after := AfterSaves(cc, ConfigStore.Open(file).value);
    ConnectUnfolds(cc, w, file);
    var tail := FetchAndConnect(w, after, ConfigStore.IsDaemonEnabled(after), InitSystem(w), Api.GetNodeConfig(w.configReply).value).trace;
    SavesThenQuiet(cc, tail);
  }

  /** The saves of cc followed by a trace that saves nothing: exactly the saves of cc, all first. */
  lemma SavesThenQuiet(cc: ConnectionConfig, tail: seq<Action>)
    requires !AnySave(tail)
    ensures var t := Saves(cc) + tail;
      && (SaveServer(cc.url, cc.token) in t <==> cc.url != "" && cc.token != "")
      && (SaveDaemon(cc.useDaemon) in t <==> cc.setDaemon)
      && (forall i :: 0 <= i < |t| && (t[i].SaveServer? || t[i].SaveDaemon?) ==>
            i < |Saves(cc)| && (t[i] == SaveServer(cc.url, cc.token) || t[i] == SaveDaemon(cc.useDaemon)))
  {
    SavesOnlyInPrefix(Saves(cc), tail, SaveServer(cc.url, cc.token));
    SavesOnlyInPrefix(Saves(cc), tail, SaveDaemon(cc.useDaemon));
  }

  /** When the rest of a trace saves nothing, every save in it belongs to its prefix. */
  lemma SavesOnlyInPrefix(s: seq<Action>, tail: seq<Action>, x: Action)
    requires !AnySave(tail)
    requires x.SaveServer? || x.SaveDaemon?
    ensures x in s + tail <==> x in s
    ensures forall i :: 0 <= i < |s + tail| && ((s + tail)[i].SaveServer? || (s + tail)[i].SaveDaemon?) ==> i < |s| && (s + tail)[i] == s[i]
  {
    var t := s + tail;
    if x in t {
      var i :| 0 <= i < |t| && t[i] == x;
      assert s[i] == x;
    }
  }

  /** What Connect leaves in the configuration: the overrides when both were given, the flag when set. */
  lemma ConnectConfigReadsBack(cc: ConnectionConfig, w: World, file: ConfigStore.ConfigFile)
    requires !file.Unreadable?
    ensures var before := ConfigStore.Open(file).value;
      var r := Connect(cc, w, file);
      && r.config.Present?
      && (cc.url != "" && cc.token != "" ==> ConfigStore.GetConfig(r.config.ini).server.url == cc.url && ConfigStore.GetConfig(r.config.ini).server.token == cc.token)
      && (cc.url == "" || cc.token == "" ==> ConfigStore.GetConfig(r.config.ini).server == ConfigStore.GetConfig(before).server)
      && (cc.setDaemon ==> ConfigStore.IsDaemonEnabled(r.config.ini) == cc.useDaemon)
      && (!cc.setDaemon ==> ConfigStore.IsDaemonEnabled(r.config.ini) == ConfigStore.IsDaemonEnabled(before))
  {
    AfterSavesReadsBack(cc, ConfigStore.Open(file).value);
  }

  /** Without overrides the configuration is read but not changed, and the node fetch comes first. */
  lemma ConnectWithoutFlagsKeepsConfig(cc: ConnectionConfig, w: World, file: ConfigStore.ConfigFile)
    requires !file.Unreadable? && (cc.url == "" || cc.token == "") && !cc.setDaemon
    ensures var r := Connect(cc, w, file);
      && r.config == ConfigStore.Present(ConfigStore.Open(file).value)
      && r.trace[0] == Request("GET", "/cli/node", NoPayload)
      && !AnySave(r.trace)
  {
    assert Saves(cc) == [];
    AfterSavesReadsBack(cc, ConfigStore.Open(file).value);
    var r := Connect(cc, w, file);
    assert r.trace[0..] == r.trace;
  }

  /**
   * A node ID that is not positive ends the run fatally before any tunnel-config write or
   * subprocess; the saves already made stay in the file.
   */
  lemma ConnectWithoutNodeIsFatal(cc: ConnectionConfig, w: World, file: ConfigStore.ConfigFile)
    requires !file.Unreadable? && Api.GetNode(w.nodeReply).value.id <= 0
    ensures var r := Connect(cc, w, file);
      && r.outcome == Fatal(ConnectFailed)
      && !AnyExec(r.trace)
      && (forall i :: 0 <= i < |r.trace| ==> !r.trace[i].WriteTunnelConfig?)
      && r.config == ConfigStore.Present(AfterSaves(cc, ConfigStore.Open(file).value))
  {
    ConnectUnfolds(cc, w, file);
    ConnectHeadTouchesNothing(cc, w);
  }

  /** Neither the saves nor the node fetch run a subprocess, write wg0.conf or call Status. */
  lemma ConnectHeadTouchesNothing(cc: ConnectionConfig, w: World)
    ensures var p := Saves(cc) + NodeFetch(w);
      && !AnyExec(p)
      && forall i :: 0 <= i < |p| ==> !p[i].WriteTunnelConfig? && !p[i].RunStatus? && !p[i].Exec?
  {
    var p := Saves(cc) + NodeFetch(w);
    forall i | 0 <= i < |p|
      ensures !p[i].WriteTunnelConfig? && !p[i].RunStatus? && !p[i].Exec?
    {
      if i >= |Saves(cc)| {
        assert p[i] == NodeFetch(w)[i - |Saves(cc)|];
      }
    }
  }

  /** The connect message says "gateway" exactly for a gateway node, and comes right before the config fetch. */
  lemma ConnectMessageNamesKind(cc: ConnectionConfig, w: World, file: ConfigStore.ConfigFile)
    requires !file.Unreadable? && Api.GetNode(w.nodeReply).value.id > 0
    ensures var node := Api.GetNode(w.nodeReply).value;
      var r := Connect(cc, w, file);
      var n := |Saves(cc)| + 1 + |Api.GetNode(w.nodeReply).printed|;
      && r.trace[n] == Say("Connecting " + (if node.isGateway then "gateway" else "node") + " " + node.name + "...")
      && r.trace[n + 1] == Request("GET", "/cli/config", NoPayload)
  {
    var after := AfterSaves(cc, ConfigStore.Open(file).value);
    ConnectTrace(cc, w, file);
    MessageBeforeConfigFetch(Saves(cc), w, LinuxConnect(w, after, ConfigStore.IsDaemonEnabled(after), InitSystem(w), Api.GetNodeConfig(w.configReply).value).trace);
  }

  /** In the saves, node fetch and manualLinuxConnect, the connect message comes right before the config fetch. */
  lemma MessageBeforeConfigFetch(saves: seq<Action>, w: World, t: seq<Action>)
    requires Api.GetNode(w.nodeReply).value.id > 0
    requires |t| >= 1 && t[0] == Request("GET", "/cli/config", NoPayload)
    ensures var trace := saves + (NodeFetch(w) + t);
      var n := |saves| + 1 + |Api.GetNode(w.nodeReply).printed|;
      && trace[n] == Say(Connecting(Api.GetNode(w.nodeReply).value))
      && trace[n + 1] == t[0]
  {
    var p := NodeFetch(w);
    var trace := saves + (p + t);
    var n := |saves| + |p|;
    assert trace[n - 1] == p[|p| - 1];
    assert trace[n] == t[0];
  }

  /** Performing actions with no subprocess and no Status before a trace keeps which of those occur in it. */
  lemma PrependKeepsExecs(p: seq<Action>, t: seq<Action>, a: Action)
    requires forall i :: 0 <= i < |p| ==> !p[i].Exec? && !p[i].RunStatus?
    requires a.Exec? || a.RunStatus?
    ensures a in p + t <==> a in t
  {
    if a in p + t {
      var i :| 0 <= i < |p + t| && (p + t)[i] == a;
      assert t[i - |p|] == a;
    }
  }

  /** The order facts of a trace survive performing, before it, actions that run nothing. */
  lemma LiftUpOrder(p: seq<Action>, t: seq<Action>, write: Action, d: seq<Action>, restart: Action, on: bool, ok: bool)
    requires forall i :: 0 <= i < |p| ==> !p[i].Exec? && !p[i].RunStatus?
    requires restart.Exec?
    requires Before(t, write, Exec(WgUp))
    requires forall a :: a in d ==> Before(t, write, a) && Before(t, a, Exec(WgUp))
    requires restart in t <==> on
    requires ok ==> |t| > 0 && t[|t| - 1] == RunStatus
    requires !ok ==> RunStatus !in t
    ensures Before(p + t, write, Exec(WgUp))
    ensures forall a :: a in d ==> Before(p + t, write, a) && Before(p + t, a, Exec(WgUp))
    ensures restart in p + t <==> on
    ensures ok ==> (p + t)[|p + t| - 1] == RunStatus
    ensures !ok ==> RunStatus !in p + t
  {
    BeforePrepend(p, t, write, Exec(WgUp));
    forall a | a in d
      ensures Before(p + t, write, a) && Before(p + t, a, Exec(WgUp))
    {
      BeforePrepend(p, t, write, a);
      BeforePrepend(p, t, a, Exec(WgUp));
    }
    PrependKeepsExecs(p, t, restart);
    PrependKeepsExecs(p, t, RunStatus);
  }

  /** Connect's trace for a registered node: the saves, the fetch and message, then manualLinuxConnect. */
  lemma ConnectTrace(cc: ConnectionConfig, w: World, file: ConfigStore.ConfigFile)
    requires !file.Unreadable? && Api.GetNode(w.nodeReply).value.id > 0
    ensures var after := AfterSaves(cc, ConfigStore.Open(file).value);
      var t := LinuxConnect(w, after, ConfigStore.IsDaemonEnabled(after), InitSystem(w), Api.GetNodeConfig(w.configReply).value);
      Connect(cc, w, file).trace == Saves(cc) + (NodeFetch(w) + t.trace)
      && Connect(cc, w, file).outcome == t.outcome
  {
    var after := AfterSaves(cc, ConfigStore.Open(file).value);
    ConnectUnfolds(cc, w, file);
    FetchAndConnectUnfolds(w, after, ConfigStore.IsDaemonEnabled(after), InitSystem(w), Api.GetNodeConfig(w.configReply).value);
  }

  /** LinuxConnectOrder, for manualLinuxConnect preceded by the saves and the node fetch. */
  lemma HeadedConnectOrder(cc: ConnectionConfig, w: World, ini: ConfigStore.Ini, on: bool, init: string, text: string)
    requires w.writeError.None? && (init == "systemd" || init == "openrc")
    ensures var r := LinuxConnect(w, ini, on, init, text);
      var trace := Saves(cc) + (NodeFetch(w) + r.trace);
      var d := DaemonCommands(on, InitService.Restart, InitService.Enable, init);
      && Before(trace, WriteTunnelConfig(text), Exec(WgUp))
      && (forall a :: a in d ==> Before(trace, WriteTunnelConfig(text), a) && Before(trace, a, Exec(WgUp)))
      && (Exec(InitService.ServiceArgv(InitService.Restart, init).value) in trace <==> on)
      && (w.upOk ==> r.outcome == Finished && trace[|trace| - 1] == RunStatus)
      && (!w.upOk ==> r.outcome == Fatal(UpFailed) && RunStatus !in trace)
  {
    var t := LinuxConnect(w, ini, on, init, text).trace;
    var d := DaemonCommands(on, InitService.Restart, InitService.Enable, init);
    var restart := Exec(InitService.ServiceArgv(InitService.Restart, init).value);
    LinuxConnectOrder(w, ini, on, init, text);
    SavesAndFetchRunNothing(cc, w);
    LiftUpTwice(Saves(cc), NodeFetch(w), t, WriteTunnelConfig(text), d, restart, on, w.upOk);
  }

  /** Neither the saves nor the node fetch run a subprocess or Status. */
  lemma SavesAndFetchRunNothing(cc: ConnectionConfig, w: World)
    ensures var p := Saves(cc); forall i :: 0 <= i < |p| ==> !p[i].Exec? && !p[i].RunStatus?
    ensures var q := NodeFetch(w); forall i :: 0 <= i < |q| ==> !q[i].Exec? && !q[i].RunStatus?
  {
  }

  /** LiftUpOrder across two prefixes, neither of which runs a command or Status. */
  lemma LiftUpTwice(p: seq<Action>, q: seq<Action>, t: seq<Action>, write: Action, d: seq<Action>, restart: Action, on: bool, ok: bool)
    requires forall i :: 0 <= i < |p| ==> !p[i].Exec? && !p[i].RunStatus?
    requires forall i :: 0 <= i < |q| ==> !q[i].Exec? && !q[i].RunStatus?
    requires restart.Exec?
    requires Before(t, write, Exec(WgUp))
    requires forall a :: a in d ==> Before(t, write, a) && Before(t, a, Exec(WgUp))
    requires restart in t <==> on
    requires ok ==> |t| > 0 && t[|t| - 1] == RunStatus
    requires !ok ==> RunStatus !in t
    ensures var trace := p + (q + t);
      && Before(trace, write, Exec(WgUp))
      && (forall a :: a in d ==> Before(trace, write, a) && Before(trace, a, Exec(WgUp)))
      && (restart in trace <==> on)
      && (ok ==> trace[|trace| - 1] == RunStatus)
      && (!ok ==> RunStatus !in trace)
  {
    LiftUpOrder(q, t, write, d, restart, on, ok);
    LiftUpOrder(p, q + t, write, d, restart, on, ok);
  }

  /**
   * A successful connect writes wg0.conf before the daemon commands and the daemon
   * commands before wg-quick up; the restart runs exactly when the daemon is enabled in
   * the saved configuration, and Status follows only a successful up.
   */
  lemma ConnectOrder(cc: ConnectionConfig, w: World, file: ConfigStore.ConfigFile)
    requires !file.Unreadable? && Api.GetNode(w.nodeReply).value.id > 0 && w.writeError.None?
    ensures var r := Connect(cc, w, file);
      var ini := AfterSaves(cc, ConfigStore.Open(file).value);
      var write := WriteTunnelConfig(Api.GetNodeConfig(w.configReply).value);
      && Before(r.trace, write, Exec(WgUp))
      && (forall a :: a in DaemonStart(w, ini) ==> Before(r.trace, write, a) && Before(r.trace, a, Exec(WgUp)))
      && (Exec(InitService.ServiceArgv(InitService.Restart, InitSystem(w)).value) in r.trace <==> ConfigStore.IsDaemonEnabled(ini))
      && (w.upOk ==> r.outcome == Finished && r.trace[|r.trace| - 1] == RunStatus)
      && (!w.upOk ==> r.outcome == Fatal(UpFailed) && RunStatus !in r.trace)
  {
    var ini := AfterSaves(cc, ConfigStore.Open(file).value);
    ConnectTrace(cc, w, file);
    HeadedConnectOrder(cc, w, ini, ConfigStore.IsDaemonEnabled(ini), InitSystem(w), Api.GetNodeConfig(w.configReply).value);
  }

  /**
   * manualLinuxDisconnect with a readable configuration; `daemonOn` and `init` are what
   * IsDaemonEnabled and getInitSystem read.
   */
  function LinuxDisconnect(w: World, ini: ConfigStore.Ini, daemonOn: bool, init: string): (r: Run)
    ensures r.config == ConfigStore.Present(ini)
    ensures w.downError.None? ==> r.outcome == Finished
    ensures w.downError.Some? ==> r.outcome == Fatal("Error: Unable to disconnect: " + w.downError.value)
    ensures Exec(WgDown) in r.trace
  {
    var d := DaemonCommands(daemonOn, InitService.Stop, InitService.Disable, init);
    var tail := if w.downError.None? then [RemoveTunnelConfig] else [];
    var t := d + [Exec(WgDown)] + tail;
    assert t[|d|] == Exec(WgDown);
    Run(t, ConfigStore.Present(ini), if w.downError.None? then Finished else Fatal("Error: Unable to disconnect: " + w.downError.value))
  }

  /** The shape of manualLinuxDisconnect's trace: order facts that hold whatever the actions are. */
  lemma DownShapeOrder(d: seq<Action>, down: Action, tail: seq<Action>, x: Action)
    requires down.Exec? && forall a :: a in d ==> a.Exec?
    requires tail == [] || tail == [RemoveTunnelConfig]
    ensures var t := d + [down] + tail;
      && (forall a :: a in d ==> Before(t, a, down))
      && (x in t && x.Exec? ==> x in d || x == down)
      && (RemoveTunnelConfig in t <==> tail != [])
      && (tail != [] ==> Before(t, down, RemoveTunnelConfig) && t[|t| - 1] == RemoveTunnelConfig)
  {
    var t := d + [down] + tail;
    assert t[|d|] == down;
    forall a | a in d
      ensures Before(t, a, down)
    {
      var k :| 0 <= k < |d| && d[k] == a;
      assert t[k] == a;
    }
    forall a | a in t && (a.Exec? || a.RemoveTunnelConfig?)
      ensures (a.Exec? ==> a in d || a == down) && (a.RemoveTunnelConfig? ==> tail != [])
    {
      var k :| 0 <= k < |t| && t[k] == a;
      if k < |d| {
        assert d[k] == a;
      }
    }
    assert x in t && x.Exec? ==> x in d || x == down;
    if tail != [] {
      assert t[|t| - 1] == RemoveTunnelConfig;
    }
  }

  /**
   * manualLinuxDisconnect's order, after the message: the stop and disable run (exactly
   * when the daemon is enabled) before wg-quick down, and wg0.conf is removed, last, only
   * when down succeeded.
   */
  lemma HeadedDisconnectOrder(w: World, ini: ConfigStore.Ini, on: bool, init: string)
    requires init == "systemd" || init == "openrc"
    ensures var r := LinuxDisconnect(w, ini, on, init);
      var trace := [Say("Disconecting...")] + r.trace;
      var d := DaemonCommands(on, InitService.Stop, InitService.Disable, init);
      && (forall a :: a in d ==> Before(trace, a, Exec(WgDown)))
      && (Exec(InitService.ServiceArgv(InitService.Stop, init).value) in trace <==> on)
      && (RemoveTunnelConfig in trace <==> w.downError.None?)
      && (w.downError.None? ==> Before(trace, Exec(WgDown), RemoveTunnelConfig) && trace[|trace| - 1] == RemoveTunnelConfig)
  {
    var d := DaemonCommands(on, InitService.Stop, InitService.Disable, init);
    var tail: seq<Action> := if w.downError.None? then [RemoveTunnelConfig] else [];
    var t := LinuxDisconnect(w, ini, on, init).trace;
    assert t == d + [Exec(WgDown)] + tail;
    assert forall a :: a in d ==> a.Exec? by {
      forall a | a in d ensures a.Exec? {
        var k :| 0 <= k < |d| && d[k] == a;
      }
    }
    var stop := Exec(InitService.ServiceArgv(InitService.Stop, init).value);
    DownShapeOrder(d, Exec(WgDown), tail, stop);
    assert stop != Exec(WgDown) by {
      assert stop.argv[0] != "bash";
    }
    if on {
      assert d[0] == stop;
    }
    LiftDownOrder([Say("Disconecting...")], t, d, stop, on, w.downError.None?);
  }

  /** The order facts of manualLinuxDisconnect survive performing, before it, actions that are none of those ordered. */
  lemma LiftDownOrder(p: seq<Action>, t: seq<Action>, d: seq<Action>, stop: Action, on: bool, ok: bool)
    requires stop !in p && RemoveTunnelConfig !in p
    requires forall a :: a in d ==> Before(t, a, Exec(WgDown))
    requires stop in t <==> on
    requires RemoveTunnelConfig in t <==> ok
    requires ok ==> Before(t, Exec(WgDown), RemoveTunnelConfig) && |t| > 0 && t[|t| - 1] == RemoveTunnelConfig
    ensures forall a :: a in d ==> Before(p + t, a, Exec(WgDown))
    ensures stop in p + t <==> on
    ensures RemoveTunnelConfig in p + t <==> ok
    ensures ok ==> Before(p + t, Exec(WgDown), RemoveTunnelConfig) && (p + t)[|p + t| - 1] == RemoveTunnelConfig
  {
    forall a | a in d
      ensures Before(p + t, a, Exec(WgDown))
    {
      BeforePrepend(p, t, a, Exec(WgDown));
    }
    if ok {
      BeforePrepend(p, t, Exec(WgDown), RemoveTunnelConfig);
    }
    PrependKeeps(p, t, stop);
    PrependKeeps(p, t, RemoveTunnelConfig);
  }

  /** An action that is not performed before a trace occurs in the longer trace exactly when it occurs in the trace. */
  lemma PrependKeeps(p: seq<Action>, t: seq<Action>, a: Action)
    requires a !in p
    ensures a in p + t <==> a in t
  {
    if a in p + t {
      var i :| 0 <= i < |p + t| && (p + t)[i] == a;
      assert i >= |p| && t[i - |p|] == a;
    }
  }

  /**
   * Disconnect: nothing at all without wg0.conf; otherwise the message, then (with a
   * readable configuration) manualLinuxDisconnect. The file is removed only when down
   * succeeded.
   */
  function Disconnect(w: World, file: ConfigStore.ConfigFile): (r: Run)
    ensures !w.tunnelConfExists ==> r == Run([], file, Finished)
    ensures w.tunnelConfExists ==> |r.trace| >= 1 && r.trace[0] == Say("Disconecting...")
    ensures w.tunnelConfExists && file.Unreadable? ==> r == Run([Say("Disconecting...")], file, ConfigUnreadable)
    ensures w.tunnelConfExists && !file.Unreadable? ==> r.config == ConfigStore.Present(ConfigStore.Open(file).value)
  {
    if !w.tunnelConfExists then Run([], file, Finished)
    else
      var said := [Say("Disconecting...")];
      match ConfigStore.Open(file)
      case None => Run(said, file, ConfigUnreadable)
      case Some(ini) =>
        var r := LinuxDisconnect(w, ini, ConfigStore.IsDaemonEnabled(ini), InitSystem(w));
        Prepend(said, r)
  }

  /** Disconnect's trace once wg0.conf exists and the configuration is read. */
  lemma DisconnectUnfolds(w: World, file: ConfigStore.ConfigFile)
    requires w.tunnelConfExists && !file.Unreadable?
    ensures var ini := ConfigStore.Open(file).value;
      var r := LinuxDisconnect(w, ini, ConfigStore.IsDaemonEnabled(ini), InitSystem(w));
      Disconnect(w, file).trace == [Say("Disconecting...")] + r.trace && Disconnect(w, file).outcome == r.outcome
  {
  }

  /**
   * With wg0.conf present, the daemon is stopped and disabled (exactly when enabled)
   * before wg-quick down, and the file is removed, as the last action, only after down
   * succeeded.
   */
  lemma DisconnectOrder(w: World, file: ConfigStore.ConfigFile)
    requires w.tunnelConfExists && !file.Unreadable?
    ensures var r := Disconnect(w, file);
      var ini := ConfigStore.Open(file).value;
      && (forall a :: a in DaemonStop(w, ini) ==> Before(r.trace, a, Exec(WgDown)))
      && (Exec(InitService.ServiceArgv(InitService.Stop, InitSystem(w)).value) in r.trace <==> ConfigStore.IsDaemonEnabled(ini))
      && (w.downError.None? ==> r.outcome == Finished && Before(r.trace, Exec(WgDown), RemoveTunnelConfig) && r.trace[|r.trace| - 1] == RemoveTunnelConfig)
      && (w.downError.Some? ==> r.outcome == Fatal("Error: Unable to disconnect: " + w.downError.value) && RemoveTunnelConfig !in r.trace)
  {
    var ini := ConfigStore.Open(file).value;
    DisconnectUnfolds(w, file);
    HeadedDisconnectOrder(w, ini, ConfigStore.IsDaemonEnabled(ini), InitSystem(w));
  }

  /**
   * The machine as a Disconnect that finished leaves it: untouched without wg0.conf;
   * otherwise the wg0 link is down and wg0.conf is gone unless its removal failed, an
   * error Disconnect ignores.
   */
  function Disconnected(w: World): (after: World)
    ensures after.tunnelConfExists <==> w.tunnelConfExists && !w.removeOk
    ensures w.tunnelConfExists ==> !after.linkUp
    ensures !w.tunnelConfExists ==> after == w
  {
    if w.tunnelConfExists then w.(tunnelConfExists := !w.removeOk, linkUp := false) else w
  }

  /**
   * A second Disconnect after one that finished does nothing at all exactly when the
   * first found no wg0.conf or could remove it; a file whose removal failed is taken
   * down again.
   */
  lemma DisconnectIdempotent(w: World, file: ConfigStore.ConfigFile)
    requires Disconnect(w, file).outcome == Finished
    ensures var first := Disconnect(w, file);
      Disconnect(Disconnected(w), first.config) == Run([], first.config, Finished) <==> !w.tunnelConfExists || w.removeOk
  {
    var first := Disconnect(w, file);
    if w.tunnelConfExists && !w.removeOk {
      assert Disconnect(Disconnected(w), first.config).trace[0] == Say("Disconecting...");
    }
  }

  /**
   * RestartTunnel: one shell running the down script, then, joined by `&&`, the up
   * script; up runs only after down succeeded, and a failure of either is fatal. The
   * configuration is not read.
   */
  function RestartTunnel(w: World, file: ConfigStore.ConfigFile): (r: Run)
    ensures r.config == file
    ensures r.trace == [Exec(["bash", "-c", WgDown[2] + " && " + WgUp[2]])]
    ensures r.outcome == Finished <==> w.downError.None? && w.upOk
    ensures r.outcome != Finished ==> r.outcome == Fatal(RestartFailed)
  {
    assert WgRestart[2] == WgDown[2] + " && " + WgUp[2];
    Run([Exec(WgRestart)], file, if w.downError.None? && w.upOk then Finished else Fatal(RestartFailed))
  }
}

=== FILE: effects.dfy ===
/**
 * The observable effects of one command: an ordered trace of actions, the configuration
 * file left behind, and how the process ends.
 */
module Effects {
  import ConfigStore
  import opened Entities
  import Units

  /** The JSON body a request carries. */
  datatype Payload =
    | NoPayload
    | LoginPayload(username: string, password: string)
    | NodePayload(node: NodeParams)
    | HttpPayload(http: HttpServiceParams)
    | TcpPayload(tcp: TcpServiceParams)

  datatype Action =
    | Say(line: string)                              // a line on standard output or in the log
    | Request(verb: string, path: string, body: Payload)  // one call to the control-plane API
    | ProbeRequest(server: string, path: string, timeout: int)  // a GET to the API of an explicit server
    | SaveServer(url: string, token: string)         // SaveServerConfig
    | SaveDaemon(enabled: bool)                      // SaveDaemonConfig
    | WriteTunnelConfig(contents: string)            // writing /etc/wireguard/wg0.conf
    | RemoveTunnelConfig                             // removing /etc/wireguard/wg0.conf
    | Exec(argv: seq<string>)                        // a subprocess
    | NodeTraffic(handshake: int, tx: Units.Size, rx: Units.Size)  // the handshake / TX / RX line of the node details
    | RunStatus                                      // a call of Status()
    | Confirm(question: string)                      // an interactive yes/no question
    | ShowHelp                                       // the command's usage text
    | UpdateGateway(iface: string, subnet: string)   // the gateway-subnet update call
    | Sleep(seconds: int)

  /** Finished: normal return. Fatal: log.Fatal. Exit: os.Exit. Usage: the argument parser refused. Looping: never returns. */
  datatype Outcome = Finished | Fatal(reason: string) | Exit(code: int) | Usage(message: string) | Looping

  datatype Run = Run(trace: seq<Action>, config: ConfigStore.ConfigFile, outcome: Outcome)

  const ConfigUnreadable := Fatal("Unable to get configuration file")

  /** The subprocesses that drive the tunnel. */
  const WgUp: seq<string> := ["bash", "-c", "wg-quick up wg0"]
  const WgDown: seq<string> := ["bash", "-c", "wg-quick down wg0"]
  const WgRestart: seq<string> := ["bash", "-c", "wg-quick down wg0 && wg-quick up wg0"]

  /** Each line printed, in order. */
  function Says(lines: seq<string>): (actions: seq<Action>)
    ensures |actions| == |lines|
    ensures forall i :: 0 <= i < |lines| ==> actions[i] == Say(lines[i])
  {
    if |lines| == 0 then [] else [Say(lines[0])] + Says(lines[1..])
  }

  /** Actions performed before a run that continues it. */
  function Prepend(actions: seq<Action>, r: Run): (q: Run)
    ensures q.trace == actions + r.trace
    ensures q.config == r.config && q.outcome == r.outcome
  {
    Run(actions + r.trace, r.config, r.outcome)
  }

  /** Action a occurs strictly earlier in the trace than action b. */
  predicate Before(trace: seq<Action>, a: Action, b: Action) {
    exists i, j :: 0 <= i < j < |trace| && trace[i] == a && trace[j] == b
  }

  /** The trace ends with the actions of tail. */
  predicate EndsWith(trace: seq<Action>, tail: seq<Action>) {
    |trace| >= |tail| && trace[|trace| - |tail|..] == tail
  }

  /** Some action of the trace runs a subprocess. */
  predicate AnyExec(trace: seq<Action>) {
    exists i :: 0 <= i < |trace| && trace[i].Exec?
  }

  /** Some action of the trace calls the API. */
  predicate AnyRequest(trace: seq<Action>) {
    exists i :: 0 <= i < |trace| && trace[i].Request?
  }

  /** Some action of the trace writes the configuration file. */
  predicate AnySave(trace: seq<Action>) {
    exists i :: 0 <= i < |trace| && (trace[i].SaveServer? || trace[i].SaveDaemon?)
  }

  lemma AnySaveConcat(a: seq<Action>, b: seq<Action>)
    ensures AnySave(a + b) <==> AnySave(a) || AnySave(b)
  {
    if AnySave(a + b) {
      var i :| 0 <= i < |a + b| && ((a + b)[i].SaveServer? || (a + b)[i].SaveDaemon?);
      if i >= |a| {
        assert b[i - |a|] == (a + b)[i];
      }
    }
    if AnySave(a) {
      var i :| 0 <= i < |a| && (a[i].SaveServer? || a[i].SaveDaemon?);
      assert (a + b)[i] == a[i];
    }
    if AnySave(b) {
      var i :| 0 <= i < |b| && (b[i].SaveServer? || b[i].SaveDaemon?);
      assert (a + b)[|a| + i] == b[i];
    }
  }

  lemma AnyExecConcat(a: seq<Action>, b: seq<Action>)
    ensures AnyExec(a + b) <==> AnyExec(a) || AnyExec(b)
  {
    if AnyExec(a + b) {
      var i :| 0 <= i < |a + b| && (a + b)[i].Exec?;
      if i >= |a| {
        assert b[i - |a|] == (a + b)[i];
      }
    }
    if AnyExec(a) {
      var i :| 0 <= i < |a| && a[i].Exec?;
      assert (a + b)[i] == a[i];
    }
    if AnyExec(b) {
      var i :| 0 <= i < |b| && b[i].Exec?;
      assert (a + b)[|a| + i] == b[i];
    }
  }

  /** Order is kept when actions are performed before. */
  lemma BeforePrepend(p: seq<Action>, t: seq<Action>, x: Action, y: Action)
    requires Before(t, x, y)
    ensures Before(p + t, x, y)
  {
    var i, j :| 0 <= i < j < |t| && t[i] == x && t[j] == y;
    assert (p + t)[|p| + i] == x && (p + t)[|p| + j] == y;
  }

  /** Number of occurrences of a in the trace. */
  function Count(trace: seq<Action>, a: Action): (n: nat)
    ensures n <= |trace|
    ensures n == 0 <==> a !in trace
  {
    if |trace| == 0 then 0
    else (if trace[0] == a then 1 else 0) + Count(trace[1..], a)
  }
}

=== FILE: entities.dfy ===
/**
 * The records the control plane sends and receives. The server owns all of them;
 * the client only decodes, displays and forwards them.
 */
module Entities {
  import opened Wrappers
  import Units

  /** A published HTTP route, as returned by the server. */
  datatype HttpService = HttpService(
    id: int,
    name: string,
    domain: string,
    pathLocation: string,
    backendHost: string,
    backendProto: string,
    backendPort: int,
    enabled: bool,
    publicAccess: string)

  /** A published TCP/UDP port forward, as returned by the server. */
  datatype TcpService = TcpService(
    id: int,
    name: string,
    domain: string,
    proto: string,
    backendHost: string,
    backendPort: int,
    ssl: bool,
    port: int,
    enabled: bool,
    publicAccess: string)

  /**
   * This machine's registration: the fields of the server's node record together with
   * the traffic counters of its node-info view.
   */
  datatype Node = Node(
    id: int,
    name: string,
    address: string,
    gatewayNetwork: string,
    isGateway: bool,
    enabled: bool,
    token: string,
    httpServices: seq<HttpService>,
    tcpServices: seq<TcpService>,
    latestHandshake: Units.Int64,
    transferRx: Units.Int64,
    transferTx: Units.Int64)

  /** What a failed request decodes to: every field zero or empty. */
  const ZeroNode := Node(0, "", "", "", false, false, "", [], [], 0, 0, 0)

  /** The registration request for a node. */
  datatype NodeParams = NodeParams(
    name: string,
    address: string,
    gatewayNetwork: string,
    isGateway: bool,
    allowInternet: bool)

  /** The creation request for an HTTP route. */
  datatype HttpServiceParams = HttpServiceParams(
    name: string,
    domain: string,
    pathLocation: string,
    backendHost: string,
    backendProto: string,
    backendPort: int,
    allowedIps: seq<string>,
    blockedIps: seq<string>)

  /** The creation request for a TCP/UDP forward; `port` is the optional public port. */
  datatype TcpServiceParams = TcpServiceParams(
    name: string,
    domain: string,
    proto: string,
    backendHost: string,
    backendPort: int,
    ssl: bool,
    port: int,
    allowedIps: seq<string>,
    blockedIps: seq<string>)

  /** The server's public settings; only the VPN host matters to the client. */
  datatype ApiConfig = ApiConfig(vpnHost: string)

  /** One field-level complaint of a 422 reply. */
  datatype ValidationError = ValidationError(field: string, message: string)

  /**
   * The result of decoding a JSON body into T: the value holds whatever fields were filled
   * in, and `error` the decoder's complaint when the body did not fit.
   */
  datatype Decoded<T> = Decoded(value: T, error: Option<string>)
}

=== FILE: monitor.dfy ===
/**
 * The tunnel monitors: the server probe, the status report, the health check and one
 * tick of the watch loop. Each classifies the machine by three observations: whether
 * wg0.conf exists, whether the wg0 link is up and whether the server answers the probe.
 */
module Monitor {
  import opened Wrappers
  import opened Entities
  import opened Effects
  import ConfigStore
  import Api
  import Network
  import Units
  import Text
  import Connection

  const NotActive := "\U{274C} WireGuard interface 'wg0' is not active."
  const RunConnect := "Run 'wiredoor connect' to establish the tunnel."
  const ServerUnreachable := "\U{274C} Tunnel seems active, but Wiredoor server unreachable."
  const TryAgain := "Try running 'wiredoor connect' again or check server availability."
  const Reached := " \U{2714} Connection successful to: "

  const GatewayGlyph := "\U{1F6E1}\U{FE0F}  Gateway: "
  const NodeGlyph := "\U{1F5A5}\U{FE0F}  Node: "
  const ServicesHeader := "\U{1F310} Services:"
  const NoServices := "\U{1F310} No services exposed yet."
  const ExposeHint := "\U{1F449} Use 'wiredoor http' or 'wiredoor tcp' to expose a service."

  /** The server answers the configuration probe with a non-empty VPN host. */
  predicate Reachable(w: Connection.World) {
    Api.Received(w.apiConfigReply).Some? && w.apiConfigReply.decoded.value.vpnHost != ""
  }

  /** The probe: GET /config, with a 5-second timeout, at the tunnel server's address. */
  function ProbeAction(w: Connection.World): Action {
    ProbeRequest("https://" + Network.LocalServerIP(w.wgAddresses), "/config", 5)
  }

  /** Whether the probe succeeded, and what it did. */
  datatype Probe = Probe(reachable: bool, trace: seq<Action>)

  /**
   * CheckWiredoorServer: the server counts as reachable exactly when it reports a VPN host;
   * only in debug mode is success announced. What requestApi prints follows the probe, and
   * a decoding complaint is printed either way.
   */
  function CheckWiredoorServer(w: Connection.World, debug: bool): (p: Probe)
    ensures p.reachable <==> Reachable(w)
    ensures |p.trace| >= 1 && p.trace[0] == ProbeAction(w)
    ensures forall i :: 1 <= i < |p.trace| ==> p.trace[i].Say?
    ensures |p.trace| == 1 + |Api.Printed(w.apiConfigReply)|
      + (if Api.Received(w.apiConfigReply).Some? && w.apiConfigReply.decoded.error.Some? then 1 else 0)
      + (if debug && p.reachable then 1 else 0)
    ensures p.trace[..1 + |Api.Printed(w.apiConfigReply)|] == [ProbeAction(w)] + Says(Api.Printed(w.apiConfigReply))
    ensures debug && p.reachable ==> p.trace[|p.trace| - 1] == Say(Reached + w.apiConfigReply.decoded.value.vpnHost)
  {
    var fetched := Api.GetApiConfig(w.apiConfigReply);
    var reachable := fetched.value.vpnHost != "";
    Probe(reachable, [ProbeAction(w)] + Says(fetched.printed)
      + (if debug && reachable then [Say(Reached + fetched.value.vpnHost)] else []))
  }

  /** The probe runs nothing: it is the request and printed lines. */
  lemma ProbeOnlySays(w: Connection.World, debug: bool)
    ensures var t := CheckWiredoorServer(w, debug).trace;
      forall i :: 0 <= i < |t| ==> t[i].Say? || t[i].ProbeRequest?
  {
  }

  /** The headline of the node details: the gateway line with its subnet, or the node line. */
  function Headline(node: Node): string {
    if node.isGateway then
      GatewayGlyph + node.name + " (" + node.address + ") \U{2192} \U{1F310} Subnet: " + node.gatewayNetwork
    else
      NodeGlyph + node.name + " (" + node.address + ")"
  }

  /** The headline starts with the gateway glyph exactly for a gateway, and with the node glyph otherwise. */
  lemma HeadlineGlyph(node: Node)
    ensures Text.HasPrefix(Headline(node), GatewayGlyph) <==> node.isGateway
    ensures Text.HasPrefix(Headline(node), NodeGlyph) <==> !node.isGateway
  {
    var line := Headline(node);
    if node.isGateway {
      assert line[..|GatewayGlyph|] == GatewayGlyph;
      assert line[0] != NodeGlyph[0];
    } else {
      assert line[..|NodeGlyph|] == NodeGlyph;
      assert line[0] != GatewayGlyph[0];
    }
  }

  /** The lines that list the services, or the hint when there is none. */
  function ServiceLines(node: Node): seq<string> {
    if |node.httpServices| > 0 || |node.tcpServices| > 0 then
      [ServicesHeader] + Api.HttpLines(node.httpServices, node.isGateway) + Api.TcpLines(node.tcpServices, node.isGateway)
    else [NoServices, ExposeHint]
  }

  /**
   * A node with services lists the header, its HTTP lines, then its TCP lines; a node
   * without any gets the two hint lines.
   */
  lemma ServiceLinesList(node: Node)
    ensures var lines := ServiceLines(node);
      && (|node.httpServices| + |node.tcpServices| > 0 ==>
            && |lines| == 1 + |node.httpServices| + |node.tcpServices| && lines[0] == ServicesHeader
            && lines[1..1 + |node.httpServices|] == Api.HttpLines(node.httpServices, node.isGateway)
            && lines[1 + |node.httpServices|..] == Api.TcpLines(node.tcpServices, node.isGateway))
      && (|node.httpServices| + |node.tcpServices| == 0 ==> |lines| == 2 && lines[0] == NoServices && lines[1] == ExposeHint)
  {
    if |node.httpServices| > 0 || |node.tcpServices| > 0 {
      HeadedConcat(ServicesHeader, Api.HttpLines(node.httpServices, node.isGateway), Api.TcpLines(node.tcpServices, node.isGateway));
    }
  }

  /** Where the parts of a header followed by two lists end up. */
  lemma HeadedConcat<T>(h: T, a: seq<T>, b: seq<T>)
    ensures var s := [h] + a + b;
      && |s| == 1 + |a| + |b| && s[0] == h && s[1..1 + |a|] == a && s[1 + |a|..] == b
  {
    var s := [h] + a + b;
    assert s[1..1 + |a|] == a;
    assert s[1 + |a|..] == b;
  }

  /**
   * printNodeInfoDetails: a blank line, the headline, a blank line, the traffic line, a
   * blank line, then the services. Nothing but printing happens.
   */
  function NodeDetails(node: Node): (lines: seq<Action>)
    ensures |lines| >= 7
    ensures forall i :: 0 <= i < |lines| ==> lines[i].Say? || lines[i].NodeTraffic?
  {
    [Say(""), Say(Headline(node)), Say(""),
     NodeTraffic(node.latestHandshake, Units.FormatBytes(node.transferTx), Units.FormatBytes(node.transferRx)),
     Say("")] + Says(ServiceLines(node))
  }

  /**
   * What the details show: the blank separators, a headline that starts with the gateway
   * glyph exactly for a gateway, the handshake and both transfer counts in binary units,
   * then the service header when the node has a service and the hint when it has none.
   */
  lemma NodeDetailsShow(node: Node)
    ensures var lines := NodeDetails(node);
      && lines[0] == Say("") && lines[2] == Say("") && lines[4] == Say("")
      && lines[1].Say? && (Text.HasPrefix(lines[1].line, GatewayGlyph) <==> node.isGateway)
      && lines[3] == NodeTraffic(node.latestHandshake, Units.FormatBytes(node.transferTx), Units.FormatBytes(node.transferRx))
      && (|node.httpServices| + |node.tcpServices| > 0 ==> lines[5] == Say(ServicesHeader))
      && (|node.httpServices| + |node.tcpServices| == 0 ==> lines[5] == Say(NoServices))
      && lines[5..] == Says(ServiceLines(node))
  {
    var lines := NodeDetails(node);
    var listing := ServiceLines(node);
    HeadlineGlyph(node);
    ServiceLinesList(node);
    assert lines[5..] == Says(listing);
    assert lines[5] == Say(listing[0]);
  }

  /** The report once the link is up: the unreachable lines, or the node fetch and details. */
  function Report(w: Connection.World): (t: seq<Action>)
    ensures |t| >= 1 && t[0] == ProbeAction(w) && !AnyExec(t)
    ensures Request("GET", "/cli/node", NoPayload) in t <==> Reachable(w)
  {
    var probe := CheckWiredoorServer(w, true);
    ProbeOnlySays(w, true);
    if !probe.reachable then
      UnreachableShape(probe.trace, [ServerUnreachable, TryAgain]);
      probe.trace + Says([ServerUnreachable, TryAgain])
    else
      var fetched := Api.GetNode(w.nodeReply);
      var rest := [Request("GET", "/cli/node", NoPayload)] + Says(fetched.printed) + NodeDetails(fetched.value);
      ReachedShape(probe.trace, fetched.printed, NodeDetails(fetched.value));
      probe.trace + rest
  }

  /** An unreachable server is reported by the two closing lines. */
  lemma ReportUnreachable(w: Connection.World)
    requires !Reachable(w)
    ensures var t := Report(w);
      |t| >= 2 && t[|t| - 2..] == Says([ServerUnreachable, TryAgain])
  {
    var probe := CheckWiredoorServer(w, true);
    UnreachableShape(probe.trace, [ServerUnreachable, TryAgain]);
  }

  /** A reachable server is followed by the node fetch, and the report ends with the node details. */
  lemma ReportReached(w: Connection.World)
    requires Reachable(w)
    ensures EndsWith(Report(w), NodeDetails(Api.GetNode(w.nodeReply).value))
  {
    var probe := CheckWiredoorServer(w, true);
    var fetched := Api.GetNode(w.nodeReply);
    ReachedShape(probe.trace, fetched.printed, NodeDetails(fetched.value));
    assert Report(w) == probe.trace + ([Request("GET", "/cli/node", NoPayload)] + Says(fetched.printed) + NodeDetails(fetched.value));
  }

  /** The unreachable report: a probe that only says things, then more lines. */
  lemma UnreachableShape(probe: seq<Action>, lines: seq<string>)
    requires forall i :: 0 <= i < |probe| ==> probe[i].Say? || probe[i].ProbeRequest?
    ensures var t := probe + Says(lines);
      && Request("GET", "/cli/node", NoPayload) !in t && !AnyExec(t)
      && t[|t| - |lines|..] == Says(lines)
  {
    var t := probe + Says(lines);
    forall i | 0 <= i < |t|
      ensures t[i].Say? || t[i].ProbeRequest?
    {
      if i >= |probe| {
        assert t[i] == Says(lines)[i - |probe|];
      }
    }
    assert t[|t| - |lines|..] == Says(lines);
  }

  /** The reachable report: a probe that only says things, the node fetch, then the details. */
  lemma ReachedShape(probe: seq<Action>, printed: seq<string>, details: seq<Action>)
    requires forall i :: 0 <= i < |probe| ==> probe[i].Say? || probe[i].ProbeRequest?
    requires forall i :: 0 <= i < |details| ==> details[i].Say? || details[i].NodeTraffic?
    ensures var t := probe + ([Request("GET", "/cli/node", NoPayload)] + Says(printed) + details);
      && Request("GET", "/cli/node", NoPayload) in t && !AnyExec(t)
      && EndsWith(t, details)
  {
    var t := probe + ([Request("GET", "/cli/node", NoPayload)] + Says(printed) + details);
    assert t[|probe|] == Request("GET", "/cli/node", NoPayload);
    assert forall i :: 0 <= i < |t| ==> !t[i].Exec? by {
      forall i | 0 <= i < |t|
        ensures !t[i].Exec?
      {
        if i < |probe| {
        } else if i == |probe| {
        } else if i < |probe| + 1 + |printed| {
          assert t[i] == Says(printed)[i - |probe| - 1];
        } else {
          assert t[i] == details[i - |probe| - 1 - |printed|];
        }
      }
    }
    assert t[|t| - |details|..] == details;
  }

  /**
   * Status: without the wg0 link, the two hints and nothing else; otherwise the probe, then
   * either the two unreachable lines or the node fetch and its details. No subprocess runs.
   */
  function Status(w: Connection.World, file: ConfigStore.ConfigFile): (r: Run)
    ensures !w.linkUp ==> r == Run(Says([NotActive, RunConnect]), file, Finished)
    ensures w.linkUp && file.Unreadable? ==> r == Run([], file, ConfigUnreadable)
    ensures w.linkUp && !file.Unreadable? ==>
      && r.outcome == Finished && r.config == ConfigStore.Present(ConfigStore.Open(file).value)
      && r.trace == Report(w)
  {
    if !w.linkUp then Run(Says([NotActive, RunConnect]), file, Finished)
    else
      match ConfigStore.Open(file)
      case None => Run([], file, ConfigUnreadable)
      case Some(ini) => Run(Report(w), ConfigStore.Present(ini), Finished)
  }

  /**
   * Health: exit status 0 exactly when the link is up and the server reachable, 1 otherwise
   * (the link check prints why); nothing but the probe is requested.
   */
  function Health(w: Connection.World, file: ConfigStore.ConfigFile): (r: Run)
    ensures !w.linkUp ==> r == Run([Say(NotActive)], file, Exit(1))
    ensures w.linkUp && file.Unreadable? ==> r == Run([], file, ConfigUnreadable)
    ensures w.linkUp && !file.Unreadable? ==>
      && r.outcome == Exit(if Reachable(w) then 0 else 1)
      && r.config == ConfigStore.Present(ConfigStore.Open(file).value)
      && |r.trace| >= 1 && r.trace[0] == ProbeAction(w)
      && !AnyExec(r.trace) && !AnyRequest(r.trace)
  {
    if !w.linkUp then Run([Say(NotActive)], file, Exit(1))
    else
      match ConfigStore.Open(file)
      case None => Run([], file, ConfigUnreadable)
      case Some(ini) =>
        var probe := CheckWiredoorServer(w, true);
        Run(probe.trace, ConfigStore.Present(ini), Exit(if probe.reachable then 0 else 1))
  }

  /** What one tick of the watch loop decides to do. */
  datatype Tick = Idle | Reconnect | Restart

  /**
   * The decision as a table: nothing without wg0.conf; without the link, reconnect exactly
   * when the server marks the node enabled; with the link, restart exactly when the
   * server does not answer.
   */
  function TickOf(w: Connection.World): Tick {
    if !w.tunnelConfExists then Idle
    else if !w.linkUp then (if Api.Received(w.nodeReply).Some? && w.nodeReply.decoded.value.enabled then Reconnect else Idle)
    else if Reachable(w) then Idle
    else Restart
  }

  /** GetNode as a step of a command: the node fetch, what requestApi prints and the decoder's complaint. */
  function NodeCheck(w: Connection.World): (head: seq<Action>)
    ensures |head| >= 1 && head[0] == Request("GET", "/cli/node", NoPayload)
    ensures forall i :: 0 <= i < |head| ==> head[i] == Request("GET", "/cli/node", NoPayload) || head[i].Say?
  {
    [Request("GET", "/cli/node", NoPayload)] + Says(Api.GetNode(w.nodeReply).printed)
  }

  /**
   * WatchHealt, one tick: nothing without wg0.conf, a fatal exit when the configuration
   * cannot be read, otherwise the tick WatchTick describes.
   */
  function WatchHealt(w: Connection.World, file: ConfigStore.ConfigFile): (r: Run)
    ensures !w.tunnelConfExists ==> r == Run([], file, Finished)
    ensures w.tunnelConfExists && file.Unreadable? ==> r == Run([], file, ConfigUnreadable)
    ensures w.tunnelConfExists && !file.Unreadable? ==> r == WatchTick(w, ConfigStore.Open(file).value)
  {
    if !w.tunnelConfExists then Run([], file, Finished)
    else
      match ConfigStore.Open(file)
      case None => Run([], file, ConfigUnreadable)
      case Some(ini) => WatchTick(w, ini)
  }

  /** One tick with wg0.conf present and the configuration ini read; it follows TickOf. */
  function WatchTick(w: Connection.World, ini: ConfigStore.Ini): (r: Run)
    requires w.tunnelConfExists
    ensures !TickOf(w).Reconnect? ==> r.config == ConfigStore.Present(ini)
  {
    if !w.linkUp then
      var node := Api.GetNode(w.nodeReply).value;
      if node.enabled then Prepend(NodeCheck(w), Connection.Connect(Connection.NoOverrides, w, ConfigStore.Present(ini)))
      else Run(NodeCheck(w), ConfigStore.Present(ini), Finished)
    else
      var probe := CheckWiredoorServer(w, false);
      if probe.reachable then Run(probe.trace, ConfigStore.Present(ini), Finished)
      else Prepend(probe.trace, Connection.RestartTunnel(w, ConfigStore.Present(ini)))
  }

  /** An idle tick runs no subprocess and keeps the configuration. */
  lemma IdleTick(w: Connection.World, ini: ConfigStore.Ini)
    requires w.tunnelConfExists && TickOf(w).Idle?
    ensures var r := WatchTick(w, ini);
      r.outcome == Finished && !AnyExec(r.trace) && r.config == ConfigStore.Present(ini)
  {
    var t := WatchTick(w, ini).trace;
    assert forall i :: 0 <= i < |t| ==> !t[i].Exec?;
  }

  /** A reconnect tick is the node fetch followed by a full Connect. */
  lemma ReconnectTick(w: Connection.World, ini: ConfigStore.Ini)
    requires w.tunnelConfExists && TickOf(w).Reconnect?
    ensures var r := WatchTick(w, ini);
      var c := Connection.Connect(Connection.NoOverrides, w, ConfigStore.Present(ini));
      r.trace == NodeCheck(w) + c.trace && r.config == c.config && r.outcome == c.outcome
  {
  }

  /**
   * A restart tick is the silent probe followed by RestartTunnel, with no node fetch and
   * exactly one restart shell.
   */
  lemma RestartTick(w: Connection.World, ini: ConfigStore.Ini)
    requires w.tunnelConfExists && TickOf(w).Restart?
    ensures var r := WatchTick(w, ini);
      && r.trace == CheckWiredoorServer(w, false).trace + Connection.RestartTunnel(w, ConfigStore.Present(ini)).trace
      && Request("GET", "/cli/node", NoPayload) !in r.trace && Count(r.trace, Exec(WgRestart)) == 1
  {
    var probe := CheckWiredoorServer(w, false);
    ProbeOnlySays(w, false);
    RestartCounts(probe.trace, Connection.RestartTunnel(w, ConfigStore.Present(ini)).trace);
  }

  /** After a probe that only says things, a restart holds one restart shell and no node fetch. */
  lemma RestartCounts(probe: seq<Action>, t: seq<Action>)
    requires forall i :: 0 <= i < |probe| ==> probe[i].Say? || probe[i].ProbeRequest?
    requires t == [Exec(WgRestart)]
    ensures Request("GET", "/cli/node", NoPayload) !in probe + t
    ensures Count(probe + t, Exec(WgRestart)) == 1
  {
    CountConcat(probe, t, Exec(WgRestart));
    assert Exec(WgRestart) !in probe;
  }

  lemma {:induction false} CountConcat(a: seq<Action>, b: seq<Action>, x: Action)
    ensures Count(a + b, x) == Count(a, x) + Count(b, x)
    decreases |a|
  {
    if |a| > 0 {
      assert (a + b)[1..] == a[1..] + b;
      CountConcat(a[1..], b, x);
    } else {
      assert a + b == b;
    }
  }

  /**
   * The monitors agree once wg0.conf exists and the configuration is readable: health
   * exits 0 exactly when the status report reaches the node details, and exactly when a
   * watch tick finds the link up and runs no subprocess.
   */
  lemma MonitorsAgree(w: Connection.World, file: ConfigStore.ConfigFile)
    requires w.tunnelConfExists && !file.Unreadable?
    ensures Health(w, file).outcome == Exit(0) <==> Request("GET", "/cli/node", NoPayload) in Status(w, file).trace
    ensures Health(w, file).outcome == Exit(0) <==> w.linkUp && !AnyExec(WatchHealt(w, file).trace)
  {
    var ini := ConfigStore.Open(file).value;
    if w.linkUp && !Reachable(w) {
      RestartTick(w, ini);
      var p := CheckWiredoorServer(w, false);
      assert WatchHealt(w, file).trace[|p.trace|] == Exec(WgRestart);
    } else if w.linkUp {
      IdleTick(w, ini);
    }
    if !w.linkUp {
      assert Status(w, file).trace == Says([NotActive, RunConnect]);
    }
  }

  /** Without the link, health fails, status only prints its hints, and no probe is sent. */
  lemma LinkDownIsUnhealthy(w: Connection.World, file: ConfigStore.ConfigFile)
    requires !w.linkUp
    ensures Health(w, file).outcome == Exit(1) && Health(w, file).config == file
    ensures Status(w, file).outcome == Finished && Status(w, file).config == file
    ensures ProbeAction(w) !in Status(w, file).trace && ProbeAction(w) !in Health(w, file).trace
  {
  }
}

=== FILE: network.dfy ===
/**
 * The two string-level network helpers: deriving the tunnel server's address from this
 * node's wg0 address, and picking the default interface out of `ip route get` output.
 */
module Network {
  import opened Wrappers
  import Text

  type Octet = n: nat | n < 256

  datatype Ipv4 = Ipv4(a: Octet, b: Octet, c: Octet, d: Octet)

  /** The address with its last octet replaced by 1. */
  function GatewayAddress(ip: Ipv4): (g: Ipv4)
    ensures g.d == 1
  {
    ip.(d := 1)
  }

  /** Dotted-decimal text, as net.IP's String method writes an IPv4 address. */
  function Dotted(ip: Ipv4): string {
    Text.Join([Text.NatToString(ip.a), Text.NatToString(ip.b), Text.NatToString(ip.c), Text.NatToString(ip.d)], '.')
  }

  /** One decimal octet: non-empty, digits only, below 256. */
  function ParseOctet(s: string): Option<Octet> {
    if |s| > 0 && Text.AllDigits(s) && Text.ParseNat(s) < 256 then Some(Text.ParseNat(s)) else None
  }

  /** The reading of dotted-decimal text: four octets separated by dots. */
  function ParseDotted(s: string): Option<Ipv4> {
    var parts := Text.Split(s, '.');
    if |parts| != 4 then None
    else match (ParseOctet(parts[0]), ParseOctet(parts[1]), ParseOctet(parts[2]), ParseOctet(parts[3]))
      case (Some(a), Some(b), Some(c), Some(d)) => Some(Ipv4(a, b, c, d))
      case _ => None
  }

  lemma OctetRoundTrip(n: Octet)
    ensures ParseOctet(Text.NatToString(n)) == Some(n)
    ensures '.' !in Text.NatToString(n)
  {
    Text.ParseNatToString(n);
  }

  /** Writing an address and reading it back yields the same address. */
  lemma DottedRoundTrip(ip: Ipv4)
    ensures ParseDotted(Dotted(ip)) == Some(ip)
  {
    var parts := [Text.NatToString(ip.a), Text.NatToString(ip.b), Text.NatToString(ip.c), Text.NatToString(ip.d)];
    OctetRoundTrip(ip.a);
    OctetRoundTrip(ip.b);
    OctetRoundTrip(ip.c);
    OctetRoundTrip(ip.d);
    Text.SplitJoin(parts, '.');
  }

  /**
   * LocalServerIP, given the addresses of wg0 (None when the interface is missing or its
   * addresses cannot be listed): the first address with its last octet set to 1, or ""
   * when there is no address.
   */
  function LocalServerIP(addrs: Option<seq<Ipv4>>): (s: string)
    ensures s == "" <==> addrs.None? || |addrs.value| == 0
    ensures s != "" ==> ParseDotted(s) == Some(GatewayAddress(addrs.value[0]))
  {
    match addrs
    case None => ""
    case Some(list) =>
      if |list| == 0 then ""
      else
        var g := GatewayAddress(list[0]);
        DottedRoundTrip(g);
        assert Dotted(g) != "" by { assert Text.Split(Dotted(g), '.') != Text.Split("", '.'); }
        Dotted(g)
  }

  /** The rewrite keeps the network part and is idempotent. */
  lemma GatewayAddressKeepsNetwork(ip: Ipv4)
    ensures var g := GatewayAddress(ip); g.a == ip.a && g.b == ip.b && g.c == ip.c
    ensures GatewayAddress(GatewayAddress(ip)) == GatewayAddress(ip)
  {
  }

  /** A server address read back from LocalServerIP is its own gateway address. */
  lemma LocalServerIPIsFixedPoint(addrs: seq<Ipv4>)
    requires |addrs| > 0
    ensures LocalServerIP(Some([ParseDotted(LocalServerIP(Some(addrs))).value])) == LocalServerIP(Some(addrs))
  {
    var g := GatewayAddress(addrs[0]);
    assert ParseDotted(LocalServerIP(Some(addrs))).value == g;
    assert GatewayAddress(g) == g;
  }

  /** RE2's `\s`: tab, newline, form feed, carriage return and space. */
  predicate ReSpace(c: char) {
    c == '\t' || c == '\n' || c == '\U{000C}' || c == '\r' || c == ' '
  }

  /** The end of the run of `\s` characters starting at j. */
  function SpaceRunEnd(s: string, j: nat): (k: nat)
    requires j <= |s|
    ensures j <= k <= |s|
    ensures forall m :: j <= m < k ==> ReSpace(s[m])
    ensures k < |s| ==> !ReSpace(s[k])
    decreases |s| - j
  {
    if j < |s| && ReSpace(s[j]) then SpaceRunEnd(s, j + 1) else j
  }

  /** The end of the run of `\S` characters starting at j. */
  function WordEnd(s: string, j: nat): (k: nat)
    requires j <= |s|
    ensures j <= k <= |s|
    ensures forall m :: j <= m < k ==> !ReSpace(s[m])
    ensures k < |s| ==> ReSpace(s[k])
    decreases |s| - j
  {
    if j < |s| && !ReSpace(s[j]) then WordEnd(s, j + 1) else j
  }

  /**
   * `dev\s+(\S+)` matches at i: "dev", at least one `\s`, then a `\S`. The greedy `\s+`
   * takes the whole run of white space, so the capture starts where that run ends.
   */
  predicate MatchAt(s: string, i: nat) {
    i + 3 <= |s| && s[i..i + 3] == "dev"
    && var k := SpaceRunEnd(s, i + 3); k > i + 3 && k < |s|
  }

  /** The leftmost match at or after i. */
  function FindMatch(s: string, i: nat): (m: Option<nat>)
    requires i <= |s|
    ensures m.Some? ==> i <= m.value && MatchAt(s, m.value) && forall j :: i <= j < m.value ==> !MatchAt(s, j)
    ensures m.None? ==> forall j :: i <= j ==> !MatchAt(s, j)
    decreases |s| - i
  {
    if MatchAt(s, i) then Some(i)
    else if i == |s| then None
    else FindMatch(s, i + 1)
  }

  /**
   * `name` sits at k in s after the "dev" at i: only white space (at least one) lies
   * between, and name runs up to the end of s or up to white space.
   */
  predicate CapturedAt(s: string, i: nat, k: nat, name: string) {
    && i + 3 < k && k + |name| <= |s|
    && (forall m :: i + 3 <= m < k ==> ReSpace(s[m]))
    && s[k..k + |name|] == name
    && (k + |name| == |s| || ReSpace(s[k + |name|]))
  }

  /** The capture group of the match at i, the maximal `\S` run after the white space. */
  function Capture(s: string, i: nat): (name: string)
    requires MatchAt(s, i)
    ensures |name| > 0 && forall m :: 0 <= m < |name| ==> !ReSpace(name[m])
    ensures exists k :: CapturedAt(s, i, k, name)
  {
    var k := SpaceRunEnd(s, i + 3);
    var name := s[k..WordEnd(s, k)];
    assert CapturedAt(s, i, k, name);
    name
  }

  /** Capture's description pins the capture down: any non-empty `\S` run placed as it says is the capture. */
  lemma CaptureIsUnique(s: string, i: nat, k: nat, name: string)
    requires MatchAt(s, i) && CapturedAt(s, i, k, name)
    requires |name| > 0 && forall m :: 0 <= m < |name| ==> !ReSpace(name[m])
    ensures name == Capture(s, i)
  {
    var k0 := SpaceRunEnd(s, i + 3);
    assert s[k] == name[0] && !ReSpace(s[k]);
    assert k0 < |s| && !ReSpace(s[k0]);
    assert k == k0;
    var e := WordEnd(s, k);
    forall m | k <= m < k + |name|
      ensures !ReSpace(s[m])
    {
      assert s[m] == name[m - k];
    }
    assert e < |s| ==> ReSpace(s[e]);
    assert e == k + |name|;
  }

  /**
   * GetDefaultInterfaceName, given the output of `ip route get 8.8.8.8` (None when the
   * command fails): the trimmed capture of the leftmost match, or "eth0".
   */
  function DefaultInterfaceName(routeOutput: Option<string>): (name: string)
    ensures routeOutput.None? ==> name == "eth0"
    ensures routeOutput.Some? && (forall j :: 0 <= j ==> !MatchAt(routeOutput.value, j)) ==> name == "eth0"
    ensures routeOutput.Some? && FindMatch(routeOutput.value, 0).Some? ==>
      name == Text.TrimSpace(Capture(routeOutput.value, FindMatch(routeOutput.value, 0).value))
  {
    match routeOutput
    case None => "eth0"
    case Some(out) =>
      match FindMatch(out, 0)
      case None => "eth0"
      case Some(i) => Text.TrimSpace(Capture(out, i))
  }

  /**
   * Output that begins "dev", one blank, a name free of white space, then white space
   * or the end, yields that name.
   */
  lemma DefaultInterfaceNameReadsName(name: string, rest: string)
    requires |name| > 0 && forall m :: 0 <= m < |name| ==> !ReSpace(name[m]) && !Text.IsSpace(name[m])
    requires |rest| == 0 || ReSpace(rest[0])
    ensures DefaultInterfaceName(Some("dev " + name + rest)) == name
  {
    var out := "dev " + name + rest;
    assert out[..3] == "dev";
    assert out[3] == ' ' && out[4] == name[0];
    assert SpaceRunEnd(out, 4) == 4;
    assert SpaceRunEnd(out, 3) == 4;
    assert MatchAt(out, 0);
    WordEndOfName(out, name, rest);
    assert Capture(out, 0) == name;
    Text.TrimUnpadded(name, Text.IsSpace);
  }

  lemma WordEndOfName(out: string, name: string, rest: string)
    requires out == "dev " + name + rest
    requires |name| > 0 && forall m :: 0 <= m < |name| ==> !ReSpace(name[m])
    requires |rest| == 0 || ReSpace(rest[0])
    ensures WordEnd(out, 4) == 4 + |name|
  {
    assert forall m :: 4 <= m < 4 + |name| ==> out[m] == name[m - 4];
    assert 4 + |name| < |out| ==> out[4 + |name|] == rest[0];
  }
}

=== FILE: regenerate.dfy ===
/**
 * Key regeneration: the API call that issues a new token, and the command that
 * disconnects first and asks for confirmation unless forced.
 */
module Regeneration {
  import opened Wrappers
  import opened Entities
  import opened Effects
  import ConfigStore
  import Api
  import Connection

  const NoNewKeys := "Error getting new keys."
  const Question := "This command may cause a temporary downtime in all exposed services. Continue?"

  /**
   * RegenerateKeys: PATCH /cli/regenerate, first thing once the configuration is read;
   * an unreadable file ends the run before any request.
   */
  function RegenerateKeys(w: Connection.World, file: ConfigStore.ConfigFile, reply: Api.Exchange<Node>): (r: Run)
    ensures file.Unreadable? ==> r == Run([], file, ConfigUnreadable)
    ensures !file.Unreadable? ==> r == RegenerateOn(w, ConfigStore.Open(file).value, reply)
  {
    match ConfigStore.Open(file)
    case None => Run([], file, ConfigUnreadable)
    case Some(ini) => RegenerateOn(w, ini, reply)
  }

  /**
   * RegenerateKeys once the configuration ini is read. What requestApi prints follows the
   * request. Without a body nothing more happens; a body carrying a token has that token
   * saved with the configured server URL, then a full Connect; a body without a token is
   * reported and nothing is saved.
   */
  function RegenerateOn(w: Connection.World, ini: ConfigStore.Ini, reply: Api.Exchange<Node>): (r: Run)
    ensures |r.trace| >= 1 + |Api.Printed(reply)|
    ensures r.trace[..1 + |Api.Printed(reply)|] == [Request("PATCH", "/cli/regenerate", NoPayload)] + Says(Api.Printed(reply))
  {
    Prepend([Request("PATCH", "/cli/regenerate", NoPayload)] + Says(Api.Printed(reply)), AfterReply(w, ini, Api.Received(reply)))
  }

  /** What RegenerateKeys does once requestApi has returned and the body, if any, is decoded. */
  function AfterReply(w: Connection.World, ini: ConfigStore.Ini, got: Option<Decoded<Node>>): Run {
    match got
    case None => Run([], ConfigStore.Present(ini), Finished)
    case Some(d) =>
      if d.value.token != "" then
        Prepend(TokenTail(ConfigStore.GetConfig(ini).server.url, d.value.token, d.error),
          Connection.Connect(Connection.NoOverrides, w, ConfigStore.Present(Resaved(ini, d.value.token))))
      else Run(Says(Api.Complaint(d)) + [Say(NoNewKeys)], ConfigStore.Present(ini), Finished)
  }

  /** Without a new token the command ends after the request: nothing saved, no subprocess, the file kept. */
  lemma RegenerateWithoutToken(w: Connection.World, ini: ConfigStore.Ini, reply: Api.Exchange<Node>)
    requires !(Api.Received(reply).Some? && reply.decoded.value.token != "")
    ensures var r := RegenerateOn(w, ini, reply);
      && r.outcome == Finished && !AnySave(r.trace) && !AnyExec(r.trace)
      && r.config == ConfigStore.Present(ini)
  {
    var t := RegenerateOn(w, ini, reply).trace;
    assert forall i :: 0 <= i < |t| ==> t[i].Request? || t[i].Say?;
  }

  /** What a token body leads to before the reconnect: the decode complaint if any, then the save. */
  function TokenTail(url: string, token: string, error: Option<string>): (tail: seq<Action>)
    ensures |tail| >= 1 && tail[|tail| - 1] == SaveServer(url, token)
  {
    (if error.Some? then [Say(error.value)] else []) + [SaveServer(url, token)]
  }

  /** The configuration a token reply leaves behind: the token saved with the configured URL. */
  function Resaved(ini: ConfigStore.Ini, token: string): ConfigStore.Ini {
    ConfigStore.SaveServer(ini, ConfigStore.GetConfig(ini).server.url, token)
  }

  /**
   * A new token is saved with the URL the configuration already holds, and the rest of
   * the run is a full Connect on the saved configuration.
   */
  lemma RegenerateWithToken(w: Connection.World, ini: ConfigStore.Ini, reply: Api.Exchange<Node>)
    requires Api.Received(reply).Some? && reply.decoded.value.token != ""
    ensures SavedThen(RegenerateOn(w, ini, reply), SaveServer(ConfigStore.GetConfig(ini).server.url, reply.decoded.value.token),
      Connection.Connect(Connection.NoOverrides, w, ConfigStore.Present(Resaved(ini, reply.decoded.value.token))))
  {
    var url := ConfigStore.GetConfig(ini).server.url;
    var token := reply.decoded.value.token;
    var c := Connection.Connect(Connection.NoOverrides, w, ConfigStore.Present(Resaved(ini, token)));
    var sent := [Request("PATCH", "/cli/regenerate", NoPayload)] + Says(Api.Printed(reply));
    var tail := TokenTail(url, token, reply.decoded.error);
    assert Api.Received(reply) == Some(reply.decoded);
    assert RegenerateOn(w, ini, reply) == Prepend(sent, Prepend(tail, c));
    SavedThenRun(sent, tail, c, SaveServer(url, token));
  }

  /** r performs save, and ends as c does: c's trace is the end of r's, with c's outcome and configuration. */
  predicate SavedThen(r: Run, save: Action, c: Run) {
    && save in r.trace && |r.trace| >= |c.trace| && r.trace[|r.trace| - |c.trace|..] == c.trace
    && r.outcome == c.outcome && r.config == c.config
  }

  /** A trace whose head ends with a save holds that save and keeps the run after it intact. */
  lemma SavedThenRun(sent: seq<Action>, head: seq<Action>, c: Run, save: Action)
    requires |head| >= 1 && head[|head| - 1] == save
    ensures SavedThen(Prepend(sent, Prepend(head, c)), save, c)
  {
    var all := sent + (head + c.trace);
    assert all[|sent| + |head| - 1] == save;
    assert all[|all| - |c.trace|..] == c.trace;
  }

  /**
   * A new token ends up in the configuration together with the URL that was configured
   * before, and nothing else of the configuration changes.
   */
  lemma RegeneratedTokenIsSaved(w: Connection.World, ini: ConfigStore.Ini, reply: Api.Exchange<Node>)
    requires Api.Received(reply).Some? && reply.decoded.value.token != ""
    ensures var r := RegenerateOn(w, ini, reply);
      && r.config.Present?
      && ConfigStore.GetConfig(r.config.ini).server.url == ConfigStore.GetConfig(ini).server.url
      && ConfigStore.GetConfig(r.config.ini).server.token == reply.decoded.value.token
      && r.config.ini == ConfigStore.SaveServer(ini, ConfigStore.GetConfig(ini).server.url, reply.decoded.value.token)
  {
    var url := ConfigStore.GetConfig(ini).server.url;
    var saved := Resaved(ini, reply.decoded.value.token);
    RegenerateWithToken(w, ini, reply);
    Connection.ConnectWithoutFlagsKeepsConfig(Connection.NoOverrides, w, ConfigStore.Present(saved));
    ConfigStore.SaveServerReadsBack(ini, url, reply.decoded.value.token);
  }

  /**
   * The confirmed part of regenerate: Disconnect, then RegenerateKeys on what Disconnect
   * left. A failed Disconnect ends the process, so the keys are not requested.
   */
  function DisconnectThenRegenerate(w: Connection.World, file: ConfigStore.ConfigFile, reply: Api.Exchange<Node>): (r: Run)
    ensures var d := Connection.Disconnect(w, file);
      && (d.outcome != Finished ==> r == d)
      && (d.outcome == Finished ==>
            var k := RegenerateKeys(Connection.Disconnected(w), d.config, reply);
            r.trace == d.trace + k.trace && r.config == k.config && r.outcome == k.outcome)
  {
    var d := Connection.Disconnect(w, file);
    if d.outcome != Finished then d
    else Prepend(d.trace, RegenerateKeys(Connection.Disconnected(w), d.config, reply))
  }

  /**
   * With wg0.conf present and wg-quick down succeeding, the tunnel is down and wg0.conf
   * removed before the new keys are requested.
   */
  lemma DisconnectPrecedesRegenerate(w: Connection.World, file: ConfigStore.ConfigFile, reply: Api.Exchange<Node>)
    requires w.tunnelConfExists && !file.Unreadable? && w.downError.None?
    ensures var r := DisconnectThenRegenerate(w, file, reply);
      && Before(r.trace, Exec(WgDown), Request("PATCH", "/cli/regenerate", NoPayload))
      && Before(r.trace, RemoveTunnelConfig, Request("PATCH", "/cli/regenerate", NoPayload))
  {
    var d := Connection.Disconnect(w, file);
    Connection.DisconnectOrder(w, file);
    var k := RegenerateKeys(Connection.Disconnected(w), d.config, reply);
    BothBefore(d.trace, k.trace, Exec(WgDown), RemoveTunnelConfig, Request("PATCH", "/cli/regenerate", NoPayload));
  }

  /** Two ordered actions of a trace both come before the first action of whatever follows it. */
  lemma BothBefore(d: seq<Action>, k: seq<Action>, x: Action, z: Action, y: Action)
    requires Before(d, x, z) && |k| >= 1 && k[0] == y
    ensures Before(d + k, x, y) && Before(d + k, z, y)
  {
    var i, j :| 0 <= i < j < |d| && d[i] == x && d[j] == z;
    assert (d + k)[i] == x && (d + k)[j] == z && (d + k)[|d|] == y;
  }

  /**
   * regenerate: unless --force (default false) is given, the confirmation is asked first
   * and declining it ends the command with no other action; with --force nothing is asked.
   */
  function RegenerateCommand(force: bool, confirmed: bool, w: Connection.World, file: ConfigStore.ConfigFile,
                             reply: Api.Exchange<Node>): (r: Run)
    ensures !force && !confirmed ==> r == Run([Confirm(Question)], file, Finished)
    ensures force ==> r == DisconnectThenRegenerate(w, file, reply)
    ensures !force && confirmed ==> r == Prepend([Confirm(Question)], DisconnectThenRegenerate(w, file, reply))
  {
    if force then DisconnectThenRegenerate(w, file, reply)
    else if !confirmed then Run([Confirm(Question)], file, Finished)
    else Prepend([Confirm(Question)], DisconnectThenRegenerate(w, file, reply))
  }

  /** Declining does nothing but ask: no request, no subprocess, no save, the file untouched. */
  lemma DecliningDoesNothing(w: Connection.World, file: ConfigStore.ConfigFile, reply: Api.Exchange<Node>)
    ensures var r := RegenerateCommand(false, false, w, file, reply);
      && !AnyRequest(r.trace) && !AnyExec(r.trace) && !AnySave(r.trace) && r.config == file
      && Count(r.trace, Confirm(Question)) == 1
  {
  }
}

=== FILE: service.dfy ===
/**
 * Init-system detection from /etc/os-release and the command tables of the
 * start / stop / restart / enable / disable service operations.
 */
module InitService {
  import opened Wrappers
  import Text

  /** Index of the first line that starts with "ID=", or |lines| when none does. */
  function FirstIdLine(lines: seq<string>): (k: nat)
    ensures k <= |lines|
    ensures forall j :: 0 <= j < k ==> !Text.HasPrefix(lines[j], "ID=")
    ensures k < |lines| ==> Text.HasPrefix(lines[k], "ID=")
  {
    if |lines| == 0 then 0
    else if Text.HasPrefix(lines[0], "ID=") then 0
    else 1 + FirstIdLine(lines[1..])
  }

  /** On a line starting "ID=" the first '=' is the third character. */
  lemma AfterFirstOfIdLine(line: string)
    requires Text.HasPrefix(line, "ID=")
    ensures '=' in line && Text.AfterFirst(line, '=') == line[3..]
  {
    assert line[2] == '=' && line[..2] == "ID";
    Text.IndexOfUnique(line, '=', 2);
  }

  /**
   * getDistroID, given the contents of /etc/os-release (None when the file cannot be read):
   * the value of the first line that starts with "ID=", without surrounding quotes.
   */
  function DistroId(osRelease: Option<string>): (id: string)
    ensures |id| > 0 ==> id[0] != '"' && id[|id| - 1] != '"'
  {
    match osRelease
    case None => ""
    case Some(text) =>
      var lines := Text.Split(text, '\n');
      var k := FirstIdLine(lines);
      if k == |lines| then ""
      else
        AfterFirstOfIdLine(lines[k]);
        Text.TrimQuotes(Text.AfterFirst(lines[k], '='))
  }

  /** getDistroID yields "" when the file cannot be read. */
  lemma DistroIdUnreadable()
    ensures DistroId(None) == ""
  {
  }

  /** getDistroID yields "" when no line starts with "ID=". */
  lemma DistroIdWithoutIdLine(text: string)
    requires forall j :: 0 <= j < |Text.Split(text, '\n')| ==> !Text.HasPrefix(Text.Split(text, '\n')[j], "ID=")
    ensures DistroId(Some(text)) == ""
  {
  }

  /** getDistroID yields the rest of the first line starting with "ID=", with its quotes trimmed. */
  lemma DistroIdOfFirstIdLine(text: string, i: nat)
    requires i < |Text.Split(text, '\n')| && Text.HasPrefix(Text.Split(text, '\n')[i], "ID=")
    requires forall j :: 0 <= j < i ==> !Text.HasPrefix(Text.Split(text, '\n')[j], "ID=")
    ensures DistroId(Some(text)) == Text.TrimQuotes(Text.Split(text, '\n')[i][3..])
  {
    var lines := Text.Split(text, '\n');
    AfterFirstOfIdLine(lines[i]);
  }

  /** getInitSystem: Alpine uses OpenRC, every other distribution (or none) systemd. */
  function InitSystemOf(id: string): (init: string)
    ensures init == "openrc" <==> id == "alpine"
    ensures init == "systemd" || init == "openrc"
  {
    if id == "alpine" then "openrc" else "systemd"
  }

  datatype Verb = Start | Stop | Restart | Enable | Disable

  /** The word that names each operation on the command line of the service managers. */
  function VerbWord(verb: Verb): string {
    match verb
    case Start => "start"
    case Stop => "stop"
    case Restart => "restart"
    case Enable => "enable"
    case Disable => "disable"
  }

  /** The argument vector each operation runs under an init system, or the "unsupported" error. */
  function ServiceArgv(verb: Verb, init: string): (r: Result<seq<string>>)
    ensures r.Success? <==> init == "systemd" || init == "openrc"
    ensures r.Success? ==> |r.value| >= 3 && (r.value[0] == "systemctl" <==> init == "systemd")
    ensures r.Success? ==> r.value[0] in {"systemctl", "rc-service", "rc-update"}
    ensures init == "systemd" ==> r == Success(["systemctl", VerbWord(verb), "wiredoor.service"])
    ensures init == "openrc" && !verb.Enable? && !verb.Disable? ==> r == Success(["rc-service", "wiredoor", VerbWord(verb)])
    ensures r.Failure? ==> r.error == "unsupported init system: " + init
  {
    if init == "systemd" then
      var word := match verb
        case Start => "start"
        case Stop => "stop"
        case Restart => "restart"
        case Enable => "enable"
        case Disable => "disable";
      Success(["systemctl", word, "wiredoor.service"])
    else if init == "openrc" then
      match verb
      case Start => Success(["rc-service", "wiredoor", "start"])
      case Stop => Success(["rc-service", "wiredoor", "stop"])
      case Restart => Success(["rc-service", "wiredoor", "restart"])
      case Enable => Success(["rc-update", "add", "wiredoor", "default"])
      case Disable => Success(["rc-update", "del", "wiredoor"])
    else
      Failure("unsupported init system: " + init)
  }

  /**
   * StartService / StopService / RestartService / EnableService / DisableService: the command
   * run on the machine whose os-release is given. Detection never yields an unsupported init
   * system, so the error branch is unreachable and a command is always run.
   */
  function ServiceCommand(verb: Verb, osRelease: Option<string>): (argv: seq<string>)
    ensures |argv| >= 3 && argv[0] in {"systemctl", "rc-service", "rc-update"}
  {
    var id := DistroId(osRelease);
    InitSystemAlwaysSupported(id, verb);
    var r := ServiceArgv(verb, InitSystemOf(id));
    if r.Success? then r.value else []
  }

  /**
   * The command is the table entry for the detected init system, and it is a systemctl
   * command exactly when the distribution is not Alpine.
   */
  lemma ServiceCommandFollowsTable(verb: Verb, osRelease: Option<string>)
    ensures ServiceArgv(verb, InitSystemOf(DistroId(osRelease))) == Success(ServiceCommand(verb, osRelease))
    ensures ServiceCommand(verb, osRelease)[0] == "systemctl" <==> DistroId(osRelease) != "alpine"
  {
    InitSystemAlwaysSupported(DistroId(osRelease), verb);
  }

  /** Every distribution ID, including "", resolves to an init system the tables cover. */
  lemma InitSystemAlwaysSupported(id: string, verb: Verb)
    ensures ServiceArgv(verb, InitSystemOf(id)).Success?
  {
  }

  /** Under either init system, different operations run different commands. */
  lemma ServiceArgvInjective(v1: Verb, v2: Verb, init: string)
    requires ServiceArgv(v1, init).Success?
    ensures ServiceArgv(v1, init) == ServiceArgv(v2, init) ==> v1 == v2
  {
  }

  /** The OpenRC table: rc-service for start/stop/restart, rc-update for enable/disable. */
  lemma OpenRcTable(verb: Verb)
    ensures var argv := ServiceArgv(verb, "openrc").value;
      && (verb.Enable? ==> argv == ["rc-update", "add", "wiredoor", "default"])
      && (verb.Disable? ==> argv == ["rc-update", "del", "wiredoor"])
      && (!verb.Enable? && !verb.Disable? ==> argv == ["rc-service", "wiredoor", VerbWord(verb)])
  {
  }

  /** A line like VERSION_ID=... is not the ID line: the prefix must start the line. */
  lemma VersionIdIsNotId(rest: string)
    ensures !Text.HasPrefix("VERSION_ID=" + rest, "ID=")
  {
    assert ("VERSION_ID=" + rest)[0] == 'V';
  }
}

=== FILE: text.dfy ===
/**
 * The handful of Go standard-library string operations the client relies on:
 * strings.TrimSpace / Trim, ToLower / ToUpper, HasPrefix, Split, SplitN,
 * ReplaceAll for the two-character escape `\n`, and strconv.Itoa.
 */
module Text {
  import opened Wrappers

  /** Go's unicode.IsSpace: the ASCII white space, U+0085, U+00A0 and the Unicode space separators. */
  predicate IsSpace(c: char) {
    || c == ' ' || c == '\t' || c == '\n' || c == '\U{000B}' || c == '\U{000C}' || c == '\r'
    || c == '\U{0085}' || c == '\U{00A0}' || c == '\U{1680}'
    || ('\U{2000}' <= c <= '\U{200A}')
    || c == '\U{2028}' || c == '\U{2029}' || c == '\U{202F}' || c == '\U{205F}' || c == '\U{3000}'
  }

  predicate IsQuote(c: char) {
    c == '"'
  }

  /** Every character of s belongs to the cut set. */
  predicate AllIn(s: string, cut: char -> bool) {
    forall i :: 0 <= i < |s| ==> cut(s[i])
  }

  /** s without its longest prefix drawn from the cut set. */
  function TrimLeft(s: string, cut: char -> bool): (r: string)
    ensures |r| <= |s| && r == s[|s| - |r|..]
    ensures AllIn(s[..|s| - |r|], cut)
    ensures |r| > 0 ==> !cut(r[0])
    decreases |s|
  {
    if |s| > 0 && cut(s[0]) then TrimLeft(s[1..], cut) else s
  }

  /** s without its longest suffix drawn from the cut set. */
  function TrimRight(s: string, cut: char -> bool): (r: string)
    ensures |r| <= |s| && r == s[..|r|]
    ensures AllIn(s[|r|..], cut)
    ensures |r| > 0 ==> !cut(r[|r| - 1])
    decreases |s|
  {
    if |s| > 0 && cut(s[|s| - 1]) then TrimRight(s[..|s| - 1], cut) else s
  }

  /** strings.Trim with one of the cut sets. */
  function Trim(s: string, cut: char -> bool): string {
    TrimRight(TrimLeft(s, cut), cut)
  }

  /** strings.TrimSpace */
  function TrimSpace(s: string): string {
    Trim(s, IsSpace)
  }

  /** strings.Trim(s, `"`) */
  function TrimQuotes(s: string): string {
    Trim(s, IsQuote)
  }

  /** A string that neither starts nor ends with a cut character is its own trim. */
  lemma TrimUnpadded(s: string, cut: char -> bool)
    requires |s| == 0 || (!cut(s[0]) && !cut(s[|s| - 1]))
    ensures Trim(s, cut) == s
  {
  }

  lemma TrimLeftAllCut(s: string, cut: char -> bool)
    requires AllIn(s, cut)
    ensures TrimLeft(s, cut) == ""
  {
  }

  lemma {:induction false} TrimLeftPrefix(p: string, s: string, cut: char -> bool)
    requires AllIn(p, cut)
    ensures TrimLeft(p + s, cut) == TrimLeft(s, cut)
    decreases |p|
  {
    if |p| > 0 {
      assert (p + s)[1..] == p[1..] + s;
      TrimLeftPrefix(p[1..], s, cut);
    } else {
      assert p + s == s;
    }
  }

  lemma {:induction false} TrimRightSuffix(s: string, q: string, cut: char -> bool)
    requires AllIn(q, cut)
    ensures TrimRight(s + q, cut) == TrimRight(s, cut)
    decreases |q|
  {
    if |q| > 0 {
      assert (s + q)[..|s + q| - 1] == s + q[..|q| - 1];
      TrimRightSuffix(s, q[..|q| - 1], cut);
    } else {
      assert s + q == s;
    }
  }

  lemma {:induction false} TrimLeftKeepsSuffix(s: string, q: string, cut: char -> bool)
    requires exists i :: 0 <= i < |s| && !cut(s[i])
    ensures TrimLeft(s + q, cut) == TrimLeft(s, cut) + q
    decreases |s|
  {
    if cut(s[0]) {
      var i :| 0 <= i < |s| && !cut(s[i]);
      assert !cut(s[1..][i - 1]);
      assert (s + q)[1..] == s[1..] + q;
      TrimLeftKeepsSuffix(s[1..], q, cut);
    }
  }

  /** Trimming ignores any padding drawn from the cut set, on either side. */
  lemma TrimIgnoresPadding(p: string, s: string, q: string, cut: char -> bool)
    requires AllIn(p, cut) && AllIn(q, cut)
    ensures Trim(p + s + q, cut) == Trim(s, cut)
  {
    assert p + s + q == p + (s + q);
    TrimLeftPrefix(p, s + q, cut);
    if exists i :: 0 <= i < |s| && !cut(s[i]) {
      TrimLeftKeepsSuffix(s, q, cut);
      TrimRightSuffix(TrimLeft(s, cut), q, cut);
    } else {
      assert AllIn(s + q, cut) by {
        forall i | 0 <= i < |s + q| ensures cut((s + q)[i]) {
          if i < |s| {
            assert (s + q)[i] == s[i];
          } else {
            assert (s + q)[i] == q[i - |s|];
          }
        }
      }
      TrimLeftAllCut(s + q, cut);
      TrimLeftAllCut(s, cut);
    }
  }

  function LowerChar(c: char): char {
    if 'A' <= c <= 'Z' then (c as int + 32) as char else c
  }

  function UpperChar(c: char): char {
    if 'a' <= c <= 'z' then (c as int - 32) as char else c
  }

  /** strings.ToLower, restricted to the ASCII letters. */
  function ToLower(s: string): (r: string)
    ensures |r| == |s|
  {
    if |s| == 0 then "" else [LowerChar(s[0])] + ToLower(s[1..])
  }

  /** A string without upper-case ASCII letters is its own lower case. */
  lemma {:induction false} ToLowerKeepsLower(s: string)
    requires forall i :: 0 <= i < |s| ==> !('A' <= s[i] <= 'Z')
    ensures ToLower(s) == s
    decreases |s|
  {
    if |s| > 0 {
      ToLowerKeepsLower(s[1..]);
      assert s == [s[0]] + s[1..];
    }
  }

  /** strings.ToUpper, restricted to the ASCII letters. */
  function ToUpper(s: string): (r: string)
    ensures |r| == |s|
  {
    if |s| == 0 then "" else [UpperChar(s[0])] + ToUpper(s[1..])
  }

  /** strings.HasPrefix */
  predicate HasPrefix(s: string, prefix: string) {
    |prefix| <= |s| && s[..|prefix|] == prefix
  }

  /** Position of the first occurrence of c in s. */
  function IndexOf(s: string, c: char): (k: nat)
    requires c in s
    ensures k < |s| && s[k] == c && c !in s[..k]
  {
    if s[0] == c then 0 else 1 + IndexOf(s[1..], c)
  }

  /** strings.SplitN(s, sep, 2)[1]: the text after the first separator. */
  function AfterFirst(s: string, sep: char): (r: string)
    requires sep in s
    ensures |r| < |s| && r == s[|s| - |r|..]
    ensures sep !in s[..|s| - |r| - 1] && s[|s| - |r| - 1] == sep
  {
    var k := IndexOf(s, sep);
    assert s[|s| - |s[k + 1..]| - 1] == s[k];
    assert s[..|s| - |s[k + 1..]| - 1] == s[..k];
    s[k + 1..]
  }

  /** strings.Split with a one-character separator. */
  function Split(s: string, sep: char): (parts: seq<string>)
    ensures |parts| >= 1
    ensures forall i :: 0 <= i < |parts| ==> sep !in parts[i]
    decreases |s|
  {
    if sep !in s then [s]
    else
      var k := IndexOf(s, sep);
      [s[..k]] + Split(s[k + 1..], sep)
  }

  /** strings.Join with a one-character separator. */
  function Join(parts: seq<string>, sep: char): string {
    if |parts| == 0 then ""
    else if |parts| == 1 then parts[0]
    else parts[0] + [sep] + Join(parts[1..], sep)
  }

  lemma JoinCons(a: string, rest: seq<string>, sep: char)
    requires |rest| >= 1
    ensures Join([a] + rest, sep) == a + [sep] + Join(rest, sep)
  {
    assert ([a] + rest)[1..] == rest;
  }

  lemma {:induction false} JoinSplit(s: string, sep: char)
    ensures Join(Split(s, sep), sep) == s
    decreases |s|
  {
    if sep in s {
      var k := IndexOf(s, sep);
      var a, b := s[..k], s[k + 1..];
      assert s == a + [sep] + b;
      SplitCons(a, b, sep);
      JoinSplit(b, sep);
      JoinCons(a, Split(b, sep), sep);
    }
  }

  lemma SplitCons(a: string, b: string, sep: char)
    requires sep !in a
    ensures Split(a + [sep] + b, sep) == [a] + Split(b, sep)
  {
    var s := a + [sep] + b;
    assert s[|a|] == sep;
    assert s[..|a|] == a;
    IndexOfUnique(s, sep, |a|);
    assert s[|a| + 1..] == b;
  }

  lemma IndexOfUnique(s: string, c: char, k: nat)
    requires k < |s| && s[k] == c && c !in s[..k]
    ensures IndexOf(s, c) == k
  {
  }

  lemma {:induction false} SplitJoin(parts: seq<string>, sep: char)
    requires |parts| >= 1
    requires forall i :: 0 <= i < |parts| ==> sep !in parts[i]
    ensures Split(Join(parts, sep), sep) == parts
    decreases |parts|
  {
    if |parts| > 1 {
      SplitJoin(parts[1..], sep);
      SplitCons(parts[0], Join(parts[1..], sep), sep);
      assert parts == [parts[0]] + parts[1..];
    }
  }

  /** strings.ReplaceAll(s, `\n`, "\n"): every backslash-n pair, scanned left to right, becomes a newline. */
  function UnescapeNewlines(s: string): (r: string)
    ensures |r| <= |s|
    ensures |s| > 0 ==> |r| > 0 && (r[0] == s[0] || (r[0] == '\n' && s[0] == '\\'))
    decreases |s|
  {
    if |s| < 2 then s
    else if s[0] == '\\' && s[1] == 'n' then "\n" + UnescapeNewlines(s[2..])
    else [s[0]] + UnescapeNewlines(s[1..])
  }

  /** The two-character escape `\n` starts at position i. */
  predicate EscapeAt(s: string, i: nat)
    requires i + 1 < |s|
  {
    s[i] == '\\' && s[i + 1] == 'n'
  }

  /** The two-character escape `\n` occurs nowhere in s. */
  predicate NoEscapedNewline(s: string) {
    forall i :: 0 <= i < |s| - 1 ==> !EscapeAt(s, i)
  }

  /** The unescaped text never contains the escape it replaces. */
  lemma {:induction false} UnescapeLeavesNoEscape(s: string)
    ensures NoEscapedNewline(UnescapeNewlines(s))
    decreases |s|
  {
    if |s| >= 2 {
      if s[0] == '\\' && s[1] == 'n' {
        UnescapeLeavesNoEscape(s[2..]);
        var t := UnescapeNewlines(s[2..]);
        assert UnescapeNewlines(s) == "\n" + t;
        assert forall i :: 1 <= i < |t| ==> EscapeAt("\n" + t, i) == EscapeAt(t, i - 1);
      } else {
        UnescapeLeavesNoEscape(s[1..]);
        var t := UnescapeNewlines(s[1..]);
        assert UnescapeNewlines(s) == [s[0]] + t;
        assert forall i :: 1 <= i < |t| ==> EscapeAt([s[0]] + t, i) == EscapeAt(t, i - 1);
      }
    }
  }

  /** The inverse direction: each newline written as the escape `\n`. */
  function EscapeNewlines(s: string): (r: string)
    ensures '\n' !in r
    ensures |r| >= |s|
    ensures forall i :: 0 <= i < |r| ==> r[i] == '\\' || r[i] == 'n' || r[i] in s
  {
    if |s| == 0 then ""
    else if s[0] == '\n' then "\\n" + EscapeNewlines(s[1..])
    else [s[0]] + EscapeNewlines(s[1..])
  }

  lemma {:induction false} UnescapeEscape(s: string)
    requires '\\' !in s
    ensures UnescapeNewlines(EscapeNewlines(s)) == s
    decreases |s|
  {
    if |s| > 0 {
      UnescapeEscape(s[1..]);
      var t := EscapeNewlines(s[1..]);
      if s[0] == '\n' {
        assert ("\\n" + t)[2..] == t;
      } else if |t| > 0 {
        assert ([s[0]] + t)[1..] == t;
      } else {
        assert |s[1..]| == 0;
      }
    }
  }

  predicate IsDigit(c: char) {
    '0' <= c <= '9'
  }

  predicate AllDigits(s: string) {
    forall i :: 0 <= i < |s| ==> IsDigit(s[i])
  }

  function DigitChar(d: nat): (c: char)
    requires d < 10
    ensures IsDigit(c) && c as int - '0' as int == d
  {
    ('0' as int + d) as char
  }

  /** Decimal text of a natural number, without leading zeros. */
  function NatToString(n: nat): (r: string)
    ensures |r| >= 1 && AllDigits(r)
    ensures |r| > 1 ==> r[0] != '0'
    decreases n
  {
    if n < 10 then [DigitChar(n)] else NatToString(n / 10) + [DigitChar(n % 10)]
  }

  /** The number a string of decimal digits denotes. */
  function ParseNat(s: string): nat
    requires AllDigits(s)
  {
    if |s| == 0 then 0 else 10 * ParseNat(s[..|s| - 1]) + (s[|s| - 1] as int - '0' as int)
  }

  lemma {:induction false} ParseNatToString(n: nat)
    ensures ParseNat(NatToString(n)) == n
    decreases n
  {
    if n >= 10 {
      ParseNatToString(n / 10);
      var s := NatToString(n);
      assert s[..|s| - 1] == NatToString(n / 10);
    }
  }

  /** strconv.Itoa */
  function IntToString(n: int): string {
    if n < 0 then "-" + NatToString(-n) else NatToString(n)
  }

  /** Reads back what IntToString writes: an optional minus sign and digits. */
  function ParseInt(s: string): Option<int> {
    if |s| > 0 && s[0] == '-' && AllDigits(s[1..]) then Some(0 - ParseNat(s[1..]))
    else if AllDigits(s) then Some(ParseNat(s))
    else None
  }

  lemma ParseIntToString(n: int)
    ensures ParseInt(IntToString(n)) == Some(n)
  {
    if n < 0 {
      var digits := NatToString(-n);
      ParseNatToString(-n);
      ParseNegative(digits);
      assert IntToString(n) == "-" + digits;
    } else {
      var digits := NatToString(n);
      ParseNatToString(n);
      ParseDigits(digits);
      assert IntToString(n) == digits;
    }
  }

  /** A minus sign followed by digits reads as the negated number. */
  lemma ParseNegative(digits: string)
    requires AllDigits(digits)
    ensures ParseInt("-" + digits) == Some(0 - ParseNat(digits))
  {
    assert ("-" + digits)[1..] == digits;
  }

  /** Digits alone read as their number. */
  lemma ParseDigits(digits: string)
    requires |digits| >= 1 && AllDigits(digits)
    ensures ParseInt(digits) == Some(ParseNat(digits))
  {
    assert IsDigit(digits[0]);
  }

  /** Distinct numbers print differently. */
  lemma IntToStringInjective(a: int, b: int)
    ensures IntToString(a) == IntToString(b) ==> a == b
  {
    ParseIntToString(a);
    ParseIntToString(b);
  }
}

=== FILE: units.dfy ===
/**
 * The integer part of formatBytes: plain bytes below 1024, otherwise the binary unit
 * (KiB … EiB) whose size divides the count into the range [1, 1024).
 */
module Units {
  import opened Wrappers
  import Text

  /** Go's int64. */
  type Int64 = x: int | -0x8000_0000_0000_0000 <= x < 0x8000_0000_0000_0000

  const Unit := 1024

  /** 1024 to the power k. */
  function Pow1024(k: nat): (p: nat)
    ensures p >= 1
  {
    if k == 0 then 1 else Unit * Pow1024(k - 1)
  }

  lemma {:induction false} Pow1024Monotone(j: nat, k: nat)
    requires j <= k
    ensures Pow1024(j) <= Pow1024(k)
  {
    if j < k {
      Pow1024Monotone(j, k - 1);
    }
  }

  /** The number of further divisions by 1024 it takes to bring n below 1024. */
  function ScaleExp(n: nat): nat
    decreases n
  {
    if n < Unit then 0 else 1 + ScaleExp(n / Unit)
  }

  /**
   * The loop of formatBytes for b >= 1024: div starts at 1024 and is multiplied by 1024
   * while b / div is still at least 1024. It stops at the unit whose size is at most b
   * and whose next multiple exceeds b, and for every int64 that is one of the six units
   * K, M, G, T, P, E.
   */
  method UnitIndex(b: Int64) returns (exp: nat, div: int)
    requires b >= Unit
    ensures exp == ScaleExp(b / Unit)
    ensures div == Pow1024(exp + 1) && div <= b < Unit * div
    ensures exp < 6
  {
    div, exp := Unit, 0;
    var n := b / Unit;
    while n >= Unit
      invariant div == Pow1024(exp + 1)
      invariant n >= 0 && exp + ScaleExp(n) == ScaleExp(b / Unit)
      decreases n
    {
      div := div * Unit;
      exp := exp + 1;
      n := n / Unit;
    }
    assert exp == ExpOf(b);
  }

  /** The unit letter and its position: exp is ScaleExp of the count in KiB. */
  function Letter(exp: nat): (c: char)
    requires exp < 6
  {
    "KMGTPE"[exp]
  }

  /** What formatBytes prints before the float formatting: the count, or the count and its unit. */
  datatype Size = Bytes(text: string) | Scaled(bytes: int, divisor: int, unit: string)

  /** The unit index as a function, for use in specifications. */
  function ExpOf(b: Int64): (exp: nat)
    requires b >= Unit
    ensures exp < 6
    ensures Pow1024(exp + 1) <= b < Pow1024(exp + 2)
  {
    ScaleExpBounds(b / Unit);
    ScaleUp(b, Pow1024(ScaleExp(b / Unit)), Pow1024(ScaleExp(b / Unit) + 1));
    assert ScaleExp(b / Unit) < 6 by {
      if ScaleExp(b / Unit) >= 6 {
        Pow1024Monotone(7, ScaleExp(b / Unit) + 1);
        assert false;
      }
    }
    ScaleExp(b / Unit)
  }

  /** Only one unit brackets b: the power of 1024 at most b whose successor exceeds b. */
  lemma ExpOfUnique(b: Int64, e: nat)
    requires b >= Unit
    requires Pow1024(e + 1) <= b < Pow1024(e + 2)
    ensures e == ExpOf(b)
  {
    var x := ExpOf(b);
    if e < x {
      Pow1024Monotone(e + 2, x + 1);
    } else if x < e {
      Pow1024Monotone(x + 2, e + 1);
    }
  }

  /** n lies between 1024^ScaleExp(n) and the next power. */
  lemma {:induction false} ScaleExpBounds(n: nat)
    requires n >= 1
    ensures Pow1024(ScaleExp(n)) <= n < Pow1024(ScaleExp(n) + 1)
    decreases n
  {
    if n >= Unit {
      ScaleExpBounds(n / Unit);
    }
  }

  /** Bounds on n = b / 1024 carry over to b, one power up. */
  lemma ScaleUp(b: nat, lo: nat, hi: nat)
    requires lo <= b / Unit < hi
    ensures Unit * lo <= b < Unit * hi
  {
  }

  /**
   * formatBytes: "<b> B" below 1024 (negative counts included), otherwise the count over
   * the largest power of 1024 not above it, with the unit letter and "iB".
   */
  function FormatBytes(b: Int64): Size {
    if b < Unit then Bytes(Text.IntToString(b) + " B")
    else
      var exp := ExpOf(b);
      Scaled(b, Pow1024(exp + 1), [Letter(exp)] + "iB")
  }

  /**
   * Below 1024 the count is printed as it is, negative counts included, and reads back;
   * from 1024 on it is divided by the power of 1024 that brings it into [1, 1024), and the
   * unit names that power.
   */
  lemma FormatBytesShows(b: Int64)
    ensures var s := FormatBytes(b);
      && (b < Unit ==> s.Bytes? && |s.text| >= 2 && Text.ParseInt(s.text[..|s.text| - 2]) == Some(b) && s.text[|s.text| - 2..] == " B")
      && (b >= Unit ==> s.Scaled? && s.bytes == b && s.divisor <= b < Unit * s.divisor)
      && (b >= Unit ==> exists exp: nat :: exp < 6 && s.divisor == Pow1024(exp + 1) && s.unit == [Letter(exp)] + "iB")
  {
    if b < Unit {
      Text.ParseIntToString(b);
      var t := Text.IntToString(b) + " B";
      assert t[..|t| - 2] == Text.IntToString(b);
    } else {
      var exp := ExpOf(b);
      assert FormatBytes(b).divisor == Pow1024(exp + 1);
    }
  }
}

=== FILE: wrappers.dfy ===
/** Failure-compatible helper datatypes shared by the model. */
module Wrappers {

  /** An optional value: a missing file, a nil response body, an absent match. */
  datatype Option<+T> = None | Some(value: T) {

    /** The value, or a default when there is none. */
    function GetOr(default: T): T {
      match this
      case Some(v) => v
      case None => default
    }
  }

  /** A value or the error text the source would have returned instead. */
  datatype Result<+R> = Success(value: R) | Failure(error: string)
}
